=== FILE: README.md ===
# aispeech core in Dafny

A model of the deterministic core of the aispeech teaching and voice-chat backend and
of three pieces of its web client. The model covers:

- **The AI manager base.** This is the Markdown fence cleaner and the resettable manager
  state. It also covers the boundary-repair pass `build_chunks` runs over the HTML
  splitter's chunks, and the recursive summariser.
- **The audio manager.** This covers magic-byte format detection and the conversion
  dispatch. It also covers the one-minute window arithmetic of `convert_audio_to_text`
  and the neighbour-context loop of `advanced_stt`.
- **The Gemini manager.** This covers the prompt window that `add_message` builds, and
  the precondition checks of `generate_response`.
- **The teacher consumers.** Each has a character-budget chat window. The book teacher
  also has next-concept selection, Q&A flattening and the expansion of search hits to
  their neighbours.
- **The translating chat bot.** This covers frame dispatch and the per-chunk translation
  loop.
- **The class-room manager.** This covers rooms, memberships with their ordered error
  checks, and teaching contents.
- **The two room registries.** `StreamingConsumer` assigns offerer/answerer roles and
  broadcasts member counts. `RoomConsumer` filters join notices so the sender never gets
  its own.
- **The client.** This covers the dashboard's message handler, with its "start the class
  once" latch. It also covers the video-room feed registry, in both its current
  (`VoiceStreaming.js`) and earlier (`Worked.js`) versions.

Everything the code hands to a service is a function-valued parameter (an oracle). That
includes the HTML splitter, the OpenAI and Gemini generators, the summariser,
speech-to-text, text-to-speech, ffmpeg, the synchronisation pipeline, base64 and JSON
decoding, and `int()` on strings. The model states what the core does around these
calls: which requests it makes, in which order, and what it does with the answers.

Two properties of the splitter are stated as explicit hypotheses (`SplitsExactly`:
`head + tail == html`; `HeadsAreComplete`). Only the lemmas that need them assume them.

Module layout, one file each: `Wrappers` (Option/Result), `Text` (strip, join, number
formatting), `PythonCall` (how a Python call binds keyword arguments), `ChunkContext` (the neighbour loop shared by `advanced_stt` and the chat
bot), `AiManager`, `AudioManager`, `GoogleAiManager`, `ChatWindow` (the chat window the
four teacher files share), `TeacherConsumer`, `FrenchTeacher`, `EnglishTeacher`,
`GeneralTeacher`, `ChatBot`, `ClassRoom`, `Streaming`, `RoomSocket`, `Dashboard`,
`FeedRegistry` (VoiceStreaming.js) and `WorkedClient` (Worked.js).

The four teacher consumer files repeat the same `_add_message_to_chat_history` and the same
start of `_respond_to_user`. Both are defined once in `ChatWindow`, so the per-file modules
have identical contracts.

## Model

| member | source | states |
|---|---|---|
| AiManager.NewManager | api/ai/utils/ai_manager.py:10-14 | a new manager has no messages, an empty prompt, zero cost and the given AI type |
| AiManager.ClearCost | api/ai/utils/ai_manager.py:35-45 | the cost becomes zero; messages, prompt and AI type are unchanged |
| AiManager.ClearMessages | api/ai/utils/ai_manager.py:47-58 | messages and prompt are emptied; cost and AI type are unchanged |
| AiManager.CleanCodeBlock | api/ai/utils/ai_manager.py:16-21 | the result never has surrounding whitespace; a response that is not fenced after stripping comes back stripped |
| AiManager.FencedRoundTrip | api/ai/utils/ai_manager.py:17-20 | a body wrapped in a fence with tag `json`, `html` or none, followed by a newline, comes back as the stripped body, whatever the body holds |
| AiManager.CleanIsNotIdempotent | api/ai/utils/ai_manager.py:17-21 | cleaning twice can differ from cleaning once: a fenced block nested in a fence loses one fence per call |
| AiManager.FenceBodyStart | api/ai/utils/ai_manager.py:17 | the inner group starts after the opening fence and before the closing fence, so the two fences never overlap |
| AiManager.RepairAt | api/ai/utils/ai_manager.py:91-96 | one iteration changes only chunks i and i+1, keeps the chunk count, and changes anything exactly when the tail for chunk i is non-empty |
| AiManager.RepairBoundaries | api/ai/utils/ai_manager.py:90-97 | the in-place loop over i < n-1 computes the pair-at-a-time reference pass, keeps the number of chunks, and keeps the concatenated markup when head + tail == html |
| AiManager.RepairAtAgreesWithRef | api/ai/utils/ai_manager.py:90-96 | one loop step carries the invariant "prefix done, reference pass on the suffix" to the next index |
| AiManager.RepairPreservesMarkup | api/ai/utils/ai_manager.py:91-95 | when head + tail == html, the pass neither loses nor invents markup: the concatenation of all html fields is unchanged |
| AiManager.RepairKeepsLastChunkWhole | api/ai/utils/ai_manager.py:90 | the last chunk is never cut; its original markup survives as a suffix of the repaired last chunk |
| AiManager.RepairOfCleanChunksIsIdentity | api/ai/utils/ai_manager.py:92 | when no chunk before the last has a dangling tail, the pass changes nothing |
| AiManager.RepairLeavesCleanBoundaries | api/ai/utils/ai_manager.py:90-96 | if the splitter's heads are complete, no chunk but the last has a dangling tail after repair |
| AiManager.BuildChunks | api/ai/utils/ai_manager.py:87-97 | the repair keeps exactly as many chunks as the splitter produced |
| AiManager.BuildChunksRepairs | api/ai/utils/ai_manager.py:87-97 | the last chunk is never cut; when head + tail == html no markup is lost or invented; when the splitter's heads are complete no chunk but the last has a dangling tail |
| AiManager.SummaryCall | api/ai/utils/ai_manager.py:131-139 | OpenAI gets the system prompt and the text as messages, Google gets a prompt ending in the text, both with max_token = max_length; any other AI type has no request |
| AiManager.ChunkCalls | api/ai/utils/ai_manager.py:144-153 | one request per chunk, in chunk order, on that chunk's text |
| AiManager.Summarize | api/ai/utils/ai_manager.py:113-157 | every request carries max_length; an unknown AI type fails before any request; a summary is the answer to the run's last request, and that request is the one-request shape on some text of at most max_summary_input characters, however deep the recursion went |
| AiManager.SummarizeShortInput | api/ai/utils/ai_manager.py:130-140 | an input of at most max_summary_input characters costs exactly one request, on the whole text, whose answer is the summary |
| AiManager.SummarizeLongInput | api/ai/utils/ai_manager.py:141-156 | a longer input first costs one request per repaired chunk, in order, and then the summary of the space-joined answers |
| AudioManager.DetectFormat | api/ai/utils/audio_manager.py:228-237 | WAV exactly when the input starts with RIFF; MP3 only on ID3 or FF FB; M4A only on 00 00 00 20 or `ftyp` at offset 4 |
| AudioManager.DetectFormatIsFirstMatch | api/ai/utils/audio_manager.py:228-237 | detection is the first matching row of the signature table in source order, WebM when none matches, so it is total |
| AudioManager.RiffWins | api/ai/utils/audio_manager.py:229-230 | a RIFF header is WAV whatever follows it |
| AudioManager.Id3IsMp3 | api/ai/utils/audio_manager.py:231-232 | an ID3 tag is MP3 |
| AudioManager.FrameSyncIsMp3 | api/ai/utils/audio_manager.py:231-232 | a leading FF FB is MP3 |
| AudioManager.EbmlIsWebm | api/ai/utils/audio_manager.py:233-234 | an EBML header is WebM |
| AudioManager.BoxSizeIsM4a | api/ai/utils/audio_manager.py:235-236 | a leading 00 00 00 20 is M4A |
| AudioManager.FtypIsM4a | api/ai/utils/audio_manager.py:235-236 | `ftyp` at offset 4 is M4A when the first four bytes match no earlier signature |
| AudioManager.ShortInputIsWebm | api/ai/utils/audio_manager.py:237 | the empty input and one-byte inputs are WebM |
| AudioManager.EffectiveFormat | api/ai/utils/audio_manager.py:239 | a non-empty explicit format wins; None or "" falls through to detection |
| AudioManager.Container | api/ai/utils/audio_manager.py:240-283 | WAV needs no conversion; mp3 and m4a are converted as themselves; every other name is converted as WebM |
| AudioManager.ConvertAudioBytesToWav | api/ai/utils/audio_manager.py:217-283 | the input comes back unchanged exactly when the format is wav; otherwise the result is ffmpeg's on the chosen container |
| AudioManager.ExplicitFormatOverridesDetection | api/ai/utils/audio_manager.py:239-241 | an explicit format decides the conversion whatever the bytes say, and explicit wav returns the bytes unchanged |
| AudioManager.RiffInputIsReturnedUnchanged | api/ai/utils/audio_manager.py:239-241 | undeclared input with a RIFF header is returned without calling ffmpeg |
| AudioManager.NumChunks | api/ai/utils/audio_manager.py:304 | the count is the ceiling of duration / window (the smallest n with n·c ≥ d), and dividing by a zero window fails |
| AudioManager.WindowIsSlice | api/ai/utils/audio_manager.py:306 | limiting to (k+1)·c and then skipping k·c leaves exactly frames k·c up to min((k+1)·c, d) |
| AudioManager.WindowSize | api/ai/utils/audio_manager.py:304-306 | every window the loop visits is non-empty and at most one window long |
| AudioManager.WindowsArePrefix | api/ai/utils/audio_manager.py:305-306 | the first k windows laid end to end are the first min(k·c, d) frames |
| AudioManager.WindowsCoverAudio | api/ai/utils/audio_manager.py:304-306 | the windows of the loop cover the audio exactly once, in order |
| AudioManager.LimitDuration | api/ai/utils/audio_manager.py:159-161 | keeps the first min(m, d) frames |
| AudioManager.SkipDuration | api/ai/utils/audio_manager.py:108-116 | skipping s frames succeeds exactly when s is at most the frame count and leaves the last d − s frames; a position past the end fails with the position error |
| AudioManager.LimitThenSkipIsWhole | api/ai/utils/audio_manager.py:108-116 | the first s frames and what skipping s frames leaves are the whole audio, in order, with nothing lost or repeated |
| AudioManager.WindowIsSkip | api/ai/utils/audio_manager.py:182-185 | for a window that starts inside the audio, limiting and then skipping succeeds and yields exactly that window |
| AudioManager.VisitedWindowSkipSucceeds | api/ai/utils/audio_manager.py:304-306 | every window the loop asks for starts inside the audio, so the skip in `advanced_stt` never fails |
| AudioManager.AdvancedStt | api/ai/utils/audio_manager.py:195-211 | the manager's message list grows by the four instructions and four context lines per chunk, and what was there before is untouched |
| AudioManager.AdvancedSttTextIsJoin | api/ai/utils/audio_manager.py:201-215 | the text is the stripped space-join of one improved response per chunk, each asked with that chunk's neighbours as context |
| AudioManager.TranscribeAll | api/ai/utils/audio_manager.py:305-309 | one text per window, and the message list only grows: the starting list stays at its front |
| AudioManager.TranscribeAllAt | api/ai/utils/audio_manager.py:305-309 | window j's text is `advanced_stt` on window j, run on the message list left by windows 0..j-1 |
| AudioManager.TranscribeNextWindow | api/ai/utils/audio_manager.py:305-309 | one more loop step appends `advanced_stt`'s text for the next window and continues from the message list it leaves |
| AudioManager.AccumulateNextWindow | api/ai/utils/audio_manager.py:305-309 | one loop step keeps both loop facts: the texts and messages are those of the first k+1 windows, and the accumulator is every text followed by a space |
| AudioManager.WindowLoop | api/ai/utils/audio_manager.py:305-309 | after the first n windows the texts and the message list are TranscribeAll of those windows, and the accumulator is each text followed by one space, in window order |
| AudioManager.ConvertAudioToText | api/ai/utils/audio_manager.py:302-310 | a zero window fails; otherwise the result is the stripped space-join of one `advanced_stt` text per window, in window order |
| ChunkContext.ContextLines | api/ai/utils/audio_manager.py:204-210 | four system lines per chunk: previous, current and next text, then the summary |
| ChunkContext.History | api/ai/utils/audio_manager.py:207-210 | after k chunks the message list holds the start plus four lines per chunk |
| ChunkContext.ResponseAt | api/ai/utils/audio_manager.py:211 | response i is the generator's answer to the message list ending with chunk i's four context lines |
| ChunkContext.ContextLoop | api/websocket/consumers/chat_bot.py:48-57 | the loop as written asks one response per chunk in order, leaves the full message list, and accumulates each response followed by a space |
| ChunkContext.HistoryLayout | api/ai/utils/audio_manager.py:203-210 | the message list only grows: the start is untouched and chunk j's four lines sit at their fixed offset |
| ChunkContext.NeighboursAreEmptyOnlyAtTheEnds | api/ai/utils/audio_manager.py:204-206 | with non-empty chunk texts, the previous text is "" exactly at the first chunk and the next text is "" exactly at the last |
| ChunkContext.SpaceTerminatedIsJoin | api/ai/utils/audio_manager.py:212 | the accumulated text is the space-join of the responses plus one trailing space |
| GoogleAiManager.ParseRole | api/ai/utils/google_ai_manager.py:65-66 | exactly "system", "user" and "assistant" are accepted, each as its own role |
| GoogleAiManager.Older | api/ai/utils/google_ai_manager.py:70 | `messages[:-k]`: all but the last k when k > 0 (the k = 0 case is stated by WindowPartitionsHistory) |
| GoogleAiManager.Recent | api/ai/utils/google_ai_manager.py:71 | `messages[-k:]`: the last k when k > 0 |
| GoogleAiManager.WindowPartitionsHistory | api/ai/utils/google_ai_manager.py:70-71 | older then recent is the whole history; the recent part has exactly k messages when k > 0 and is the whole history when k is 0 |
| GoogleAiManager.LinesPartitionOlder | api/ai/utils/google_ai_manager.py:74-80 | every older message becomes exactly one summary line or one system line |
| GoogleAiManager.NoSystemLinesWithoutSystemMessages | api/ai/utils/google_ai_manager.py:79-80 | only system messages produce system lines |
| GoogleAiManager.Section | api/ai/utils/google_ai_manager.py:84-87 | an empty body drops the block; otherwise heading, body and newline |
| GoogleAiManager.WindowedPrompt | api/ai/utils/google_ai_manager.py:72-95 | the recent block is the header and the last k messages; older system lines are copied verbatim; older user/assistant turns cost one summary request, and none (with no block) when there are none |
| GoogleAiManager.WindowedPromptShape | api/ai/utils/google_ai_manager.py:88-95 | a windowed prompt ends with the header and exactly the last k messages, in order |
| GoogleAiManager.AddMessage | api/ai/utils/google_ai_manager.py:49-104 | an unknown role changes nothing; otherwise exactly one message is appended (None text as ""), the history is never cut, and the prompt is the full rendering or the windowed prompt, with at most one summary request |
| GoogleAiManager.AddMessageZeroWindow | api/ai/utils/google_ai_manager.py:69-71 | with max_history 0 every message lands in the recent block and nothing is summarised |
| GoogleAiManager.PromptAfterAddIsNonEmpty | api/ai/utils/google_ai_manager.py:83-104 | after a successful add the stored prompt is never empty |
| GoogleAiManager.GenerateResponseAsWritten | api/ai/utils/google_ai_manager.py:120-131 | no model raises RuntimeError and an empty effective prompt raises ValueError before any call; a success needs an explicit prompt |
| GoogleAiManager.StoredPromptCallFails | api/ai/utils/google_ai_manager.py:122-127 | with no prompt argument and a stored prompt, the model is called and the call then fails on the token count |
| GoogleAiManager.GenerateResponse | api/ai/utils/google_ai_manager.py:120-131 | the same two errors; otherwise exactly one model call on the effective prompt, whose answer is returned |
| GoogleAiManager.GenerateResponseAgreesWithExplicitPrompt | api/ai/utils/google_ai_manager.py:122-127 | both versions agree when a prompt is passed; with the stored prompt only the corrected one answers |
| PythonCall.BindKeywords | api/websocket/consumers/chat_bot.py:59-64 | a call goes ahead exactly when every keyword names a declared parameter; otherwise it fails naming the first keyword that names none |
| ChatWindow.RecentStartIsTight | api/websocket/consumers/teacher.py:76-82 | over budget, the split leaves at least one older entry, the recent suffix fits, and the entry before it would not fit |
| ChatWindow.SplitIndex | api/websocket/consumers/teacher.py:76-82 | the backwards loop stops at the first entry that takes the sum over budget, and its split is the reference split point |
| ChatWindow.StartIsUnique | api/websocket/consumers/teacher.py:76-82 | only one index is a tight split, so any loop finding one agrees with the reference |
| ChatWindow.RecentEmptyIffNewestTooLong | api/websocket/consumers/teacher.py:80-81 | the recent part is empty exactly when the newest message alone is over budget |
| ChatWindow.AddMessage | api/websocket/consumers/teacher.py:71-97 | exactly one entry is appended and the history is never cut; within budget the text is the in-order rendering with no summary request; over budget older ++ recent is the history, the older part is summarised once, and the text is summary, marker and recent rendering |
| ChatWindow.AddMessageKeepsLargestFittingSuffix | api/websocket/consumers/teacher.py:76-92 | over budget the verbatim part is the largest suffix that fits, and the text ends with the marker and that suffix rendered |
| ChatWindow.SenderName | api/websocket/consumers/teacher.py:249 | the first name, or "user" when it is empty |
| ChatWindow.CurrentMessage | api/websocket/consumers/teacher.py:237-246 | the pending text stripped, and replaced by its summary when longer than 5000 characters |
| ChatWindow.Respond | api/websocket/consumers/teacher.py:237-250 | the pending message is reset to ""; the answered message is recorded under the sender's name and the pipeline's SSML under "ai_bot"; the history text given to the pipeline is the text of the history after the user's entry was added, summarised above 5000 characters |
| ChatWindow.RespondWindowsTheUserMessage | api/websocket/consumers/teacher.py:248-250 | the history text the pipeline sees is the window over a history whose newest entry is the user's message |
| ChatWindow.SttCallIsRejected | api/ai/utils/audio_manager.py:285 | `convert_audio_to_text` declares neither `do_final_edition` nor `target_language`, so the teachers' call is rejected on `do_final_edition` |
| ChatWindow.HearAudio | api/websocket/consumers/teacher.py:217-229 | with the transcription called on the audio alone: a frame that decodes and transcribes appends its transcript to the pending message and asks for a reply exactly on the last chunk; otherwise the failing step is reported and the message is left alone |
| ChatWindow.HearAudioAsWritten | api/websocket/consumers/teacher.py:221-223 | as written, every frame that decodes is answered with the TypeError, so the pending message never grows from audio |
| TeacherConsumer.AddMessageToChatHistory | api/websocket/consumers/teacher.py:71-97 | the chat window with its default budget of 5000 characters: one entry appended; within budget the plain rendering and no summary request; over budget exactly one summary request, on the older part, and the text is that summary, the marker and the largest fitting suffix rendered |
| TeacherConsumer.NeighbourIndices | api/websocket/consumers/teacher.py:269-271 | contains every hit, its successor and (when positive) its predecessor, and nothing else |
| TeacherConsumer.NeighbourIndicesAreClose | api/websocket/consumers/teacher.py:270-271 | every index is within distance one of some hit |
| TeacherConsumer.FlattenQa | api/websocket/consumers/teacher.py:137-139 | an item is in the result exactly when it comes from some stored value: a list's items or the value itself |
| TeacherConsumer.FlattenQaAppend | api/websocket/consumers/teacher.py:137-139 | flattening keeps order: it distributes over concatenation |
| TeacherConsumer.FlattenQaSingle | api/websocket/consumers/teacher.py:138 | a list is spliced in place and anything else stays a single item |
| TeacherConsumer.SelectNext | api/websocket/consumers/teacher.py:103-114 | picks the first teachable row (unlearned, content of at least 50 characters, non-empty Q&A) with the lowest chunk index, and nothing exactly when no row is teachable |
| TeacherConsumer.NextConceptIsUnique | api/websocket/consumers/teacher.py:103-114 | the query's first result (teachable, lowest chunk index, earliest in row order) is one row at most |
| TeacherConsumer.MarkLearned | api/websocket/consumers/teacher.py:121-126 | rows with the id become learned; every other row is unchanged |
| TeacherConsumer.QaValuesAt | api/websocket/consumers/teacher.py:129-136 | exactly the Q&A values of the rows at the chunk index, learned or not: each such row's value is in the result, and every value comes from such a row |
| TeacherConsumer.QaValuesAtAppend | api/websocket/consumers/teacher.py:129-136 | the values keep row order: the selection distributes over concatenation |
| TeacherConsumer.QaValuesAtSingle | api/websocket/consumers/teacher.py:129-136 | one row contributes its value exactly when it is at the chunk index |
| TeacherConsumer.NextContent | api/websocket/consumers/teacher.py:102-141 | with nothing teachable the content is None, the Q&A list is empty and nothing is marked; otherwise the next concept is marked learned, its content is taught and its chunk index's Q&A values are flattened |
| TeacherConsumer.NextContentIsConsumed | api/websocket/consumers/teacher.py:121-126 | the chosen concept is no longer teachable afterwards, every row with another id is unchanged, and no row becomes teachable |
| TeacherConsumer.RespondToUser | api/websocket/consumers/teacher.py:234-321 | the next concept is chosen first; the pending message is reset, summarised above 5000 characters and recorded; the book chunks read are the search hits and their neighbours; the instructions are built from the concept, the windowed history, those chunks and the Q&A list; the pipeline's answer is recorded after the message |
| FrenchTeacher.AddMessageToChatHistory | api/websocket/consumers/french_teacher.py:156-182 | the chat window with its default budget of 5000 characters: one entry appended; within budget the plain rendering and no summary request; over budget exactly one summary request, on the older part, and the text is that summary, the marker and the largest fitting suffix rendered |
| FrenchTeacher.RespondToUser | api/websocket/consumers/french_teacher.py:236-249 | the pending message is reset, stripped and recorded, and the answer follows it; the history text given to the pipeline is the text of the history after the user's entry was added, summarised above 5000 characters |
| EnglishTeacher.AddMessageToChatHistory | api/websocket/consumers/english_teacher.py:99-125 | the chat window with its default budget of 5000 characters: one entry appended; within budget the plain rendering and no summary request; over budget exactly one summary request, on the older part, and the text is that summary, the marker and the largest fitting suffix rendered |
| EnglishTeacher.RespondToUser | api/websocket/consumers/english_teacher.py:173-186 | the pending message is reset, stripped and recorded, and the answer follows it; the history text given to the pipeline is the text of the history after the user's entry was added, summarised above 5000 characters |
| GeneralTeacher.AddMessageToChatHistory | api/websocket/consumers/general_teacher.py:92-118 | the chat window with its default budget of 5000 characters: one entry appended; within budget the plain rendering and no summary request; over budget exactly one summary request, on the older part, and the text is that summary, the marker and the largest fitting suffix rendered |
| GeneralTeacher.RespondToUser | api/websocket/consumers/general_teacher.py:164-177 | the pending message is reset, stripped and recorded, and the answer follows it; the history text given to the pipeline is the text of the history after the user's entry was added, summarised above 5000 characters |
| ChatBot.Classify | api/websocket/consumers/chat_bot.py:21-29 | a frame reaches the audio handler exactly when it decodes to an object whose "type" is "audio"; invalid JSON is recognised exactly when decoding fails |
| ChatBot.OnlyObjectsDispatch | api/websocket/consumers/chat_bot.py:25 | no non-object is dispatched, and `"type" in` a number, boolean or null raises |
| ChatBot.IntOf | api/websocket/consumers/chat_bot.py:33 | Python's `int()` on a JSON value: numbers as themselves, booleans as 0/1, strings parsed, other types a TypeError |
| ChatBot.Transcribe | api/websocket/consumers/chat_bot.py:33-39 | the steps run in source order: int(chunk_id), base64, conversion, skip by chunk_id · 60 seconds, preprocessing, stt; each runs only when every earlier one succeeded, the first failure is the handler's error, and a transcript means all succeeded |
| ChatBot.AudioHandler | api/websocket/consumers/chat_bot.py:31-77 | with the tts call corrected: exactly one reply; a failure is reported as "Audio processing error: " plus its message; otherwise one response per chunk in order, and the metadata carries the responses each followed by a space |
| ChatBot.TtsCallIsRejected | api/ai/utils/google_ai_manager.py:162 | `tts` declares text, voice_name and audio_encoding, so the handler's call is rejected on `language_code` |
| ChatBot.AudioHandlerAsWritten | api/websocket/consumers/chat_bot.py:59-64 | as written, every frame that reaches the tts call is answered with the TypeError for `language_code`, never with the translation; the loop's messages stay added |
| ChatBot.TranslationKeepsTrailingSpace | api/websocket/consumers/chat_bot.py:57 | the translated text is the space-join of the responses plus one trailing space, never stripped |
| ChatBot.Receive | api/websocket/consumers/chat_bot.py:79-84 | an empty frame is skipped; invalid JSON gets exactly the fixed error object; non-audio frames and raised TypeErrors send nothing; an audio frame gets one reply |
| ClassRoom.BuildARoom | api/app/utils/class_room_manager.py:12-20 | the new room is stored, becomes the current room, carries the given fields, and keeps the invariant |
| ClassRoom.AddMember | api/app/utils/class_room_manager.py:22-36 | fails in order on no room, unknown user and existing member; otherwise adds exactly one row and keeps the rows duplicate-free |
| ClassRoom.RemoveMember | api/app/utils/class_room_manager.py:38-49 | the room argument is ignored; fails in order on no room, unknown user and missing member; otherwise removes exactly that row and keeps every other |
| ClassRoom.AddThenRemove | api/app/utils/class_room_manager.py:22-49 | adding a member and removing it again restores the manager, whatever room the removal names |
| ClassRoom.RemoveFirst | api/app/utils/class_room_manager.py:47-48 | deleting the first matching row removes one occurrence and nothing else |
| ClassRoom.BuildTeachingContents | api/app/utils/class_room_manager.py:57-88 | fails exactly when there is no room; otherwise one content per task in task order, numbered from 1, titled by the task or "Content n", with the pipeline's SSML |
| Streaming.Connect | api/websocket/consumers/streaming.py:9-28 | the joiner is added to its room only; it offers exactly when the room was empty; the room hears the new count and that a peer joined |
| Streaming.Disconnect | api/websocket/consumers/streaming.py:30-37 | only this channel leaves only this room, and the room hears the new count |
| Streaming.Receive | api/websocket/consumers/streaming.py:39-42 | the payload is relayed unchanged to the room and the registry is untouched |
| Streaming.RejoinDoesNotGrow | api/websocket/consumers/streaming.py:12-13 | joining twice counts once, and the second join is told to answer |
| Streaming.ConnectThenDisconnect | api/websocket/consumers/streaming.py:13-34 | a new channel that joins and leaves restores its room and the count |
| Streaming.TwoPartyRoles | api/websocket/consumers/streaming.py:12-24 | of two channels joining an empty room the first offers and the second answers, and the count is two |
| RoomSocket.Connect | api/websocket/consumers/test_socket.py:8-27 | the room's set is created on first join only; the joiner is added and told a count of at least one that includes itself |
| RoomSocket.Disconnect | api/websocket/consumers/test_socket.py:29-32 | the channel leaves a known room; no room is created |
| RoomSocket.Deliver | api/websocket/consumers/test_socket.py:41-46 | a join notice is dropped exactly by its sender; a chat payload is passed on unchanged |
| RoomSocket.JoinNoticeSkipsSender | api/websocket/consumers/test_socket.py:41-43 | a join notice reaches exactly the group minus its sender |
| RoomSocket.ConnectThenDisconnect | api/websocket/consumers/test_socket.py:14-32 | joining and leaving an existing room takes the channel out of that room only, so the registry is restored exactly when the channel was not in the room |
| Dashboard.Handle | client/src/components/appPages/Dashboard/utils.js:1-24 | the start request goes out only on a connection while the latch is open; a non-empty slide batch is appended at the end; the loader can only be hidden; a non-empty speech replaces the speech |
| Dashboard.StartIsSentAtMostOnce | client/src/components/appPages/Dashboard/utils.js:9-12 | over any stream of messages the start request is sent at most once, and exactly when some message carried a connection |
| Dashboard.HandleAll | client/src/components/appPages/Dashboard/utils.js:9-20 | over a stream of messages the loader is still shown exactly when it was and no message removed it, and the latch is closed exactly when it was or some message carried a connection |
| Dashboard.SlidesOnlyGrow | client/src/components/appPages/Dashboard/utils.js:13-17 | earlier slide batches stay, in order, at the front |
| FeedRegistry.MidText | client/src/baseComponents/reusableComponents/VoiceStreaming/VoiceStreaming.js:41-42 | absent and empty mids are dropped and a numeric mid becomes its decimal text |
| FeedRegistry.MediaMidsMembers | client/src/baseComponents/reusableComponents/VoiceStreaming/VoiceStreaming.js:39-42 | a mid is listed exactly when some audio or video stream has it |
| FeedRegistry.MediaMidsAppend | client/src/baseComponents/reusableComponents/VoiceStreaming/VoiceStreaming.js:39-42 | mids keep stream order |
| FeedRegistry.ExtractMids | client/src/baseComponents/reusableComponents/VoiceStreaming/VoiceStreaming.js:38-44 | the media mids in order, or ["0", "1"] when none survives; never empty; `Worked.js` (lines 35-41) has the same helper, and `WorkedClient` uses this one |
| FeedRegistry.NumericZeroSurvives | client/src/baseComponents/reusableComponents/VoiceStreaming/VoiceStreaming.js:41-42 | a numeric mid 0 on a video stream is kept as "0" |
| FeedRegistry.Subscribe | client/src/baseComponents/reusableComponents/VoiceStreaming/VoiceStreaming.js:138-146 | a handle is attached exactly when the session exists, the feed is not the client's own and has no handle yet |
| FeedRegistry.SubscribeTwiceAttachesOnce | client/src/baseComponents/reusableComponents/VoiceStreaming/VoiceStreaming.js:141 | a second subscription to the same feed attaches nothing |
| FeedRegistry.OnPublisher | client/src/baseComponents/reusableComponents/VoiceStreaming/VoiceStreaming.js:103-106 | the client's own publisher is skipped entirely; any other has its mids recorded and, once the session exists, gets a handle |
| FeedRegistry.OnPublishers | client/src/baseComponents/reusableComponents/VoiceStreaming/VoiceStreaming.js:93-117 | only announced publishers get handles and the client's own id never does; every other announced publisher has its mids recorded and, once the session exists, gets a handle |
| FeedRegistry.OpenStream | client/src/baseComponents/reusableComponents/VoiceStreaming/VoiceStreaming.js:205-213 | a feed without a stream gets an empty one and is listed unless an entry with its id exists |
| FeedRegistry.TrackOn | client/src/baseComponents/reusableComponents/VoiceStreaming/VoiceStreaming.js:191-218 | the feed gets a stream and is listed at most once; a track id is added at most once; handles and mids are untouched; the invariant is kept |
| FeedRegistry.TrackOnTwice | client/src/baseComponents/reusableComponents/VoiceStreaming/VoiceStreaming.js:215-218 | a track that arrives twice is held once |
| FeedRegistry.WithoutTrack | client/src/baseComponents/reusableComponents/VoiceStreaming/VoiceStreaming.js:196-198 | removes exactly the tracks with the id and keeps the rest |
| FeedRegistry.TrackOff | client/src/baseComponents/reusableComponents/VoiceStreaming/VoiceStreaming.js:194-202 | without a stream nothing happens; removing the last track cleans the feed up; otherwise only the track goes; the invariant is kept |
| FeedRegistry.Unlist | client/src/baseComponents/reusableComponents/VoiceStreaming/VoiceStreaming.js:237 | drops exactly the entries with the id and changes nothing when the id is absent |
| FeedRegistry.UnlistAppend | client/src/baseComponents/reusableComponents/VoiceStreaming/VoiceStreaming.js:237 | the remaining entries keep their order: removal distributes over concatenation |
| FeedRegistry.Cleanup | client/src/baseComponents/reusableComponents/VoiceStreaming/VoiceStreaming.js:235-252 | removes the feed's entries, stream, handle and mids; every other feed keeps its entry, in order, and its stream, handle and mids; the invariant is kept |
| FeedRegistry.StartsValid | client/src/baseComponents/reusableComponents/VoiceStreaming/VoiceStreaming.js:9-12 | the empty registry satisfies the invariant |
| WorkedClient.Subscribe | client/src/baseComponents/reusableComponents/VoiceStreaming/Worked.js:124-131 | without the self check, a handle is attached exactly when the session exists and the feed has none |
| WorkedClient.OnPublishers | client/src/baseComponents/reusableComponents/VoiceStreaming/Worked.js:86-98 | every announced publisher, the client's own included, has its mids recorded and, once the session exists, a handle |
| WorkedClient.TrackOn | client/src/baseComponents/reusableComponents/VoiceStreaming/Worked.js:193-201 | a feed is listed on its first track only if its id is absent, so ids stay unique |
| WorkedClient.CleanupFeed | client/src/baseComponents/reusableComponents/VoiceStreaming/Worked.js:224-244 | removes exactly that feed's entries, stream, handle and mids, and keeps the other entries in order |
| WorkedClient.VisibleFeeds | client/src/baseComponents/reusableComponents/VoiceStreaming/Worked.js:284-288 | a listed feed is rendered exactly when its stream has a video track, and when every feed has one the list is rendered whole |
| WorkedClient.VisibleFeedsAppend | client/src/baseComponents/reusableComponents/VoiceStreaming/Worked.js:284-288 | rendering keeps list order: the filter distributes over concatenation |
| WorkedClient.NewVideoTrackShowsFeed | client/src/baseComponents/reusableComponents/VoiceStreaming/Worked.js:193-204 | on a valid registry, a video track not yet held always makes its feed visible |

## Left out

- The HTML splitter, the OpenAI and Gemini clients, the summariser, speech-to-text,
  text-to-speech, the synchronisation pipeline, base64, JSON decoding and `int()` on
  strings are oracles (function-valued parameters). Their code is not part of this model.
- ffmpeg and the `wave` module (`preprocess_wav`, `convert_webm_to_wav`,
  `create_wav_from_chunk`, `skip_seconds_wav`, `limit_wav_duration`,
  `get_wav_duration`) are foreign calls. Audio is a sequence of frames and durations are
  naturals. `LimitDuration` and `SkipDuration` state only the frame arithmetic, and
  seconds-to-frames rounding on float durations is not modelled.
- AudioManager.ConvertAudioToText: takes frames that have already been converted and
  preprocessed. The `convert_audio_bytes_to_wav` and `preprocess_wav` calls at
  audio_manager.py:300-301, and any failure they raise, come before the modelled part.
- Cost and pricing arithmetic is float arithmetic. The manager's `cost` is a `real` that
  is only reset.
- Django ORM persistence and the pgvector similarity search are not modelled. The search
  hits enter `TeacherConsumer.RespondToUser` as a parameter. Rows tied on `chunk_index` are
  taken in row order, since the database does not fix their order.
- Channels group messaging, websocket accept/send, the debug file writes in
  `advanced_stt` and `_audio_handler`, the `last_ssml` JSON dump and the progress
  callbacks are I/O and are left out.
- The teacher consumers' `connect`, `receive` and `_start_the_class` only orchestrate
  calls to services whose code is not part of this model. Their `_audio_handler` is
  `ChatWindow.HearAudio` (corrected) and `ChatWindow.HearAudioAsWritten`; the truthiness of
  `is_last_chunk` and the base64 decoding enter as parameters. `RoomConsumer.receive` and
  `chat_message` only relay; `RoomSocket.Deliver` covers their effect on a client.
- `class_room_manager.get_room_members` is a query with no logic of its own.
- Prompt and instruction texts are opaque data: the four fixed system messages are a
  parameter, and the Gemini summary prompt is stated only to end with the text.
- `AiManager.Summarize`: the recursion on the joined summaries terminates only if the
  summariser shrinks its input, so it runs on fuel. Running out of fuel is a failure that
  the source does not have.
- `ChatBot.IntOf`: JSON numbers are integers. Floats and `int()` on them are not modelled.
- `FeedRegistry.Subscribe`: attaching a subscriber handle is asynchronous in the client,
  but is modelled as completing at once. React's state updater is modelled as applied in
  sequence.
- `FeedRegistry.TrackOn`, `FeedRegistry.TrackOff` and `FeedRegistry.Cleanup` state
  validity preservation as "valid before implies valid after", because the client keeps
  no such invariant explicitly.
- Janus/WebRTC negotiation (offers, answers, `start`), `getUserMedia`, the publisher side
  and the rendering of the client are UI and network code.
- `ChatBot.Classify`: a JSON array's membership test is modelled as element equality with
  the string "type", and a string's as substring search.
- `AiManager.Summarize`, `AudioManager.AdvancedStt`, `ChatWindow.Respond`,
  `GoogleAiManager.AddMessage`, `ChatBot.AudioHandler`: every oracle is total and
  deterministic. In the source the generators, summarisers, speech-to-text, the splitter
  and the pipeline can raise; the model has no path for such an exception. In
  particular, `_respond_to_user` resets the pending message (teacher.py:238) before any
  service is called, so a service that raises later (caught at teacher.py:341-343) loses
  the message, while `TeacherConsumer.RespondToUser` and the other teachers' versions
  always record it.
- `AudioManager.AdvancedStt`, `ChunkContext.History`, `ChunkContext.ResponseAt`,
  `ChatBot.AudioHandler`: the OpenAI manager is not part of this model. Its `add_message`
  is taken to append exactly one message, and its `generate_response` and `summarize` to
  leave the message list unchanged.
- `AudioManager.AdvancedStt`: the second `convert_webm_to_wav` (audio_manager.py:182)
  re-encodes audio that is already WAV; it is taken as the identity on frames.
- `AudioManager.Window`: past the end of the audio, where `setpos` would raise, the window
  is taken as empty. The loop never asks for such a window
  (`AudioManager.VisitedWindowSkipSucceeds`).
- `_run_blocking`, which the consumers call, is not part of this model. It is taken to
  call the function with the given arguments and to return its result or raise its
  exception.
- `Streaming.Connect`: the member count (streaming.py:22) is read after several awaits, so
  concurrent joins can interleave. The connect is modelled as one atomic step.
- `Dashboard.Handle`, `Dashboard.HandleAll`: the latch `handleWsData.hasStartedClass`
  (utils.js:9-11) is a property of the handler function, shared by every dashboard on the
  page. The model keeps it in each client.

## Findings

| source | as written | input that shows it | evidently intended | confidence | as-written member | corrected member |
|---|---|---|---|---|---|---|
| api/ai/utils/google_ai_manager.py:127 | the input token count encodes the `prompt` argument, not `use_prompt` | `generate_response()` with a configured model, no `prompt` argument and a non-empty stored prompt: the model is called, then the tokenizer is given None and raises, and the answer is lost | count the tokens of the prompt actually sent (`use_prompt`) and return the model's answer | not executed | GoogleAiManager.GenerateResponseAsWritten, GoogleAiManager.StoredPromptCallFails | GoogleAiManager.GenerateResponse |
| api/websocket/consumers/chat_bot.py:59-64 | `tts` is called with `language_code="en-US"`, a keyword that `GoogleAIManager.tts` (google_ai_manager.py:162) does not declare | an audio frame whose steps before the call all succeed: the call raises TypeError, and the client gets "Audio processing error: GoogleAIManager.tts() got an unexpected keyword argument 'language_code'" instead of the translation | call `tts` with the text and `audio_encoding` only, and send the translation metadata | not executed | ChatBot.AudioHandlerAsWritten, ChatBot.TtsCallIsRejected | ChatBot.AudioHandler |
| api/websocket/consumers/teacher.py:221-223 | `convert_audio_to_text` is called with `do_final_edition=True` and `target_language`, keywords it (audio_manager.py:285) does not declare; french_teacher.py:224-226, english_teacher.py:161-163 and general_teacher.py:152-154 make the same call | an audio frame whose `voice_chunk` decodes: the call raises TypeError, reported as "Error in audio handler: ...", so the pending message never grows and no reply is reached from audio | call it on the audio alone and append the transcript to the pending message | not executed | ChatWindow.HearAudioAsWritten, ChatWindow.SttCallIsRejected | ChatWindow.HearAudio |

=== FILE: ai_manager.dfy ===
/** The deterministic part of `BaseAIManager` (api/ai/utils/ai_manager.py): Markdown fence
    stripping, the manager's resettable state, the boundary-repair pass over the splitter's
    chunks, and the recursive summariser.

    The HTML splitter (`ChunkPipeline` with its `get_chunks`, `get_text` and
    `get_incomplete_end_html_aware` operations) and the text generator are not part of this
    model: they enter as function-valued parameters (oracles). */
module AiManager {
  import opened Wrappers
  import opened Text

  // ---------------------------------------------------------------------------
  // Messages and manager state
  // ---------------------------------------------------------------------------

  datatype Role = System | User | Assistant

  datatype Message = Message(role: Role, content: string)

  datatype AiType = OpenAi | Google | OtherAi(name: string)

  /** The mutable fields of a manager instance. */
  datatype ManagerState = ManagerState(messages: seq<Message>, prompt: string, cost: real, aiType: AiType)

  /** A freshly constructed manager: no messages, empty prompt, zero cost. */
  function NewManager(aiType: AiType): (s: ManagerState)
    ensures s.messages == [] && s.prompt == "" && s.cost == 0.0 && s.aiType == aiType
  {
    ManagerState([], "", 0.0, aiType)
  }

  /** `clear_cost`: the cost becomes zero and every other field keeps its value. */
  function ClearCost(s: ManagerState): (r: ManagerState)
    ensures r.cost == 0.0
    ensures r.messages == s.messages && r.prompt == s.prompt && r.aiType == s.aiType
  {
    s.(cost := 0.0)
  }

  /** `clear_messages`: history and prompt are emptied; cost and AI type are kept. */
  function ClearMessages(s: ManagerState): (r: ManagerState)
    ensures r.messages == [] && r.prompt == ""
    ensures r.cost == s.cost && r.aiType == s.aiType
  {
    s.(messages := [], prompt := "")
  }

  // ---------------------------------------------------------------------------
  // _clean_code_block
  // ---------------------------------------------------------------------------

  const Fence: string := "```"

  /** The text matches `^```(?:json|html)?\n?(.*)```$`: it starts and ends with a fence
      that do not overlap. */
  predicate IsFenced(s: string) {
    |s| >= 6 && StartsWith(s, Fence) && EndsWith(s, Fence)
  }

  /** Where group 1 of the fence pattern begins: after the opening fence, an optional
      `json`/`html` tag and an optional newline (all matched greedily). */
  function FenceBodyStart(s: string): (k: nat)
    requires IsFenced(s)
    ensures 3 <= k <= |s| - 3
  {
    assert forall i :: |s| - 3 <= i < |s| ==> s[i] == '`' by {
      forall i | |s| - 3 <= i < |s| ensures s[i] == '`' {
        assert s[i] == s[|s| - 3..][i - (|s| - 3)];
      }
    }
    var a := if |s| >= 7 && (s[3..7] == "json" || s[3..7] == "html") then 7 else 3;
    assert a == 7 ==> s[6] != '`' by {
      if a == 7 { assert s[3..7][3] == s[6]; }
    }
    if a < |s| && s[a] == '\n' then a + 1 else a
  }

  /** Group 1 of the fence pattern: the text between the opening fence (with its tag and
      newline) and the closing fence. */
  function FenceBody(s: string): string
    requires IsFenced(s)
  {
    s[FenceBodyStart(s)..|s| - 3]
  }

  /** `_clean_code_block`: the stripped inner text of a fenced response, otherwise the
      stripped response. */
  function CleanCodeBlock(response: string): (r: string)
    ensures Trimmed(r)
    ensures !IsFenced(Strip(response)) ==> r == Strip(response)
  {
    var s := Strip(response);
    if IsFenced(s) then Strip(FenceBody(s)) else s
  }

  /** Cleaning a fenced, already stripped response strips the fence body. */
  lemma CleanOfFenced(x: string)
    requires Trimmed(x) && IsFenced(x)
    ensures CleanCodeBlock(x) == Strip(x[FenceBodyStart(x)..|x| - 3])
  {
    assert Strip(x) == x by {
      StripOfTrimmed(x);
    }
  }

  /** The body start after a fence tag ("", "json" or "html") followed by a newline. */
  lemma FenceBodyStartAfterTag(x: string, tag: string)
    requires IsFenced(x) && (tag == "" || tag == "json" || tag == "html")
    requires |x| > 3 + |tag| && x[3..3 + |tag|] == tag && x[3 + |tag|] == '\n'
    ensures FenceBodyStart(x) == 4 + |tag|
  {
    if tag == "" {
      assert |x| >= 7 ==> x[3..7][0] == '\n';
    }
  }

  /** A response wrapped as "```" + tag + "\n" + body + "```" with tag `json`, `html` or
      none comes back as the stripped body, whatever the body holds. */
  lemma FencedRoundTrip(tag: string, body: string)
    requires tag == "" || tag == "json" || tag == "html"
    ensures CleanCodeBlock(Fence + tag + "\n" + body + Fence) == Strip(body)
  {
    var p := Fence + tag + "\n";
    var x := p + body + Fence;
    assert |p| == 4 + |tag|;
    assert x[0] == '`' && x[|x| - 1] == '`';
    assert x[..3] == Fence;
    assert x[|x| - 3..] == Fence;
    assert IsFenced(x);
    assert x[3..3 + |tag|] == tag;
    assert x[3 + |tag|] == '\n';
    FenceBodyStartAfterTag(x, tag);
    assert x[|p|..|x| - 3] == body;
    CleanOfFenced(x);
  }

  /** Cleaning is not idempotent: a fenced block nested inside a fence, with space
      around it, loses only the outer fence per call. */
  lemma CleanIsNotIdempotent(b: string)
    requires b != "" && Trimmed(b) && b[0] != '\n' && b[0] != 'j' && b[0] != 'h'
    ensures var once := CleanCodeBlock(Fence + (" " + (Fence + b + Fence) + " ") + Fence);
            once == Fence + b + Fence && CleanCodeBlock(once) == b != once
  {
    var y := Fence + b + Fence;
    FenceWithoutTag(b);
    FenceWithoutTag(" " + y + " ");
    StripSurrounded(y);
    StripOfTrimmed(b);
  }

  /** Helper: a fence whose body starts with a character that is neither a tag nor a newline. */
  lemma FenceWithoutTag(body: string)
    requires |body| >= 1 && body[0] != '\n' && body[0] != 'j' && body[0] != 'h'
    ensures var x := Fence + body + Fence;
            Trimmed(x) && IsFenced(x) && FenceBodyStart(x) == 3 && CleanCodeBlock(x) == Strip(body)
  {
    var x := Fence + body + Fence;
    assert x[0] == '`' && x[|x| - 1] == '`';
    assert Trimmed(x);
    assert x[..3] == Fence;
    assert x[|x| - 3..] == Fence;
    assert IsFenced(x);
    assert x[3] == body[0];
    assert x[3..7] != "json" && x[3..7] != "html" by {
      assert x[3..7][0] == body[0];
      assert "json"[0] == 'j' && "html"[0] == 'h';
    }
    assert FenceBodyStart(x) == 3;
    assert x[3..|x| - 3] == body;
    CleanOfFenced(x);
  }

  lemma StripSurrounded(y: string)
    requires y != "" && Trimmed(y)
    ensures Strip(" " + y + " ") == y
  {
    var z := " " + y + " ";
    assert TrimStart(z) == y + " " by {
      assert z[1..] == y + " ";
      assert (y + " ")[0] == y[0];
    }
    assert TrimEnd(y + " ") == y by {
      assert (y + " ")[..|y|] == y;
    }
  }

  // ---------------------------------------------------------------------------
  // build_chunks: the boundary-repair pass
  // ---------------------------------------------------------------------------

  /** One splitter output element: a piece of markup and its plain-text rendering. */
  datatype Chunk = Chunk(html: string, text: string)

  /** The splitter, whose code is not part of this model.
      `getChunks(text, maxTextChars, backtrack)` is `ChunkPipeline.process(.., "get_chunks")`,
      `incompleteEnd(html)` is `get_incomplete_end_html_aware` returning `(head, tail)`,
      `getText(html)` is `build_simple_text_from_html`. */
  datatype Splitter = Splitter(
    getChunks: (string, int, int) -> seq<Chunk>,
    incompleteEnd: string -> (string, string),
    getText: string -> string)

  /** The backtrack window `build_chunks` configures the splitter with. */
  const Backtrack: int := 300

  /** ASSUMPTION about the splitter: the head and tail it returns partition its input. */
  ghost predicate SplitsExactly(incompleteEnd: string -> (string, string)) {
    forall h :: incompleteEnd(h).0 + incompleteEnd(h).1 == h
  }

  /** ASSUMPTION about the splitter: a head it returns has no incomplete end of its own. */
  ghost predicate HeadsAreComplete(incompleteEnd: string -> (string, string)) {
    forall h :: incompleteEnd(incompleteEnd(h).0).1 == ""
  }

  /** The text field of every chunk, in order. */
  function Texts(cs: seq<Chunk>): (ts: seq<string>)
    ensures |ts| == |cs|
    ensures forall i :: 0 <= i < |cs| ==> ts[i] == cs[i].text
  {
    if cs == [] then [] else [cs[0].text] + Texts(cs[1..])
  }

  /** The markup of all chunks, concatenated in order. */
  function Markup(cs: seq<Chunk>): string {
    if cs == [] then "" else cs[0].html + Markup(cs[1..])
  }

  /** Reference definition of the repair pass, one adjacent pair at a time: a non-empty
      tail is cut from the front chunk and prepended to the next chunk's html, whose text is
      rebuilt from that tail plus its OLD TEXT (not its html). */
  function RepairRef(cs: seq<Chunk>, incompleteEnd: string -> (string, string), getText: string -> string): (r: seq<Chunk>)
    ensures |r| == |cs|
    decreases |cs|
  {
    if |cs| < 2 then cs
    else
      var (head, tail) := incompleteEnd(cs[0].html);
      if tail == "" then [cs[0]] + RepairRef(cs[1..], incompleteEnd, getText)
      else
        var next := Chunk(tail + cs[1].html, getText(tail + cs[1].text));
        [Chunk(head, getText(head))] + RepairRef([next] + cs[2..], incompleteEnd, getText)
  }

  /** `build_chunks`: split with the configured window, then repair the boundaries,
      keeping the number of chunks the splitter produced (`BuildChunksRepairs` states
      what the repair guarantees). */
  function BuildChunks(sp: Splitter, text: string, maxChunkSize: int): (cs: seq<Chunk>)
    ensures |cs| == |sp.getChunks(text, maxChunkSize, Backtrack)|
  {
    RepairRef(sp.getChunks(text, maxChunkSize, Backtrack), sp.incompleteEnd, sp.getText)
  }

  /** One iteration of the repair loop at index `i`: only chunks `i` and `i+1` may change,
      and they change exactly when the splitter reports a non-empty tail for chunk `i`. */
  function RepairAt(cs: seq<Chunk>, i: nat, incompleteEnd: string -> (string, string), getText: string -> string): (r: seq<Chunk>)
    requires i + 1 < |cs|
    ensures |r| == |cs|
    ensures forall j :: 0 <= j < |cs| && j != i && j != i + 1 ==> r[j] == cs[j]
    ensures incompleteEnd(cs[i].html).1 == "" <==> r == cs
  {
    var (head, tail) := incompleteEnd(cs[i].html);
    if tail == "" then cs
    else
      var next := Chunk(tail + cs[i + 1].html, getText(tail + cs[i + 1].text));
      assert next.html != cs[i + 1].html by {
        assert |next.html| > |cs[i + 1].html|;
      }
      cs[i := Chunk(head, getText(head))][i + 1 := next]
  }

  /** The reference definition unfolded once on the suffix starting at `i`. */
  lemma RepairRefSuffix(cs: seq<Chunk>, i: nat, incompleteEnd: string -> (string, string), getText: string -> string)
    requires i + 1 < |cs|
    ensures var (head, tail) := incompleteEnd(cs[i].html);
            RepairRef(cs[i..], incompleteEnd, getText)
            == if tail == "" then [cs[i]] + RepairRef(cs[i + 1..], incompleteEnd, getText)
               else [Chunk(head, getText(head))]
                    + RepairRef([Chunk(tail + cs[i + 1].html, getText(tail + cs[i + 1].text))] + cs[i + 2..], incompleteEnd, getText)
  {
    var suffix := cs[i..];
    assert suffix[0] == cs[i] && suffix[1] == cs[i + 1];
    assert suffix[1..] == cs[i + 1..];
    assert suffix[2..] == cs[i + 2..];
  }

  /** The loop invariant survives a step that finds no dangling tail. */
  lemma RepairStepKeep(chunks: seq<Chunk>, cs: seq<Chunk>, i: nat, incompleteEnd: string -> (string, string), getText: string -> string)
    requires i + 1 < |cs|
    requires incompleteEnd(cs[i].html).1 == ""
    requires RepairRef(chunks, incompleteEnd, getText) == cs[..i] + RepairRef(cs[i..], incompleteEnd, getText)
    ensures RepairRef(chunks, incompleteEnd, getText) == cs[..i + 1] + RepairRef(cs[i + 1..], incompleteEnd, getText)
  {
    var rest := RepairRef(cs[i + 1..], incompleteEnd, getText);
    assert RepairRef(cs[i..], incompleteEnd, getText) == [cs[i]] + rest by {
      RepairRefSuffix(cs, i, incompleteEnd, getText);
    }
    assert cs[..i + 1] == cs[..i] + [cs[i]];
    AppendAssoc(cs[..i], [cs[i]], rest);
  }

  /** The loop invariant survives a step that moves a dangling tail into the next chunk. */
  lemma RepairStepCut(chunks: seq<Chunk>, cs: seq<Chunk>, cs': seq<Chunk>, i: nat, incompleteEnd: string -> (string, string), getText: string -> string)
    requires i + 1 < |cs|
    requires incompleteEnd(cs[i].html).1 != ""
    requires var (head, tail) := incompleteEnd(cs[i].html);
             cs' == cs[i := Chunk(head, getText(head))][i + 1 := Chunk(tail + cs[i + 1].html, getText(tail + cs[i + 1].text))]
    requires RepairRef(chunks, incompleteEnd, getText) == cs[..i] + RepairRef(cs[i..], incompleteEnd, getText)
    ensures RepairRef(chunks, incompleteEnd, getText) == cs'[..i + 1] + RepairRef(cs'[i + 1..], incompleteEnd, getText)
  {
    var (head, tail) := incompleteEnd(cs[i].html);
    var a, b := Chunk(head, getText(head)), Chunk(tail + cs[i + 1].html, getText(tail + cs[i + 1].text));
    var rest := RepairRef([b] + cs[i + 2..], incompleteEnd, getText);
    assert RepairRef(cs[i..], incompleteEnd, getText) == [a] + rest by {
      RepairRefSuffix(cs, i, incompleteEnd, getText);
    }
    UpdatePairSlices(cs, i, a, b);
    assert RepairRef(cs'[i + 1..], incompleteEnd, getText) == rest;
    AppendAssoc(cs[..i], [a], rest);
  }

  lemma UpdatePairSlices<T>(xs: seq<T>, i: nat, a: T, b: T)
    requires i + 1 < |xs|
    ensures xs[i := a][i + 1 := b][..i + 1] == xs[..i] + [a]
    ensures xs[i := a][i + 1 := b][i + 1..] == [b] + xs[i + 2..]
  {
  }

  /** One loop step keeps the loop invariant of `RepairBoundaries`. */
  lemma RepairAtAgreesWithRef(chunks: seq<Chunk>, cs: seq<Chunk>, i: nat, incompleteEnd: string -> (string, string), getText: string -> string)
    requires i + 1 < |cs|
    requires RepairRef(chunks, incompleteEnd, getText) == cs[..i] + RepairRef(cs[i..], incompleteEnd, getText)
    ensures var cs' := RepairAt(cs, i, incompleteEnd, getText);
            RepairRef(chunks, incompleteEnd, getText) == cs'[..i + 1] + RepairRef(cs'[i + 1..], incompleteEnd, getText)
  {
    if incompleteEnd(cs[i].html).1 == "" {
      RepairStepKeep(chunks, cs, i, incompleteEnd, getText);
    } else {
      RepairStepCut(chunks, cs, RepairAt(cs, i, incompleteEnd, getText), i, incompleteEnd, getText);
    }
  }

  /** The repair loop of `build_chunks` as written: index `i` runs over `0 .. n-2` and
      rewrites chunks `i` and `i+1` in place. It computes the reference definition, keeps the
      number of chunks, and (under the splitter's partition assumption) keeps the
      concatenated markup. */
  method RepairBoundaries(chunks: seq<Chunk>, incompleteEnd: string -> (string, string), getText: string -> string)
    returns (cs: seq<Chunk>)
    ensures cs == RepairRef(chunks, incompleteEnd, getText)
    ensures |cs| == |chunks|
    ensures SplitsExactly(incompleteEnd) ==> Markup(cs) == Markup(chunks)
  {
    cs := chunks;
    var i := 0;
    while i + 1 < |cs|
      invariant |cs| == |chunks|
      invariant 0 <= i <= |cs|
      invariant RepairRef(chunks, incompleteEnd, getText) == cs[..i] + RepairRef(cs[i..], incompleteEnd, getText)
      decreases |cs| - i
    {
      RepairAtAgreesWithRef(chunks, cs, i, incompleteEnd, getText);
      cs := RepairAt(cs, i, incompleteEnd, getText);
      i := i + 1;
    }
    assert RepairRef(cs[i..], incompleteEnd, getText) == cs[i..];
    assert cs[..i] + cs[i..] == cs;
    if SplitsExactly(incompleteEnd) {
      RepairPreservesMarkup(chunks, incompleteEnd, getText);
    }
  }

  lemma MarkupCons(c: Chunk, cs: seq<Chunk>)
    ensures Markup([c] + cs) == c.html + Markup(cs)
  {
    assert ([c] + cs)[1..] == cs;
  }

  /** Under the partition assumption, the repair pass loses and invents no markup. */
  lemma {:induction false} RepairPreservesMarkup(cs: seq<Chunk>, incompleteEnd: string -> (string, string), getText: string -> string)
    requires SplitsExactly(incompleteEnd)
    ensures Markup(RepairRef(cs, incompleteEnd, getText)) == Markup(cs)
    decreases |cs|
  {
    if |cs| >= 2 {
      var (head, tail) := incompleteEnd(cs[0].html);
      assert head + tail == cs[0].html;
      assert cs == [cs[0]] + cs[1..];
      assert cs[1..] == [cs[1]] + cs[2..];
      if tail == "" {
        calc {
          Markup(RepairRef(cs, incompleteEnd, getText));
          Markup([cs[0]] + RepairRef(cs[1..], incompleteEnd, getText));
          { MarkupCons(cs[0], RepairRef(cs[1..], incompleteEnd, getText)); }
          cs[0].html + Markup(RepairRef(cs[1..], incompleteEnd, getText));
          { RepairPreservesMarkup(cs[1..], incompleteEnd, getText); }
          cs[0].html + Markup(cs[1..]);
          { MarkupCons(cs[0], cs[1..]); }
          Markup(cs);
        }
      } else {
        var next := Chunk(tail + cs[1].html, getText(tail + cs[1].text));
        var rest := [next] + cs[2..];
        calc {
          Markup(RepairRef(cs, incompleteEnd, getText));
          Markup([Chunk(head, getText(head))] + RepairRef(rest, incompleteEnd, getText));
          { MarkupCons(Chunk(head, getText(head)), RepairRef(rest, incompleteEnd, getText)); }
          head + Markup(RepairRef(rest, incompleteEnd, getText));
          { RepairPreservesMarkup(rest, incompleteEnd, getText); }
          head + Markup(rest);
          { MarkupCons(next, cs[2..]); }
          head + ((tail + cs[1].html) + Markup(cs[2..]));
          (head + tail) + (cs[1].html + Markup(cs[2..]));
          { MarkupCons(cs[1], cs[2..]); }
          cs[0].html + Markup(cs[1..]);
          { MarkupCons(cs[0], cs[1..]); }
          Markup(cs);
        }
      }
    }
  }

  /** The last chunk is never cut: its original markup survives as a suffix. */
  lemma {:induction false} RepairKeepsLastChunkWhole(cs: seq<Chunk>, incompleteEnd: string -> (string, string), getText: string -> string)
    requires |cs| >= 1
    ensures EndsWith(RepairRef(cs, incompleteEnd, getText)[|cs| - 1].html, cs[|cs| - 1].html)
    decreases |cs|
  {
    var r := RepairRef(cs, incompleteEnd, getText);
    if |cs| < 2 {
      assert r == cs;
    } else {
      var (head, tail) := incompleteEnd(cs[0].html);
      if tail == "" {
        RepairKeepsLastChunkWhole(cs[1..], incompleteEnd, getText);
      } else {
        var next := Chunk(tail + cs[1].html, getText(tail + cs[1].text));
        var rest := [next] + cs[2..];
        RepairKeepsLastChunkWhole(rest, incompleteEnd, getText);
        var last := rest[|rest| - 1].html;
        if |cs| == 2 {
          assert last == tail + cs[1].html;
          assert EndsWith(last, cs[1].html) by {
            assert last[|last| - |cs[1].html|..] == cs[1].html;
          }
        } else {
          assert last == cs[|cs| - 1].html;
        }
        var fin := RepairRef(rest, incompleteEnd, getText)[|rest| - 1].html;
        assert EndsWith(fin, cs[|cs| - 1].html) by {
          assert fin[|fin| - |last|..] == last;
          assert last[|last| - |cs[|cs| - 1].html|..] == cs[|cs| - 1].html;
          assert fin[|fin| - |cs[|cs| - 1].html|..] == fin[|fin| - |last|..][|last| - |cs[|cs| - 1].html|..];
        }
      }
    }
  }

  /** When no chunk but possibly the last reports a dangling tail, the pass changes nothing. */
  lemma {:induction false} RepairOfCleanChunksIsIdentity(cs: seq<Chunk>, incompleteEnd: string -> (string, string), getText: string -> string)
    requires CleanBoundaries(cs, incompleteEnd)
    ensures RepairRef(cs, incompleteEnd, getText) == cs
    decreases |cs|
  {
    if |cs| >= 2 {
      assert incompleteEnd(cs[0].html).1 == "";
      RepairOfCleanChunksIsIdentity(cs[1..], incompleteEnd, getText);
      assert [cs[0]] + cs[1..] == cs;
    }
  }

  /** No chunk except possibly the last reports a dangling tail. */
  ghost predicate CleanBoundaries(cs: seq<Chunk>, incompleteEnd: string -> (string, string)) {
    forall i :: 0 <= i < |cs| - 1 ==> incompleteEnd(cs[i].html).1 == ""
  }

  lemma CleanBoundariesCons(c: Chunk, cs: seq<Chunk>, incompleteEnd: string -> (string, string))
    requires incompleteEnd(c.html).1 == "" && CleanBoundaries(cs, incompleteEnd)
    ensures CleanBoundaries([c] + cs, incompleteEnd)
  {
    var r := [c] + cs;
    forall i | 0 <= i < |r| - 1
      ensures incompleteEnd(r[i].html).1 == ""
    {
      if i > 0 {
        assert r[i] == cs[i - 1];
      }
    }
  }

  /** What `build_chunks` guarantees about its output: the last chunk is never cut; when
      the splitter's head and tail partition their input no markup is lost or invented;
      and when its heads are complete no boundary is left dangling. */
  lemma BuildChunksRepairs(sp: Splitter, text: string, maxChunkSize: int)
    ensures var raw := sp.getChunks(text, maxChunkSize, Backtrack);
            var cs := BuildChunks(sp, text, maxChunkSize);
            && (|raw| >= 1 ==> EndsWith(cs[|cs| - 1].html, raw[|raw| - 1].html))
            && (SplitsExactly(sp.incompleteEnd) ==> Markup(cs) == Markup(raw))
            && (HeadsAreComplete(sp.incompleteEnd) ==> CleanBoundaries(cs, sp.incompleteEnd))
  {
    var raw := sp.getChunks(text, maxChunkSize, Backtrack);
    if |raw| >= 1 {
      RepairKeepsLastChunkWhole(raw, sp.incompleteEnd, sp.getText);
    }
    if SplitsExactly(sp.incompleteEnd) {
      RepairPreservesMarkup(raw, sp.incompleteEnd, sp.getText);
    }
    if HeadsAreComplete(sp.incompleteEnd) {
      RepairLeavesCleanBoundaries(raw, sp.incompleteEnd, sp.getText);
    }
  }

  /** Boundary safety: if the splitter's heads are complete, after repair no chunk except the
      last has a dangling tail. */
  lemma {:induction false} RepairLeavesCleanBoundaries(cs: seq<Chunk>, incompleteEnd: string -> (string, string), getText: string -> string)
    requires HeadsAreComplete(incompleteEnd)
    ensures CleanBoundaries(RepairRef(cs, incompleteEnd, getText), incompleteEnd)
    decreases |cs|
  {
    if |cs| >= 2 {
      var (head, tail) := incompleteEnd(cs[0].html);
      if tail == "" {
        RepairLeavesCleanBoundaries(cs[1..], incompleteEnd, getText);
        CleanBoundariesCons(cs[0], RepairRef(cs[1..], incompleteEnd, getText), incompleteEnd);
      } else {
        var rest := [Chunk(tail + cs[1].html, getText(tail + cs[1].text))] + cs[2..];
        RepairLeavesCleanBoundaries(rest, incompleteEnd, getText);
        assert incompleteEnd(head).1 == "";
        CleanBoundariesCons(Chunk(head, getText(head)), RepairRef(rest, incompleteEnd, getText), incompleteEnd);
      }
    }
  }

  // ---------------------------------------------------------------------------
  // summarize / recursive_summarize
  // ---------------------------------------------------------------------------

  /** One generation request as `summarize` issues it: a message list (OpenAI shape) or a
      single prompt (Google shape), with its output-token bound. */
  datatype GenCall = ByMessages(maxToken: int, messages: seq<Message>) | ByPrompt(maxToken: int, prompt: string)

  datatype SummaryConfig = SummaryConfig(maxSummaryInput: int, maxLength: int, maxChunkSize: int)

  /** The keyword defaults of `summarize`. */
  const DefaultSummaryConfig := SummaryConfig(15000, 1000, 1000)

  datatype SummaryError =
    | ResponseUnbound  // `ai_type` is neither "open_ai" nor "google": `response` is never bound
    | OutOfFuel        // recursion deeper than the modelled bound

  /** The outcome of a summarisation together with every generation request it made, in order. */
  datatype SummaryRun = SummaryRun(result: Result<string, SummaryError>, calls: seq<GenCall>)

  const SummarySystemPrompt: string := "You are a summarization expert. Summarize the following text."

  /** The request for summarising `text`, or None when the AI type has no request shape. */
  function SummaryCall(ai: AiType, maxLength: int, text: string): (c: Option<GenCall>)
    ensures c.Some? <==> !ai.OtherAi?
    ensures c.Some? ==> c.value.maxToken == maxLength
    ensures ai == OpenAi ==> c == Some(ByMessages(maxLength, [Message(System, SummarySystemPrompt), Message(User, text)]))
    ensures ai == Google ==> c.value.ByPrompt? && EndsWith(c.value.prompt, text)
  {
    match ai
    case OpenAi => Some(ByMessages(maxLength, [Message(System, SummarySystemPrompt), Message(User, text)]))
    case Google =>
      var p := "Summarize the following text in at most " + IntToString(maxLength) + " tokens:\n\n";
      assert (p + text)[|p + text| - |text|..] == text;
      Some(ByPrompt(maxLength, p + text))
    case OtherAi(_) => None
  }

  /** One request per chunk, in chunk order, on each chunk's text. */
  function ChunkCalls(ai: AiType, maxLength: int, chunks: seq<Chunk>): (calls: seq<GenCall>)
    requires !ai.OtherAi?
    ensures |calls| == |chunks|
    ensures forall i :: 0 <= i < |chunks| ==> Some(calls[i]) == SummaryCall(ai, maxLength, chunks[i].text)
  {
    if chunks == [] then []
    else [SummaryCall(ai, maxLength, chunks[0].text).value] + ChunkCalls(ai, maxLength, chunks[1..])
  }

  function Responses(gen: GenCall -> string, calls: seq<GenCall>): (rs: seq<string>)
    ensures |rs| == |calls|
    ensures forall i :: 0 <= i < |calls| ==> rs[i] == gen(calls[i])
  {
    if calls == [] then [] else [gen(calls[0])] + Responses(gen, calls[1..])
  }

  /** `summarize`: one request when the text is at most `maxSummaryInput` characters;
      otherwise one request per chunk and a recursive call on the space-joined summaries.
      `fuel` bounds the recursion depth, which in the source depends on the generator
      shrinking the text. Every request carries `maxLength` as its token bound, and an
      unknown AI type never produces a summary. A summary is always the answer to the
      run's last request, and that request is the one-request shape on some text of at
      most `maxSummaryInput` characters: however deep the recursion goes, it ends with a
      single request on a short enough text. */
  function Summarize(ai: AiType, gen: GenCall -> string, sp: Splitter, cfg: SummaryConfig, text: string, fuel: nat): (run: SummaryRun)
    ensures forall i :: 0 <= i < |run.calls| ==> run.calls[i].maxToken == cfg.maxLength
    ensures ai.OtherAi? ==> run.result.Failure? && run.calls == []
    ensures run.result.Success? ==> |run.calls| >= 1
    ensures run.result.Success? ==> run.result.value == gen(run.calls[|run.calls| - 1])
    ensures run.result.Success? ==>
              exists t {:trigger SummaryCall(ai, cfg.maxLength, t)} ::
                |t| <= cfg.maxSummaryInput && Some(run.calls[|run.calls| - 1]) == SummaryCall(ai, cfg.maxLength, t)
    decreases fuel
  {
    if fuel == 0 then SummaryRun(Failure(OutOfFuel), [])
    else if |text| <= cfg.maxSummaryInput then
      match SummaryCall(ai, cfg.maxLength, text)
      case None => SummaryRun(Failure(ResponseUnbound), [])
      case Some(c) =>
        assert |text| <= cfg.maxSummaryInput && Some(c) == SummaryCall(ai, cfg.maxLength, text);
        SummaryRun(Success(gen(c)), [c])
    else
      var chunks := BuildChunks(sp, text, cfg.maxChunkSize);
      if ai.OtherAi? then
        if chunks != [] then SummaryRun(Failure(ResponseUnbound), [])
        else Summarize(ai, gen, sp, cfg, "", fuel - 1)
      else
        var calls := ChunkCalls(ai, cfg.maxLength, chunks);
        var combined := Join(" ", Responses(gen, calls));
        var sub := Summarize(ai, gen, sp, cfg, combined, fuel - 1);
        assert sub.calls != [] ==> (calls + sub.calls)[|calls + sub.calls| - 1] == sub.calls[|sub.calls| - 1];
        SummaryRun(sub.result, calls + sub.calls)
  }

  /** A short enough input costs exactly one request, on the whole text, whose response is the summary. */
  lemma SummarizeShortInput(ai: AiType, gen: GenCall -> string, sp: Splitter, cfg: SummaryConfig, text: string, fuel: nat)
    requires fuel > 0 && |text| <= cfg.maxSummaryInput && !ai.OtherAi?
    ensures var run := Summarize(ai, gen, sp, cfg, text, fuel);
            && |run.calls| == 1
            && Some(run.calls[0]) == SummaryCall(ai, cfg.maxLength, text)
            && run.result == Success(gen(run.calls[0]))
  {
  }

  /** A long input first costs one request per repaired chunk, in order, and then whatever
      the summary of the space-joined responses costs. */
  lemma SummarizeLongInput(ai: AiType, gen: GenCall -> string, sp: Splitter, cfg: SummaryConfig, text: string, fuel: nat)
    requires fuel > 0 && |text| > cfg.maxSummaryInput && !ai.OtherAi?
    ensures var chunks := BuildChunks(sp, text, cfg.maxChunkSize);
            var run := Summarize(ai, gen, sp, cfg, text, fuel);
            var calls := ChunkCalls(ai, cfg.maxLength, chunks);
            var sub := Summarize(ai, gen, sp, cfg, Join(" ", Responses(gen, calls)), fuel - 1);
            && |run.calls| == |chunks| + |sub.calls|
            && run.calls[..|chunks|] == calls
            && run.calls[|chunks|..] == sub.calls
            && (forall i :: 0 <= i < |chunks| ==> Some(run.calls[i]) == SummaryCall(ai, cfg.maxLength, chunks[i].text))
            && run.result == sub.result
  {
    var chunks := BuildChunks(sp, text, cfg.maxChunkSize);
    var calls := ChunkCalls(ai, cfg.maxLength, chunks);
    var sub := Summarize(ai, gen, sp, cfg, Join(" ", Responses(gen, calls)), fuel - 1);
    assert (calls + sub.calls)[..|chunks|] == calls;
    assert (calls + sub.calls)[|chunks|..] == sub.calls;
  }
}

=== FILE: audio_manager.dfy ===
/** `AudioManager`: container detection, the conversion dispatch, the one-window-at-a-time
    transcription of long audio, and the neighbour-context improvement of each transcript.
    ffmpeg, the `wave` module, speech-to-text, the summariser and the generator are
    parameters; audio is a sequence of frames with one frame per time unit, so durations
    are naturals. */
module AudioManager {
  import opened Wrappers
  import opened Text
  import AiManager
  import ChunkContext

  newtype byte = x: int | 0 <= x < 256

  // ---------------------------------------------------------------------------
  // detect_format
  // ---------------------------------------------------------------------------

  datatype Format = Wav | Mp3 | Webm | M4a

  /** The format names used as `input_format` values. */
  function FormatName(f: Format): string {
    match f
    case Wav => "wav"
    case Mp3 => "mp3"
    case Webm => "webm"
    case M4a => "m4a"
  }

  const RiffMagic: seq<byte> := [0x52, 0x49, 0x46, 0x46]      // "RIFF"
  const Id3Magic: seq<byte> := [0x49, 0x44, 0x33]             // "ID3"
  const FrameSync: seq<byte> := [0xFF, 0xFB]                  // MPEG-1 layer III frame header
  const EbmlMagic: seq<byte> := [0x1A, 0x45, 0xDF, 0xA3]      // Matroska / WebM
  const BoxSize32: seq<byte> := [0x00, 0x00, 0x00, 0x20]      // 32-byte leading MP4 box
  const FtypTag: seq<byte> := [0x66, 0x74, 0x79, 0x70]        // "ftyp"

  /** Python's `b[off:off + len(p)] == p`: a slice past the end is shorter, so never equal. */
  predicate HasAt(b: seq<byte>, off: nat, p: seq<byte>) {
    off + |p| <= |b| && b[off..off + |p|] == p
  }

  /** `detect_format`: checks in a fixed order, the first match wins, WebM otherwise. */
  function DetectFormat(b: seq<byte>): (f: Format)
    ensures f == Wav <==> HasAt(b, 0, RiffMagic)
    ensures f == Mp3 ==> HasAt(b, 0, Id3Magic) || HasAt(b, 0, FrameSync)
    ensures f == M4a ==> HasAt(b, 0, BoxSize32) || HasAt(b, 4, FtypTag)
  {
    if HasAt(b, 0, RiffMagic) then Wav
    else if HasAt(b, 0, Id3Magic) || HasAt(b, 0, FrameSync) then Mp3
    else if HasAt(b, 0, EbmlMagic) then Webm
    else if HasAt(b, 0, BoxSize32) || HasAt(b, 4, FtypTag) then M4a
    else Webm
  }

  /** One row of a first-match classification table. */
  datatype MagicRule = MagicRule(offset: nat, magic: seq<byte>, format: Format)

  /** The signatures in the order they are tried. */
  const MagicRules: seq<MagicRule> := [
    MagicRule(0, RiffMagic, Wav),
    MagicRule(0, Id3Magic, Mp3),
    MagicRule(0, FrameSync, Mp3),
    MagicRule(0, EbmlMagic, Webm),
    MagicRule(0, BoxSize32, M4a),
    MagicRule(4, FtypTag, M4a)
  ]

  /** Reference classifier: the format of the first rule that matches, if any. */
  function FirstMatch(rules: seq<MagicRule>, b: seq<byte>): Option<Format> {
    if rules == [] then None
    else if HasAt(b, rules[0].offset, rules[0].magic) then Some(rules[0].format)
    else FirstMatch(rules[1..], b)
  }

  /** `detect_format` is the first-match reading of the signature table, WebM by default. */
  lemma DetectFormatIsFirstMatch(b: seq<byte>)
    ensures DetectFormat(b) == FirstMatch(MagicRules, b).GetOr(Webm)
  {
    var rs := MagicRules;
    assert FirstMatch(rs[5..], b) == if HasAt(b, 4, FtypTag) then Some(M4a) else None by {
      assert rs[5..][0] == rs[5] && rs[5..][1..] == [];
    }
    assert FirstMatch(rs[4..], b) == if HasAt(b, 0, BoxSize32) then Some(M4a) else FirstMatch(rs[5..], b) by {
      assert rs[4..][0] == rs[4] && rs[4..][1..] == rs[5..];
    }
    assert FirstMatch(rs[3..], b) == if HasAt(b, 0, EbmlMagic) then Some(Webm) else FirstMatch(rs[4..], b) by {
      assert rs[3..][0] == rs[3] && rs[3..][1..] == rs[4..];
    }
    assert FirstMatch(rs[2..], b) == if HasAt(b, 0, FrameSync) then Some(Mp3) else FirstMatch(rs[3..], b) by {
      assert rs[2..][0] == rs[2] && rs[2..][1..] == rs[3..];
    }
    assert FirstMatch(rs[1..], b) == if HasAt(b, 0, Id3Magic) then Some(Mp3) else FirstMatch(rs[2..], b) by {
      assert rs[1..][0] == rs[1] && rs[1..][1..] == rs[2..];
    }
    assert FirstMatch(rs, b) == if HasAt(b, 0, RiffMagic) then Some(Wav) else FirstMatch(rs[1..], b);
  }

  /** A RIFF header classifies as WAV whatever follows it. */
  lemma RiffWins(rest: seq<byte>)
    ensures DetectFormat(RiffMagic + rest) == Wav
  {
    assert (RiffMagic + rest)[..4] == RiffMagic;
  }

  /** An ID3 tag classifies as MP3. */
  lemma Id3IsMp3(rest: seq<byte>)
    ensures DetectFormat(Id3Magic + rest) == Mp3
  {
    var b := Id3Magic + rest;
    assert b[..3] == Id3Magic;
    assert b[2] == 0x33;
    assert !HasAt(b, 0, RiffMagic) by {
      if |b| >= 4 {
        assert b[..4][2] != RiffMagic[2];
      }
    }
  }

  /** A bare MPEG frame header classifies as MP3. */
  lemma FrameSyncIsMp3(rest: seq<byte>)
    ensures DetectFormat(FrameSync + rest) == Mp3
  {
    var b := FrameSync + rest;
    assert b[..2] == FrameSync;
    assert !HasAt(b, 0, RiffMagic) by {
      if |b| >= 4 {
        assert b[..4][0] != RiffMagic[0];
      }
    }
  }

  /** An EBML header classifies as WebM. */
  lemma EbmlIsWebm(rest: seq<byte>)
    ensures DetectFormat(EbmlMagic + rest) == Webm
  {
    var b := EbmlMagic + rest;
    assert b[..4] == EbmlMagic;
    assert b[..4][0] != RiffMagic[0];
    assert b[..3][0] != Id3Magic[0];
    assert b[..2][0] != FrameSync[0];
  }

  /** A leading 32-byte MP4 box classifies as M4A. */
  lemma BoxSizeIsM4a(rest: seq<byte>)
    ensures DetectFormat(BoxSize32 + rest) == M4a
  {
    var b := BoxSize32 + rest;
    assert b[..4] == BoxSize32;
    assert b[..4][0] != RiffMagic[0];
    assert b[..4][0] != EbmlMagic[0];
    assert b[..3][0] != Id3Magic[0];
    assert b[..2][0] != FrameSync[0];
  }

  /** An `ftyp` tag at offset 4 classifies as M4A when the first four bytes carry none of
      the earlier signatures. */
  lemma FtypIsM4a(head: seq<byte>, rest: seq<byte>)
    requires |head| == 4
    requires head != RiffMagic && head != EbmlMagic && head[..3] != Id3Magic && head[..2] != FrameSync
    ensures DetectFormat(head + FtypTag + rest) == M4a
  {
    var b := head + FtypTag + rest;
    assert b[..4] == head && b[..3] == head[..3] && b[..2] == head[..2];
    assert b[4..8] == FtypTag;
  }

  /** Any input shorter than two bytes (the empty one included) classifies as WebM. */
  lemma ShortInputIsWebm(b: seq<byte>)
    requires |b| < 2
    ensures DetectFormat(b) == Webm
  {
  }

  // ---------------------------------------------------------------------------
  // convert_audio_bytes_to_wav
  // ---------------------------------------------------------------------------

  /** ffmpeg, whose code is not part of this model: the input bytes and the container
      suffix in, WAV bytes or the process's standard error text out. */
  type Ffmpeg = (seq<byte>, string) -> Result<seq<byte>, string>

  /** `input_format or detect_format(audio_bytes)`: None and "" both fall through. */
  function EffectiveFormat(inputFormat: Option<string>, audio: seq<byte>): (fmt: string)
    ensures inputFormat.Some? && inputFormat.value != "" ==> fmt == inputFormat.value
    ensures inputFormat.None? || inputFormat.value == "" ==> fmt == FormatName(DetectFormat(audio))
  {
    match inputFormat
    case Some(f) => if f != "" then f else FormatName(DetectFormat(audio))
    case None => FormatName(DetectFormat(audio))
  }

  /** The container ffmpeg is told to read: none for WAV, and WebM for any name other
      than "wav", "mp3" and "m4a". */
  function Container(fmt: string): (c: Option<string>)
    ensures c.None? <==> fmt == "wav"
    ensures c.Some? ==> c.value in {"mp3", "m4a", "webm"}
    ensures c.Some? && c.value != "webm" ==> c.value == fmt
  {
    if fmt == "wav" then None
    else if fmt == "mp3" then Some("mp3")
    else if fmt == "m4a" then Some("m4a")
    else Some("webm")
  }

  /** `convert_audio_bytes_to_wav`: WAV input comes back unchanged; anything else is
      converted once by ffmpeg, and an ffmpeg failure is reported with its error text. */
  function ConvertAudioBytesToWav(audio: seq<byte>, inputFormat: Option<string>, ffmpeg: Ffmpeg): (r: Result<seq<byte>, string>)
    ensures EffectiveFormat(inputFormat, audio) == "wav" <==> r == Success(audio) && Container(EffectiveFormat(inputFormat, audio)).None?
    ensures Container(EffectiveFormat(inputFormat, audio)).Some? ==>
              var res := ffmpeg(audio, Container(EffectiveFormat(inputFormat, audio)).value);
              (res.Success? ==> r == res) && (res.Failure? ==> r == Failure("ffmpeg conversion failed: " + res.error))
  {
    match Container(EffectiveFormat(inputFormat, audio))
    case None => Success(audio)
    case Some(suffix) =>
      match ffmpeg(audio, suffix)
      case Success(wav) => Success(wav)
      case Failure(err) => Failure("ffmpeg conversion failed: " + err)
  }

  /** An explicit, non-empty `input_format` decides the conversion whatever the bytes say;
      in particular "wav" returns the input untouched. */
  lemma ExplicitFormatOverridesDetection(audio: seq<byte>, fmt: string, ffmpeg: Ffmpeg)
    requires fmt != ""
    ensures EffectiveFormat(Some(fmt), audio) == fmt
    ensures fmt == "wav" ==> ConvertAudioBytesToWav(audio, Some(fmt), ffmpeg) == Success(audio)
    ensures fmt !in {"wav", "mp3", "m4a"} ==> Container(EffectiveFormat(Some(fmt), audio)) == Some("webm")
  {
  }

  /** Undeclared input with a RIFF header is passed through without calling ffmpeg. */
  lemma RiffInputIsReturnedUnchanged(rest: seq<byte>, ffmpeg: Ffmpeg)
    ensures ConvertAudioBytesToWav(RiffMagic + rest, None, ffmpeg) == Success(RiffMagic + rest)
  {
    RiffWins(rest);
  }

  // ---------------------------------------------------------------------------
  // convert_audio_to_text: window arithmetic
  // ---------------------------------------------------------------------------

  function Min(a: nat, b: nat): nat {
    if a <= b then a else b
  }

  /** `limit_wav_duration`: the first `m` frames, or all of them when there are fewer. */
  function LimitDuration<T>(a: seq<T>, m: nat): (r: seq<T>)
    ensures |r| == Min(m, |a|) && r == a[..|r|]
  {
    a[..Min(m, |a|)]
  }

  datatype ConvertError =
    | ZeroDivision        // a zero window length: Python divides by zero
    | PositionOutOfRange  // `setpos` past the last frame raises `wave.Error`

  /** `skip_seconds_wav`: everything after the first `s` frames. `setpos` refuses a
      position past the last frame, so skipping more than the audio holds fails. */
  function SkipDuration<T>(a: seq<T>, s: nat): (r: Result<seq<T>, ConvertError>)
    ensures r.Success? <==> s <= |a|
    ensures r.Failure? ==> r.error == PositionOutOfRange
    ensures r.Success? ==> |r.value| == |a| - s
  {
    if s <= |a| then Success(a[s..]) else Failure(PositionOutOfRange)
  }

  /** Limiting to `s` frames and skipping `s` frames cut the audio in two, in order, with
      nothing lost or repeated. */
  lemma LimitThenSkipIsWhole<T>(a: seq<T>, s: nat)
    requires s <= |a|
    ensures LimitDuration(a, s) + SkipDuration(a, s).value == a
  {
  }

  /** `num_chunks`: `d // c` plus one for a partial last window; None where Python divides
      by zero. */
  function NumChunks(d: nat, c: nat): (n: Option<nat>)
    ensures n.None? <==> c == 0
    ensures n.Some? ==> n.value * c >= d && (n.value == 0 || (n.value - 1) * c < d)
  {
    if c == 0 then None
    else
      var q := d / c;
      var n := q + (if d % c > 0 then 1 else 0);
      assert n * c >= d && (n == 0 || (n - 1) * c < d) by {
        assert d == q * c + d % c;
        if d % c > 0 {
          assert n * c == q * c + c;
          assert (n - 1) * c == q * c;
        } else if n > 0 {
          assert (n - 1) * c == q * c - c;
        }
      }
      Some(n)
  }

  /** The audio `advanced_stt` limits for window `k`: the first `c * (k + 1)` frames when
      that is non-zero (`if max_duration:`), otherwise all of it. */
  function Limited<T>(a: seq<T>, c: nat, k: nat): (l: seq<T>)
    ensures k * c <= |a| ==> k * c <= |l|
  {
    assert c * (k + 1) == k * c + c;
    if c * (k + 1) > 0 then LimitDuration(a, c * (k + 1)) else a
  }

  /** The audio given to `advanced_stt` for window `k`: the limited audio with the first
      `k * c` frames skipped. The loop only asks for windows that start inside the audio,
      where the skip succeeds (`WindowIsSkip`); past the end, where `setpos` would raise,
      the window is taken as empty. */
  function Window<T>(a: seq<T>, c: nat, k: nat): seq<T> {
    var l := Limited(a, c, k);
    if k * c <= |l| then l[k * c..] else []
  }

  /** A window that starts inside the audio never skips past the end of the limited
      audio, so the skip succeeds and yields the window. */
  lemma WindowIsSkip<T>(a: seq<T>, c: nat, k: nat)
    requires k * c <= |a|
    ensures SkipDuration(Limited(a, c, k), k * c) == Success(Window(a, c, k))
  {
  }

  /** Every window `k < num_chunks` starts inside the audio, so the loop never makes
      `setpos` fail. */
  lemma VisitedWindowSkipSucceeds<T>(a: seq<T>, c: nat, k: nat)
    requires c > 0 && k < NumChunks(|a|, c).value
    ensures k * c < |a|
    ensures SkipDuration(Limited(a, c, k), k * c) == Success(Window(a, c, k))
  {
    var n := NumChunks(|a|, c).value;
    assert k * c <= (n - 1) * c;
    WindowIsSkip(a, c, k);
  }

  /** Window `k` is exactly the frames `k*c .. min((k+1)*c, |a|)`. */
  lemma WindowIsSlice<T>(a: seq<T>, c: nat, k: nat)
    requires c > 0 && k * c <= |a|
    ensures Window(a, c, k) == a[k * c .. Min((k + 1) * c, |a|)]
  {
    assert c * (k + 1) == (k + 1) * c;
    assert k * c <= (k + 1) * c;
  }

  /** Each window `k < num_chunks` is non-empty and at most `c` frames long. */
  lemma WindowSize<T>(a: seq<T>, c: nat, k: nat)
    requires c > 0 && NumChunks(|a|, c).Some? && k < NumChunks(|a|, c).value
    ensures 0 < |Window(a, c, k)| <= c
  {
    var n := NumChunks(|a|, c).value;
    assert k * c <= (n - 1) * c;
    WindowIsSlice(a, c, k);
  }

  /** The windows `0 .. k-1` one after the other. */
  function Windows<T>(a: seq<T>, c: nat, k: nat): (ws: seq<seq<T>>)
    ensures |ws| == k
  {
    if k == 0 then [] else Windows(a, c, k - 1) + [Window(a, c, k - 1)]
  }

  function Flatten<T>(ws: seq<seq<T>>): seq<T> {
    if ws == [] then [] else Flatten(ws[..|ws| - 1]) + ws[|ws| - 1]
  }

  /** The first `k` windows, laid end to end, are the first `min(k*c, |a|)` frames. */
  lemma {:induction false} WindowsArePrefix<T>(a: seq<T>, c: nat, k: nat)
    requires c > 0
    ensures Flatten(Windows(a, c, k)) == a[..Min(k * c, |a|)]
  {
    if k > 0 {
      var prev := Windows(a, c, k - 1);
      var w := Window(a, c, k - 1);
      assert Flatten(Windows(a, c, k)) == Flatten(prev) + w by {
        FlattenSnoc(prev, w);
      }
      WindowsArePrefix(a, c, k - 1);
      var i := (k - 1) * c;
      assert (k - 1 + 1) * c == k * c == i + c;
      if i <= |a| {
        WindowIsSlice(a, c, k - 1);
        SliceJoin(a, i, Min(k * c, |a|));
      } else {
        WindowPastEnd(a, c, k - 1);
      }
    }
  }

  /** A window that starts past the end of the audio is empty. */
  lemma WindowPastEnd<T>(a: seq<T>, c: nat, k: nat)
    requires c > 0 && k * c > |a|
    ensures Window(a, c, k) == []
  {
    assert c * (k + 1) > 0;
  }

  lemma FlattenSnoc<T>(ws: seq<seq<T>>, w: seq<T>)
    ensures Flatten(ws + [w]) == Flatten(ws) + w
  {
    assert (ws + [w])[..|ws|] == ws;
  }

  lemma SliceJoin<T>(a: seq<T>, i: nat, j: nat)
    requires i <= j <= |a|
    ensures a[..i] + a[i..j] == a[..j]
  {
  }

  /** The windows of `convert_audio_to_text` cover the audio exactly once, in order. */
  lemma WindowsCoverAudio<T>(a: seq<T>, c: nat)
    requires c > 0
    ensures Flatten(Windows(a, c, NumChunks(|a|, c).value)) == a
  {
    var n := NumChunks(|a|, c).value;
    WindowsArePrefix(a, c, n);
    assert a[..Min(n * c, |a|)] == a;
  }

  // ---------------------------------------------------------------------------
  // advanced_stt and convert_audio_to_text
  // ---------------------------------------------------------------------------

  /** The services `advanced_stt` calls, none of whose code is part of this model.
      `instructions` are the four fixed system messages, `stt` transcribes frames,
      `summarize` is the manager's summary of the transcript and `generate` answers from
      the manager's whole message list. */
  datatype SttServices<!T> = SttServices(
    instructions: seq<string>,
    stt: seq<T> -> string,
    splitter: AiManager.Splitter,
    summarize: string -> string,
    generate: seq<string> -> string)

  /** The chunk size `advanced_stt` asks `build_chunks` for. */
  const SttChunkSize := 1000

  /** The transcript of one window, cut into chunk texts by `build_chunks`. */
  function SttTexts<T>(svc: SttServices<T>, audio: seq<T>): (ts: seq<string>)
    ensures |ts| == |AiManager.BuildChunks(svc.splitter, svc.stt(audio), SttChunkSize)|
  {
    AiManager.Texts(AiManager.BuildChunks(svc.splitter, svc.stt(audio), SttChunkSize))
  }

  datatype SttOutcome = SttOutcome(text: string, history: seq<string>)

  /** `advanced_stt` on one window, given the manager's message list before the call. */
  function AdvancedStt<T>(svc: SttServices<T>, audio: seq<T>, history: seq<string>): (o: SttOutcome)
    ensures var texts := SttTexts(svc, audio);
            |o.history| == |history| + |svc.instructions| + 4 * |texts|
            && o.history[..|history|] == history
  {
    var texts := SttTexts(svc, audio);
    var summary := svc.summarize(svc.stt(audio));
    var start := history + svc.instructions;
    var responses := ChunkContext.ContextResponses(svc.generate, start, texts, summary);
    var h := ChunkContext.History(start, texts, summary, |texts|);
    HistoryKeepsPrefix(start, texts, summary, |texts|);
    assert h[..|history|] == start[..|history|];
    SttOutcome(Strip(ChunkContext.SpaceTerminated(responses)), h)
  }

  lemma HistoryKeepsPrefix(start: seq<string>, texts: seq<string>, summary: string, k: nat)
    requires k <= |texts|
    ensures ChunkContext.History(start, texts, summary, k)[..|start|] == start
  {
    if k > 0 {
      ChunkContext.HistoryLayout(start, texts, summary, k, 0);
    }
  }

  /** `advanced_stt`'s text is the space-join of one improved response per chunk, stripped. */
  lemma AdvancedSttTextIsJoin<T>(svc: SttServices<T>, audio: seq<T>, history: seq<string>)
    ensures var texts := SttTexts(svc, audio);
            var responses := ChunkContext.ContextResponses(svc.generate, history + svc.instructions, texts,
                                                           svc.summarize(svc.stt(audio)));
            |responses| == |texts|
            && AdvancedStt(svc, audio, history).text == Strip(Join(" ", responses))
  {
    var texts := SttTexts(svc, audio);
    var responses := ChunkContext.ContextResponses(svc.generate, history + svc.instructions, texts,
                                                   svc.summarize(svc.stt(audio)));
    if responses != [] {
      ChunkContext.SpaceTerminatedIsJoin(responses);
      StripSnocSpace(Join(" ", responses), ' ');
    }
  }

  datatype Transcript = Transcript(texts: seq<string>, history: seq<string>)

  /** `advanced_stt` on each window in turn on the same manager: one text per window, and
      each window starts from the message list the previous ones left behind, from which
      nothing is ever removed. */
  function TranscribeAll<T>(svc: SttServices<T>, ws: seq<seq<T>>, h0: seq<string>): (t: Transcript)
    ensures |t.texts| == |ws|
    ensures |t.history| >= |h0| && t.history[..|h0|] == h0
  {
    if ws == [] then Transcript([], h0)
    else
      var p := TranscribeAll(svc, ws[..|ws| - 1], h0);
      var o := AdvancedStt(svc, ws[|ws| - 1], p.history);
      PrefixOfPrefixes(o.history, p.history, h0);
      Transcript(p.texts + [o.text], o.history)
  }

  /** A prefix of a prefix is a prefix. */
  lemma PrefixOfPrefixes<X>(xs: seq<X>, ys: seq<X>, zs: seq<X>)
    requires |ys| <= |xs| && xs[..|ys|] == ys
    requires |zs| <= |ys| && ys[..|zs|] == zs
    ensures xs[..|zs|] == zs
  {
    assert xs[..|zs|] == xs[..|ys|][..|zs|];
  }

  /** Window `j`'s text is `advanced_stt` on that window, run on the message list that the
      windows before it left behind. */
  lemma {:induction false} TranscribeAllAt<T>(svc: SttServices<T>, ws: seq<seq<T>>, h0: seq<string>, j: nat)
    requires j < |ws|
    ensures TranscribeAll(svc, ws, h0).texts[j] == AdvancedStt(svc, ws[j], TranscribeAll(svc, ws[..j], h0).history).text
  {
    var init := ws[..|ws| - 1];
    if j < |ws| - 1 {
      PrefixOfPrefix(ws, init, j);
      TranscribeAllAt(svc, init, h0, j);
      TranscribeAllSnoc(svc, ws, h0);
    } else {
      assert ws[..j] == init;
      TranscribeAllSnoc(svc, ws, h0);
    }
  }

  /** The prefixes of `xs` without its last element are prefixes of `xs`. */
  lemma PrefixOfPrefix<X>(xs: seq<X>, init: seq<X>, j: nat)
    requires xs != [] && init == xs[..|xs| - 1] && j < |init|
    ensures init[..j] == xs[..j] && init[j] == xs[j]
  {
  }

  lemma TranscribeAllSnoc<T>(svc: SttServices<T>, ws: seq<seq<T>>, h0: seq<string>)
    requires ws != []
    ensures var p := TranscribeAll(svc, ws[..|ws| - 1], h0);
            TranscribeAll(svc, ws, h0).texts == p.texts + [AdvancedStt(svc, ws[|ws| - 1], p.history).text]
  {
  }

  /** One more window appends its `advanced_stt` text and continues from its message list. */
  lemma TranscribeNextWindow<T>(svc: SttServices<T>, a: seq<T>, c: nat, k: nat, h0: seq<string>)
    ensures var p := TranscribeAll(svc, Windows(a, c, k), h0);
            var o := AdvancedStt(svc, Window(a, c, k), p.history);
            TranscribeAll(svc, Windows(a, c, k + 1), h0) == Transcript(p.texts + [o.text], o.history)
  {
    assert Windows(a, c, k + 1)[..k] == Windows(a, c, k);
  }

  /** One iteration of the window loop keeps both of its invariants: the texts and message
      list are the transcription of one more window, and the accumulator is their
      space-terminated concatenation. */
  lemma AccumulateNextWindow<T>(svc: SttServices<T>, a: seq<T>, c: nat, k: nat, h0: seq<string>,
                                texts: seq<string>, acc: string, history: seq<string>)
    requires Transcript(texts, history) == TranscribeAll(svc, Windows(a, c, k), h0)
    requires acc == ChunkContext.SpaceTerminated(texts)
    ensures var o := AdvancedStt(svc, Window(a, c, k), history);
            && Transcript(texts + [o.text], o.history) == TranscribeAll(svc, Windows(a, c, k + 1), h0)
            && acc + o.text + " " == ChunkContext.SpaceTerminated(texts + [o.text])
  {
    var o := AdvancedStt(svc, Window(a, c, k), history);
    TranscribeNextWindow(svc, a, c, k, h0);
    ChunkContext.SnocPrefix(texts, o.text);
  }

  /** The window loop of `convert_audio_to_text` over its first `n` windows: each window's
      `advanced_stt` text is added to the accumulator followed by a space, on the message
      list the earlier windows left behind. */
  method WindowLoop<T>(svc: SttServices<T>, a: seq<T>, c: nat, n: nat, h0: seq<string>)
    returns (acc: string, texts: seq<string>, history: seq<string>)
    ensures Transcript(texts, history) == TranscribeAll(svc, Windows(a, c, n), h0)
    ensures acc == ChunkContext.SpaceTerminated(texts)
  {
    texts, acc, history := [], "", h0;
    var k := 0;
    while k < n
      invariant 0 <= k <= n
      invariant Transcript(texts, history) == TranscribeAll(svc, Windows(a, c, k), h0)
      invariant acc == ChunkContext.SpaceTerminated(texts)
    {
      var o := AdvancedStt(svc, Window(a, c, k), history);
      AccumulateNextWindow(svc, a, c, k, h0, texts, acc, history);
      texts := texts + [o.text];
      acc := acc + o.text + " ";
      history := o.history;
      k := k + 1;
    }
  }

  /** `convert_audio_to_text` on already converted and preprocessed frames `a`: the window
      loop as written, accumulating each window's text plus a space and stripping at the end.
      The result is the stripped space-join of one `advanced_stt` text per window. */
  method ConvertAudioToText<T>(svc: SttServices<T>, a: seq<T>, c: nat, h0: seq<string>)
    returns (r: Result<SttOutcome, ConvertError>)
    ensures c == 0 <==> r == Failure(ZeroDivision)
    ensures r.Success? ==>
              var t := TranscribeAll(svc, Windows(a, c, NumChunks(|a|, c).value), h0);
              r.value == SttOutcome(Strip(Join(" ", t.texts)), t.history)
  {
    var nc := NumChunks(|a|, c);
    if nc.None? {
      return Failure(ZeroDivision);
    }
    var acc, texts, history := WindowLoop(svc, a, c, nc.value, h0);
    StrippedAccumulatorIsJoin(texts);
    return Success(SttOutcome(Strip(acc), history));
  }

  /** Adding a space after every text and stripping at the end is the stripped
      space-join. */
  lemma StrippedAccumulatorIsJoin(texts: seq<string>)
    ensures Strip(ChunkContext.SpaceTerminated(texts)) == Strip(Join(" ", texts))
  {
    if texts != [] {
      ChunkContext.SpaceTerminatedIsJoin(texts);
      StripSnocSpace(Join(" ", texts), ' ');
    }
  }
}

=== FILE: chat_bot.dfy ===
/** The translating voice chat consumer (`ChatBotConsumer`): classification of incoming text
    frames, and the audio handler that transcribes one recording, translates it chunk by
    chunk with its neighbours as context, and reports either the translation or the error. */
module ChatBot {
  import opened Wrappers
  import opened Text
  import AiManager
  import ChunkContext
  import AudioManager
  import opened PythonCall

  /** A parsed JSON value. Numbers are integers in this model. */
  datatype Json =
    | JNull
    | JBool(b: bool)
    | JNumber(n: int)
    | JString(s: string)
    | JArray(items: seq<Json>)
    | JObject(fields: map<string, Json>)

  /** Python's `needle in haystack` on two strings. */
  predicate ContainsText(haystack: string, needle: string) {
    StartsWith(haystack, needle) || (haystack != [] && ContainsText(haystack[1..], needle))
  }

  /** How `_data_handler` treats one text frame. */
  datatype Dispatch =
    | ToAudio(fields: map<string, Json>)  // an object whose "type" is "audio"
    | InvalidJson                         // the decoder rejected the text
    | Raises                              // `"type" in data` or `data["type"]` raises a TypeError
    | Ignored                             // anything else: nothing happens

  /** `_data_handler` before the audio call: decode, then look up "type". Python's `in`
      means key membership on a dict, element membership on a list and substring on a
      string, and raises on numbers, booleans and None; indexing a list or string by
      "type" raises as well. */
  function Classify(text: string, parse: string -> Option<Json>): (d: Dispatch)
    ensures d.ToAudio? <==>
              parse(text).Some? && parse(text).value.JObject?
              && "type" in parse(text).value.fields && parse(text).value.fields["type"] == JString("audio")
    ensures d.ToAudio? ==> d.fields == parse(text).value.fields
    ensures d.InvalidJson? <==> parse(text).None?
  {
    match parse(text)
    case None => InvalidJson
    case Some(data) =>
      match data
      case JObject(fields) =>
        if "type" in fields && fields["type"] == JString("audio") then ToAudio(fields) else Ignored
      case JArray(items) => if JString("type") in items then Raises else Ignored
      case JString(s) => if ContainsText(s, "type") then Raises else Ignored
      case _ => Raises
  }

  /** Only a JSON object can be dispatched; a scalar other than a string always raises. */
  lemma OnlyObjectsDispatch(text: string, parse: string -> Option<Json>)
    requires parse(text).Some?
    ensures !parse(text).value.JObject? ==> !Classify(text, parse).ToAudio?
    ensures (parse(text).value.JNumber? || parse(text).value.JBool? || parse(text).value.JNull?)
            ==> Classify(text, parse) == Raises
  {
  }

  /** `{"error": message}`. */
  function ErrorObject(message: string): Json {
    JObject(map["error" := JString(message)])
  }

  const InvalidJsonReply := ErrorObject("Invalid JSON format")

  /** The prefix every failure of the audio handler is reported under. */
  const AudioErrorPrefix := "Audio processing error: "

  /** Seconds of recording that precede chunk number `chunkId`. */
  const SecondsPerChunk := 60

  /** The reply sent after a successful translation. */
  function Metadata(chunkId: int, text: string): Json {
    JObject(map["type" := JString("audio"), "chunk_id" := JNumber(chunkId),
                "text" := JString(text), "language_code" := JString("en-US")])
  }

  /** The collaborators of `_audio_handler`, none of whose code is part of this model; each
      one that can raise returns the message of its exception. `parseInt` is Python's
      `int()` on a string, `decode` is base64 decoding of the `voice_chunk` value, then the
      WebM-to-WAV conversion, skipping the first seconds, preprocessing, transcription,
      the splitter, the summariser, the generator over the whole message list,
      text-to-speech, and the four fixed system messages. */
  datatype AudioServices = AudioServices(
    parseInt: string -> Result<int, string>,
    decode: Json -> Result<seq<AudioManager.byte>, string>,
    toWav: seq<AudioManager.byte> -> Result<seq<AudioManager.byte>, string>,
    skipSeconds: (seq<AudioManager.byte>, int) -> Result<seq<AudioManager.byte>, string>,
    preprocess: seq<AudioManager.byte> -> Result<seq<AudioManager.byte>, string>,
    stt: seq<AudioManager.byte> -> Result<string, string>,
    splitter: AiManager.Splitter,
    summarize: string -> string,
    generate: seq<string> -> string,
    tts: string -> Result<seq<AudioManager.byte>, string>,
    instructions: seq<string>)

  /** Python's `int(v)` on a decoded JSON value. */
  function IntOf(v: Json, parseInt: string -> Result<int, string>): (r: Result<int, string>)
    ensures v.JNumber? ==> r == Success(v.n)
    ensures v.JBool? ==> r == Success(if v.b then 1 else 0)
    ensures v.JString? ==> r == parseInt(v.s)
    ensures (v.JNull? || v.JArray? || v.JObject?) ==> r.Failure?
  {
    match v
    case JNumber(n) => Success(n)
    case JBool(b) => Success(if b then 1 else 0)
    case JString(s) => parseInt(s)
    case JNull => Failure(IntTypeError("NoneType"))
    case JArray(_) => Failure(IntTypeError("list"))
    case JObject(_) => Failure(IntTypeError("dict"))
  }

  /** The message of the TypeError `int()` raises for a value of another type. */
  function IntTypeError(typeName: string): string {
    IntArgumentMessage + "'" + typeName + "'"
  }

  const IntArgumentMessage := "int() argument must be a string, a bytes-like object or a real number, not "

  /** `data.get(key, default)`. */
  function Get(fields: map<string, Json>, key: string, default: Json): Json {
    if key in fields then fields[key] else default
  }

  /** What the handler knows before the translation loop: the chunk id and the transcript
      of the recording with the first `chunkId * 60` seconds skipped. */
  datatype Transcribed = Transcribed(chunkId: int, transcript: string)

  /** `int(data.get("chunk_id", 0))`. */
  function ChunkIdOf(svc: AudioServices, fields: map<string, Json>): Result<int, string> {
    IntOf(Get(fields, "chunk_id", JNumber(0)), svc.parseInt)
  }

  /** `base64.b64decode(data.get("voice_chunk", ""))`. */
  function VoiceOf(svc: AudioServices, fields: map<string, Json>): Result<seq<AudioManager.byte>, string> {
    svc.decode(Get(fields, "voice_chunk", JString("")))
  }

  /** The steps of `_audio_handler` before the loop, in order; the first that raises ends
      the handler with its message, and the transcript is produced only when every step
      succeeds. */
  function Transcribe(svc: AudioServices, fields: map<string, Json>): (r: Result<Transcribed, string>)
    ensures ChunkIdOf(svc, fields).Failure? ==> r == Failure(ChunkIdOf(svc, fields).error)
    ensures ChunkIdOf(svc, fields).Success? && VoiceOf(svc, fields).Failure? ==> r == Failure(VoiceOf(svc, fields).error)
    ensures ChunkIdOf(svc, fields).Success? && VoiceOf(svc, fields).Success? ==>
              var id := ChunkIdOf(svc, fields).value;
              var wav := svc.toWav(VoiceOf(svc, fields).value);
              && (wav.Failure? ==> r == Failure(wav.error))
              && (wav.Success? ==>
                    var skipped := svc.skipSeconds(wav.value, id * SecondsPerChunk);
                    && (skipped.Failure? ==> r == Failure(skipped.error))
                    && (skipped.Success? ==>
                          var filtered := svc.preprocess(skipped.value);
                          && (filtered.Failure? ==> r == Failure(filtered.error))
                          && (filtered.Success? ==>
                                var text := svc.stt(filtered.value);
                                && (text.Failure? ==> r == Failure(text.error))
                                && (text.Success? ==> r == Success(Transcribed(id, text.value))))))
    ensures r.Success? ==>
              && r.value.chunkId == IntOf(Get(fields, "chunk_id", JNumber(0)), svc.parseInt).value
              && svc.decode(Get(fields, "voice_chunk", JString(""))).Success?
              && svc.toWav(svc.decode(Get(fields, "voice_chunk", JString(""))).value).Success?
              && var wav := svc.toWav(svc.decode(Get(fields, "voice_chunk", JString(""))).value).value;
                 && svc.skipSeconds(wav, r.value.chunkId * SecondsPerChunk).Success?
                 && svc.preprocess(svc.skipSeconds(wav, r.value.chunkId * SecondsPerChunk).value).Success?
                 && svc.stt(svc.preprocess(svc.skipSeconds(wav, r.value.chunkId * SecondsPerChunk).value).value)
                    == Success(r.value.transcript)
  {
    var chunkId :- ChunkIdOf(svc, fields);
    var audio :- VoiceOf(svc, fields);
    var wav :- svc.toWav(audio);
    var skipped :- svc.skipSeconds(wav, chunkId * SecondsPerChunk);
    var filtered :- svc.preprocess(skipped);
    var text :- svc.stt(filtered);
    Success(Transcribed(chunkId, text))
  }

  /** The chunk texts of a transcript: `build_chunks(text, max_chunk_size=1000)`. */
  function ChunkTexts(svc: AudioServices, transcript: string): seq<string> {
    AiManager.Texts(AiManager.BuildChunks(svc.splitter, transcript, 1000))
  }

  /** The effect of one frame: the generator's message list afterwards and the replies
      sent, in order. */
  datatype Effect = Effect(history: seq<string>, sent: seq<Json>)

  /** `_audio_handler`: one reply, always. A failure before the loop reports its message
      and leaves the message list alone; otherwise the four system messages and four
      context messages per chunk are added, one response per chunk is asked for in chunk
      order, and the translation is the responses each followed by a space, not stripped.
      This is the handler with the `tts` call corrected to pass only keywords `tts`
      declares; `AudioHandlerAsWritten` is the call as it stands. */
  method AudioHandler(svc: AudioServices, history: seq<string>, fields: map<string, Json>) returns (e: Effect)
    ensures |e.sent| == 1
    ensures Transcribe(svc, fields).Failure? ==>
              e == Effect(history, [ErrorObject(AudioErrorPrefix + Transcribe(svc, fields).error)])
    ensures Transcribe(svc, fields).Success? ==>
              var t := Transcribe(svc, fields).value;
              var texts := ChunkTexts(svc, t.transcript);
              var start := history + svc.instructions;
              var summary := svc.summarize(t.transcript);
              var translated := ChunkContext.SpaceTerminated(ChunkContext.ContextResponses(svc.generate, start, texts, summary));
              && e.history == ChunkContext.History(start, texts, summary, |texts|)
              && (svc.tts(translated).Failure? ==> e.sent == [ErrorObject(AudioErrorPrefix + svc.tts(translated).error)])
              && (svc.tts(translated).Success? ==> e.sent == [Metadata(t.chunkId, translated)])
  {
    var prepared := Transcribe(svc, fields);
    if prepared.Failure? {
      return Effect(history, [ErrorObject(AudioErrorPrefix + prepared.error)]);
    }
    var t := prepared.value;
    var texts := ChunkTexts(svc, t.transcript);
    var summary := svc.summarize(t.transcript);
    var loop := ChunkContext.ContextLoop(svc.generate, history + svc.instructions, texts, summary);
    var speech := svc.tts(loop.text);
    if speech.Failure? {
      e := Effect(loop.history, [ErrorObject(AudioErrorPrefix + speech.error)]);
    } else {
      e := Effect(loop.history, [Metadata(t.chunkId, loop.text)]);
    }
  }

  /** The parameters `GoogleAIManager.tts` declares. */
  const TtsParameters := ["text", "voice_name", "audio_encoding"]

  /** The keywords the handler passes to `tts`, in call order. */
  const TtsKeywords := ["audio_encoding", "language_code"]

  const TtsName := "GoogleAIManager.tts"

  /** `tts` declares no `language_code`, so the call is rejected on that keyword. */
  lemma TtsCallIsRejected()
    ensures BindKeywords(TtsName, TtsParameters, TtsKeywords) == Failure(UnexpectedKeyword(TtsName, "language_code"))
  {
    assert TtsKeywords[0] in TtsParameters && TtsKeywords[1] !in TtsParameters;
    assert TtsKeywords[1..][1..] == [];
  }

  /** `_audio_handler` as written: the call `tts(translated_text, audio_encoding=...,
      language_code="en-US")` names a keyword `tts` does not declare, so once the
      translation loop has run, the TypeError is reported instead of the translation,
      whatever the speech service would have answered. The loop's messages stay added. */
  method AudioHandlerAsWritten(svc: AudioServices, history: seq<string>, fields: map<string, Json>) returns (e: Effect)
    ensures |e.sent| == 1
    ensures Transcribe(svc, fields).Failure? ==>
              e == Effect(history, [ErrorObject(AudioErrorPrefix + Transcribe(svc, fields).error)])
    ensures Transcribe(svc, fields).Success? ==>
              var t := Transcribe(svc, fields).value;
              var texts := ChunkTexts(svc, t.transcript);
              var summary := svc.summarize(t.transcript);
              && e.history == ChunkContext.History(history + svc.instructions, texts, summary, |texts|)
              && e.sent == [ErrorObject(AudioErrorPrefix + UnexpectedKeyword(TtsName, "language_code"))]
  {
    var prepared := Transcribe(svc, fields);
    if prepared.Failure? {
      return Effect(history, [ErrorObject(AudioErrorPrefix + prepared.error)]);
    }
    var t := prepared.value;
    var texts := ChunkTexts(svc, t.transcript);
    var summary := svc.summarize(t.transcript);
    var loop := ChunkContext.ContextLoop(svc.generate, history + svc.instructions, texts, summary);
    var bound := BindKeywords(TtsName, TtsParameters, TtsKeywords);
    TtsCallIsRejected();
    var speech := if bound.Failure? then Failure(bound.error) else svc.tts(loop.text);
    if speech.Failure? {
      e := Effect(loop.history, [ErrorObject(AudioErrorPrefix + speech.error)]);
    } else {
      e := Effect(loop.history, [Metadata(t.chunkId, loop.text)]);
    }
  }

  /** The translation reported is the space-join of the responses with one trailing space,
      unlike `advanced_stt`, which strips it. */
  lemma TranslationKeepsTrailingSpace(rs: seq<string>)
    requires rs != []
    ensures ChunkContext.SpaceTerminated(rs) == Join(" ", rs) + " "
    ensures EndsWith(ChunkContext.SpaceTerminated(rs), " ")
  {
    ChunkContext.SpaceTerminatedIsJoin(rs);
    var t := Join(" ", rs) + " ";
    assert t[|t| - 1..] == " ";
  }

  /** `receive` with `_data_handler`: an empty frame is skipped; an audio object runs the
      corrected audio handler (`AudioHandler`; the handler as written answers it with the
      TypeError of `AudioHandlerAsWritten` instead, also one reply); undecodable text is answered with the fixed error object; anything
      else, including the TypeError that `receive` catches and prints, sends nothing. */
  method Receive(svc: AudioServices, parse: string -> Option<Json>, history: seq<string>, text: string)
    returns (e: Effect)
    ensures text == "" ==> e == Effect(history, [])
    ensures text != "" && Classify(text, parse).InvalidJson? ==> e == Effect(history, [InvalidJsonReply])
    ensures text != "" && (Classify(text, parse).Raises? || Classify(text, parse).Ignored?) ==> e == Effect(history, [])
    ensures text != "" && Classify(text, parse).ToAudio? ==> |e.sent| == 1
  {
    if text == "" {
      return Effect(history, []);
    }
    var d := Classify(text, parse);
    match d {
      case ToAudio(fields) =>
        e := AudioHandler(svc, history, fields);
      case InvalidJson =>
        e := Effect(history, [InvalidJsonReply]);
      case Raises =>
        e := Effect(history, []);
      case Ignored =>
        e := Effect(history, []);
    }
  }
}

=== FILE: chat_window.dfy ===
/** The character-budget chat window that every teacher consumer keeps
    (`_add_message_to_chat_history`, identical in the teacher, French, English and general
    consumers), and the shared start of `_respond_to_user`: take the pending user message,
    shorten it if it is very long, and record it under the user's name. */
module ChatWindow {
  import opened Wrappers
  import opened Text
  import opened PythonCall

  /** One chat history entry: `{"message": ..., "sender": ...}`. */
  datatype Entry = Entry(message: string, sender: string)

  /** `sum(len(m["message"]) for m in history)`. */
  function TotalChars(h: seq<Entry>): nat {
    if h == [] then 0 else |h[0].message| + TotalChars(h[1..])
  }

  /** `f"{sender}: {message}"`. */
  function Line(e: Entry): string {
    e.sender + ": " + e.message
  }

  function Lines(h: seq<Entry>): (ls: seq<string>)
    ensures |ls| == |h|
    ensures forall i :: 0 <= i < |h| ==> ls[i] == Line(h[i])
  {
    if h == [] then [] else [Line(h[0])] + Lines(h[1..])
  }

  /** The entries as lines joined by newlines, in order. */
  function Render(h: seq<Entry>): string {
    Join("\n", Lines(h))
  }

  /** The separator between the summary and the verbatim recent part. */
  const RecentMarker := "\n--- Recent ---\n"

  /** Reference definition of the split point: the start of the longest suffix of the
      history whose characters fit in `maxChars`. */
  function RecentStart(h: seq<Entry>, maxChars: nat): (s: nat)
    ensures s <= |h|
    decreases |h|
  {
    if TotalChars(h) <= maxChars then 0 else 1 + RecentStart(h[1..], maxChars)
  }

  lemma TotalCharsCons(h: seq<Entry>, i: nat)
    requires i < |h|
    ensures TotalChars(h[i..]) == |h[i].message| + TotalChars(h[i + 1..])
  {
    assert h[i..][1..] == h[i + 1..];
  }

  /** Dropping entries from the front never increases the character count. */
  lemma {:induction false} SuffixCharsShrink(h: seq<Entry>, i: nat, j: nat)
    requires i <= j <= |h|
    ensures TotalChars(h[j..]) <= TotalChars(h[i..])
    decreases j - i
  {
    if i < j {
      TotalCharsCons(h, i);
      SuffixCharsShrink(h, i + 1, j);
    }
  }

  /** The split point in a history over budget: at least one entry is older, the recent
      suffix fits, and taking one more entry into it would not fit. */
  lemma {:induction false} RecentStartIsTight(h: seq<Entry>, maxChars: nat)
    requires TotalChars(h) > maxChars
    ensures var s := RecentStart(h, maxChars);
            1 <= s <= |h| && TotalChars(h[s..]) <= maxChars && TotalChars(h[s - 1..]) > maxChars
    decreases |h|
  {
    var s := RecentStart(h, maxChars);
    assert h != [];
    TotalCharsCons(h, 0);
    assert h[0..] == h && h[1..][0..] == h[1..];
    if TotalChars(h[1..]) > maxChars {
      RecentStartIsTight(h[1..], maxChars);
      assert h[1..][s - 1..] == h[s..];
      assert h[1..][s - 2..] == h[s - 1..];
    } else {
      assert RecentStart(h[1..], maxChars) == 0;
    }
  }

  /** The split loop as written: walk back from the newest entry adding up characters, and
      stop at the first entry that takes the sum over budget; the split is just after it.
      It finds the reference split point. */
  method SplitIndex(h: seq<Entry>, maxChars: nat) returns (split: nat)
    requires TotalChars(h) > maxChars
    ensures split == RecentStart(h, maxChars)
    ensures 1 <= split <= |h|
    ensures TotalChars(h[split..]) <= maxChars && TotalChars(h[split - 1..]) > maxChars
  {
    var chars := 0;
    split := |h|;
    var i := |h|;
    assert h[|h|..] == [];
    while i > 0
      invariant 0 <= i <= |h|
      invariant chars == TotalChars(h[i..])
      invariant chars <= maxChars
      decreases i
    {
      i := i - 1;
      TotalCharsCons(h, i);
      chars := chars + |h[i].message|;
      if chars > maxChars {
        split := i + 1;
        RecentStartIsTight(h, maxChars);
        StartIsUnique(h, maxChars, split);
        return;
      }
    }
    assert false;
  }

  /** Only one index is a tight split, so the loop and the reference agree. */
  lemma StartIsUnique(h: seq<Entry>, maxChars: nat, s: nat)
    requires 1 <= s <= |h|
    requires TotalChars(h[s..]) <= maxChars && TotalChars(h[s - 1..]) > maxChars
    ensures s == RecentStart(h, maxChars)
  {
    var r := RecentStart(h, maxChars);
    SuffixCharsShrink(h, 0, s - 1);
    assert h[0..] == h;
    RecentStartIsTight(h, maxChars);
    if r < s {
      SuffixCharsShrink(h, r, s - 1);
    } else if s < r {
      SuffixCharsShrink(h, s, r - 1);
    }
  }

  /** The recent part is empty exactly when the newest entry alone is over budget. */
  lemma RecentEmptyIffNewestTooLong(h: seq<Entry>, maxChars: nat)
    requires TotalChars(h) > maxChars
    ensures RecentStart(h, maxChars) == |h| <==> |h[|h| - 1].message| > maxChars
  {
    var s := RecentStart(h, maxChars);
    RecentStartIsTight(h, maxChars);
    TotalCharsCons(h, |h| - 1);
    assert h[|h|..] == [];
    if s < |h| {
      SuffixCharsShrink(h, s, |h| - 1);
    }
  }

  /** What `_add_message_to_chat_history` leaves behind: the grown history, the text it
      returns, and the inputs it handed to the summariser. */
  datatype Added = Added(history: seq<Entry>, text: string, summaryRequests: seq<string>)

  /** `_add_message_to_chat_history`: append the entry; if the whole history fits in
      `maxChars` return it rendered; otherwise summarise the older part once and return the
      summary, the marker and the rendered recent part. The history itself is never cut. */
  function AddMessage(h: seq<Entry>, e: Entry, maxChars: nat, summarize: string -> string): (a: Added)
    ensures a.history == h + [e]
    ensures TotalChars(a.history) <= maxChars ==> a.text == Render(a.history) && a.summaryRequests == []
    ensures TotalChars(a.history) > maxChars ==>
              var s := RecentStart(a.history, maxChars);
              && a.history[..s] + a.history[s..] == a.history
              && a.summaryRequests == [Render(a.history[..s])]
              && a.text == summarize(Render(a.history[..s])) + RecentMarker + Render(a.history[s..])
  {
    var h' := h + [e];
    if TotalChars(h') > maxChars then
      var s := RecentStart(h', maxChars);
      var older := h'[..s];
      var recent := h'[s..];
      assert older + recent == h';
      Added(h', summarize(Render(older)) + RecentMarker + Render(recent), [Render(older)])
    else
      Added(h', Render(h'), [])
  }

  /** Over budget, the verbatim part is the largest suffix of the history that fits: it
      fits, the entry just before it would not, and it never includes the oldest entry. */
  lemma AddMessageKeepsLargestFittingSuffix(h: seq<Entry>, e: Entry, maxChars: nat, summarize: string -> string)
    requires TotalChars(h + [e]) > maxChars
    ensures var a := AddMessage(h, e, maxChars, summarize);
            var s := RecentStart(a.history, maxChars);
            && 1 <= s <= |a.history|
            && TotalChars(a.history[s..]) <= maxChars
            && TotalChars(a.history[s - 1..]) > maxChars
            && EndsWith(a.text, RecentMarker + Render(a.history[s..]))
  {
    var h' := h + [e];
    var s := RecentStart(h', maxChars);
    RecentStartIsTight(h', maxChars);
    var summary, recent := summarize(Render(h'[..s])), Render(h'[s..]);
    assert AddMessage(h, e, maxChars, summarize).text == summary + (RecentMarker + recent) by {
      AppendAssoc(summary, RecentMarker, recent);
    }
    EndsWithConcat(summary, RecentMarker + recent);
  }

  // ---------------------------------------------------------------------------
  // The shared start of `_respond_to_user`
  // ---------------------------------------------------------------------------

  /** Messages longer than this many characters are summarised before use. */
  const LongMessage := 5000

  /** The budget `_add_message_to_chat_history` uses by default. */
  const DefaultMaxChars: nat := 5000

  /** `self.user.first_name or "user"`. */
  function SenderName(firstName: string): (name: string)
    ensures name != ""
    ensures firstName != "" ==> name == firstName
  {
    if firstName != "" then firstName else "user"
  }

  /** The message a consumer answers: the pending text stripped, and replaced by its
      summary when it is still longer than `LongMessage`. */
  function CurrentMessage(userMessage: string, summarize: string -> string): (m: string)
    ensures |Strip(userMessage)| <= LongMessage ==> m == Strip(userMessage)
    ensures |Strip(userMessage)| > LongMessage ==> m == summarize(Strip(userMessage))
  {
    var cur := Strip(userMessage);
    if |cur| > LongMessage then summarize(cur) else cur
  }

  /** The per-connection state `_respond_to_user` reads and writes. */
  datatype Session = Session(userMessage: string, history: seq<Entry>)

  /** The collaborators of `_respond_to_user`, none of whose code is part of this model:
      the summariser for a long message, the summariser for old history, and the
      synchronisation pipeline from (instructions, message) to the reply's SSML. The
      French, English and general teachers' instructions are the history text inside fixed
      lesson text, so the pipeline is given the history text directly. */
  datatype Services = Services(
    summarizeMessage: string -> string,
    summarizeHistory: string -> string,
    pipeline: (string, string) -> string)

  /** The state after answering, with the message answered and the history text the
      pipeline was given. */
  datatype Round = Round(session: Session, message: string, historyText: string, ssml: string)

  /** Appending twice is appending the pair. */
  lemma SnocTwice<T>(xs: seq<T>, a: T, b: T)
    ensures xs + [a] + [b] == xs + [a, b]
  {
    assert xs + [a] + [b] == xs + ([a] + [b]);
  }

  /** The common body of `_respond_to_user`: the pending message is consumed (reset to
      ""), recorded under the user's name, the pipeline answers from the windowed history,
      and its SSML is recorded under "ai_bot". */
  function Respond(s: Session, firstName: string, svc: Services): (r: Round)
    ensures r.session.userMessage == ""
    ensures r.message == CurrentMessage(s.userMessage, svc.summarizeMessage)
    ensures r.session.history == s.history + [Entry(r.message, SenderName(firstName)), Entry(r.ssml, "ai_bot")]
    ensures r.ssml == svc.pipeline(r.historyText, r.message)
    ensures r.historyText
            == AddMessage(s.history, Entry(r.message, SenderName(firstName)), DefaultMaxChars, svc.summarizeHistory).text
  {
    var cur := CurrentMessage(s.userMessage, svc.summarizeMessage);
    var first := AddMessage(s.history, Entry(cur, SenderName(firstName)), DefaultMaxChars, svc.summarizeHistory);
    var ssml := svc.pipeline(first.text, cur);
    var second := AddMessage(first.history, Entry(ssml, "ai_bot"), DefaultMaxChars, svc.summarizeHistory);
    SnocTwice(s.history, Entry(cur, SenderName(firstName)), Entry(ssml, "ai_bot"));
    Round(Session("", second.history), cur, first.text, ssml)
  }

  /** The history text the pipeline sees is the window over the history that already holds
      the user's message as its newest entry. */
  lemma RespondWindowsTheUserMessage(s: Session, firstName: string, svc: Services)
    ensures var r := Respond(s, firstName, svc);
            var h := s.history + [Entry(r.message, SenderName(firstName))];
            && (TotalChars(h) <= DefaultMaxChars ==> r.historyText == Render(h))
            && (TotalChars(h) > DefaultMaxChars ==>
                  EndsWith(r.historyText, RecentMarker + Render(h[RecentStart(h, DefaultMaxChars)..])))
  {
    var r := Respond(s, firstName, svc);
    var e := Entry(r.message, SenderName(firstName));
    if TotalChars(s.history + [e]) > DefaultMaxChars {
      AddMessageKeepsLargestFittingSuffix(s.history, e, DefaultMaxChars, svc.summarizeHistory);
    }
  }

  // ---------------------------------------------------------------------------
  // Audio frames
  // ---------------------------------------------------------------------------

  /** What one audio frame does to the pending message: the handler fails with its
      reported error, or the pending message grows and, on the last chunk, a reply
      follows. */
  datatype AudioStep = AudioFailed(error: string) | AudioHeard(userMessage: string, respond: bool)

  /** How `_audio_handler` reports an exception. */
  const AudioHandlerError := "Error in audio handler: "

  /** The parameters `AudioManager.convert_audio_to_text` declares. */
  const SttParameters := ["audio_bytes", "chunk_duration_sec", "progress_callback", "input_format", "chunk_progress_callback"]

  /** The keywords each teacher's `_audio_handler` passes to it, in call order. */
  const SttKeywords := ["audio_bytes", "do_final_edition", "target_language"]

  const SttName := "AudioManager.convert_audio_to_text"

  /** `convert_audio_to_text` declares no `do_final_edition`, so the call is rejected on
      that keyword before `target_language` is looked at. */
  lemma SttCallIsRejected()
    ensures BindKeywords(SttName, SttParameters, SttKeywords) == Failure(UnexpectedKeyword(SttName, "do_final_edition"))
  {
    assert SttKeywords[0] in SttParameters && SttKeywords[1] !in SttParameters;
    assert SttKeywords[1..][1..][1..] == [];
  }

  /** `_audio_handler` with the transcription called on the audio alone: a frame that
      decodes and transcribes appends its transcript to the pending message, and a reply
      follows exactly on the last chunk; a failing step is reported and the pending
      message is left alone. */
  function HearAudio<B>(userMessage: string, isLastChunk: bool, voice: Result<B, string>, stt: B -> Result<string, string>): (s: AudioStep)
    ensures s.AudioHeard? <==> voice.Success? && stt(voice.value).Success?
    ensures voice.Failure? ==> s == AudioFailed(AudioHandlerError + voice.error)
    ensures voice.Success? && stt(voice.value).Failure? ==> s == AudioFailed(AudioHandlerError + stt(voice.value).error)
    ensures s.AudioHeard? ==>
              && |s.userMessage| >= |userMessage| && s.userMessage[..|userMessage|] == userMessage
              && s.userMessage[|userMessage|..] == stt(voice.value).value
              && s.respond == isLastChunk
  {
    if voice.Failure? then AudioFailed(AudioHandlerError + voice.error)
    else
      var text := stt(voice.value);
      if text.Failure? then AudioFailed(AudioHandlerError + text.error)
      else
        assert (userMessage + text.value)[..|userMessage|] == userMessage;
        AudioHeard(userMessage + text.value, isLastChunk)
  }

  /** `_audio_handler` as written: the transcription call passes keywords
      `convert_audio_to_text` does not declare, so every frame that decodes fails with the
      TypeError, the pending message never grows and no reply is ever reached from
      audio. */
  function HearAudioAsWritten<B>(userMessage: string, isLastChunk: bool, voice: Result<B, string>, stt: B -> Result<string, string>): (s: AudioStep)
    ensures voice.Failure? ==> s == AudioFailed(AudioHandlerError + voice.error)
    ensures voice.Success? ==> s == AudioFailed(AudioHandlerError + UnexpectedKeyword(SttName, "do_final_edition"))
  {
    if voice.Failure? then AudioFailed(AudioHandlerError + voice.error)
    else
      var bound := BindKeywords(SttName, SttParameters, SttKeywords);
      SttCallIsRejected();
      if bound.Failure? then AudioFailed(AudioHandlerError + bound.error)
      else HearAudio(userMessage, isLastChunk, voice, stt)
  }
}

=== FILE: class_room.dfy ===
/** `ClassRoomManager`: the manager's current class room, the membership rows of all rooms,
    and the teaching contents built for the current room. Users are known by email; the
    store of users is a set of emails. */
module ClassRoom {
  import opened Wrappers
  import opened Text

  datatype Room = Room(id: nat, title: string, description: string, voiceName: string, language: string)

  /** One membership row: a room id and a member's email. */
  datatype Membership = Membership(room: nat, email: string)

  /** The manager's current room, every room created so far, and the membership rows. */
  datatype Manager = Manager(current: Option<nat>, rooms: seq<Room>, members: seq<Membership>)

  /** No membership row appears twice. */
  ghost predicate NoDuplicates(ms: seq<Membership>) {
    forall y :: multiset(ms)[y] <= 1
  }

  /** Room ids are their positions, which makes them fresh when a room is appended. */
  predicate RoomsNumbered(rooms: seq<Room>) {
    forall i :: 0 <= i < |rooms| ==> rooms[i].id == i
  }

  /** The manager's invariant: numbered rooms, a current room that exists, and no
      duplicate membership rows. */
  ghost predicate Valid(m: Manager) {
    && RoomsNumbered(m.rooms)
    && (m.current.Some? ==> m.current.value < |m.rooms|)
    && NoDuplicates(m.members)
  }

  /** A fresh manager. */
  const Empty := Manager(None, [], [])

  lemma EmptyIsValid()
    ensures Valid(Empty)
  {
  }

  /** `build_a_room`: a new room is stored and becomes the current one; earlier rooms and
      all memberships are kept. */
  function BuildARoom(m: Manager, title: string, description: string, voiceName: string, language: string)
    : (r: (Manager, Room))
    ensures Valid(m) ==> Valid(r.0) && r.1 !in m.rooms
    ensures r.0.current == Some(r.1.id)
    ensures r.0.rooms == m.rooms + [r.1]
    ensures r.1.title == title && r.1.description == description
    ensures r.1.voiceName == voiceName && r.1.language == language
    ensures r.0.members == m.members
  {
    var room := Room(|m.rooms|, title, description, voiceName, language);
    (Manager(Some(room.id), m.rooms + [room], m.members), room)
  }

  const NoRoom := "No class room exists."
  const NoUser := "User does not exist."
  const AlreadyMember := "Member already in the room."
  const NotMember := "Member not found in the room."

  /** `add_member_to_room`: fails, checking in this order, when there is no current room,
      when the email is not a user's, and when the user is already a member; otherwise adds
      exactly one row. */
  function AddMember(m: Manager, users: set<string>, email: string): (r: Result<Manager, string>)
    ensures m.current.None? ==> r == Failure(NoRoom)
    ensures m.current.Some? && email !in users ==> r == Failure(NoUser)
    ensures m.current.Some? && email in users && Membership(m.current.value, email) in m.members
            ==> r == Failure(AlreadyMember)
    ensures r.Success? ==>
              && m.current.Some? && email in users
              && Membership(m.current.value, email) !in m.members
              && r.value == m.(members := m.members + [Membership(m.current.value, email)])
              && (Valid(m) ==> Valid(r.value))
  {
    if m.current.None? then Failure(NoRoom)
    else if email !in users then Failure(NoUser)
    else
      var row := Membership(m.current.value, email);
      if row in m.members then Failure(AlreadyMember)
      else Success(m.(members := m.members + [row]))
  }

  /** `ms` without its first row equal to `x`. */
  function RemoveFirst(ms: seq<Membership>, x: Membership): (r: seq<Membership>)
    ensures x in ms ==> |r| == |ms| - 1
    ensures x !in ms ==> r == ms
    ensures multiset(r) == multiset(ms) - multiset{x}
  {
    if ms == [] then []
    else if ms[0] == x then
      assert ms == [ms[0]] + ms[1..];
      ms[1..]
    else
      assert ms == [ms[0]] + ms[1..];
      [ms[0]] + RemoveFirst(ms[1..], x)
  }

  /** Removing one row of a duplicate-free list leaves exactly the other rows. */
  lemma RemoveFirstOfUnique(ms: seq<Membership>, x: Membership)
    ensures NoDuplicates(ms) ==> NoDuplicates(RemoveFirst(ms, x))
    ensures NoDuplicates(ms) ==> forall y :: y in RemoveFirst(ms, x) <==> y in ms && y != x
  {
    var r := RemoveFirst(ms, x);
    if NoDuplicates(ms) {
      forall y
        ensures y in r <==> y in ms && y != x
      {
        assert y in r <==> multiset(r)[y] > 0;
        assert y in ms <==> multiset(ms)[y] > 0;
      }
    }
  }

  /** `remove_member_from_room`: the room argument is ignored; fails, checking in this
      order, when there is no current room, when the email is not a user's, and when the
      user is not a member of the current room; otherwise deletes the user's row for the
      current room and nothing else. */
  function RemoveMember(m: Manager, users: set<string>, room: nat, email: string): (r: Result<Manager, string>)
    ensures m.current.None? ==> r == Failure(NoRoom)
    ensures m.current.Some? && email !in users ==> r == Failure(NoUser)
    ensures m.current.Some? && email in users && Membership(m.current.value, email) !in m.members
            ==> r == Failure(NotMember)
    ensures r.Success? ==>
              && m.current.Some? && email in users
              && r.value.current == m.current && r.value.rooms == m.rooms
              && multiset(r.value.members) == multiset(m.members) - multiset{Membership(m.current.value, email)}
              && (Valid(m) ==> Valid(r.value))
              && (Valid(m) ==>
                    forall y :: y in r.value.members <==> y in m.members && y != Membership(m.current.value, email))
  {
    if m.current.None? then Failure(NoRoom)
    else if email !in users then Failure(NoUser)
    else
      var row := Membership(m.current.value, email);
      if row !in m.members then Failure(NotMember)
      else
        RemoveFirstOfUnique(m.members, row);
        Success(m.(members := RemoveFirst(m.members, row)))
  }

  /** Adding a member and removing it again gives back the same membership rows, whatever
      room the removal names. */
  lemma AddThenRemove(m: Manager, users: set<string>, email: string, room: nat)
    requires AddMember(m, users, email).Success?
    ensures RemoveMember(AddMember(m, users, email).value, users, room, email) == Success(m)
  {
    var row := Membership(m.current.value, email);
    var ms := m.members + [row];
    RemoveFirstAfter(m.members, row);
  }

  lemma {:induction false} RemoveFirstAfter(ms: seq<Membership>, x: Membership)
    requires x !in ms
    ensures RemoveFirst(ms + [x], x) == ms
    decreases |ms|
  {
    if ms == [] {
      assert [x][1..] == [];
    } else {
      assert (ms + [x])[1..] == ms[1..] + [x];
      RemoveFirstAfter(ms[1..], x);
      assert ms == [ms[0]] + ms[1..];
    }
  }

  // ---------------------------------------------------------------------------
  // Teaching contents
  // ---------------------------------------------------------------------------

  /** One teaching task: its "title" and "prompt" entries, None when the key is absent. */
  datatype Task = Task(title: Option<string>, prompt: Option<string>)

  /** One stored content row; `ssml` is what the synchronisation pipeline produced. */
  datatype Content = Content(room: nat, title: string, order: nat, ssml: string)

  /** The title a task gets when it has none: "Content 1", "Content 2", ... */
  function DefaultTitle(order: nat): string {
    "Content " + NatToString(order)
  }

  /** `build_teaching_contents`: fails without a current room; otherwise one content per
      task, in task order, numbered from 1, titled by the task or by default, with the
      pipeline's SSML for the task's prompt (or "" when it has none). */
  method BuildTeachingContents(m: Manager, tasks: seq<Task>, pipeline: string -> string)
    returns (r: Result<seq<Content>, string>)
    ensures m.current.None? <==> r.Failure?
    ensures r.Failure? ==> r.error == NoRoom
    ensures r.Success? ==>
              && |r.value| == |tasks|
              && forall k :: 0 <= k < |tasks| ==>
                   r.value[k] == Content(m.current.value, tasks[k].title.GetOr(DefaultTitle(k + 1)), k + 1,
                                         pipeline(tasks[k].prompt.GetOr("")))
  {
    if m.current.None? {
      return Failure(NoRoom);
    }
    var created: seq<Content> := [];
    var idx := 0;
    while idx < |tasks|
      invariant 0 <= idx <= |tasks|
      invariant |created| == idx
      invariant forall k :: 0 <= k < idx ==>
                  created[k] == Content(m.current.value, tasks[k].title.GetOr(DefaultTitle(k + 1)), k + 1,
                                        pipeline(tasks[k].prompt.GetOr("")))
    {
      var task := tasks[idx];
      var content := Content(m.current.value, task.title.GetOr(DefaultTitle(idx + 1)), idx + 1,
                             pipeline(task.prompt.GetOr("")));
      created := created + [content];
      idx := idx + 1;
    }
    r := Success(created);
  }
}

=== FILE: context.dfy ===
/** The neighbour-context loop shared by `AudioManager.advanced_stt` and
    `ChatBotConsumer._audio_handler`: for every chunk text, four system messages
    (previous, current and next chunk, and the summary) are appended to the generator's
    message list, the generator is asked for one response, and the response plus a space
    is appended to the output text. */
module ChunkContext {
  import opened Text

  /** `previous_chunk`: the text before position `i`, or "" at the first chunk. */
  function Previous(texts: seq<string>, i: nat): string
    requires i < |texts|
  {
    if i > 0 then texts[i - 1] else ""
  }

  /** `next_chunk`: the text after position `i`, or "" at the last chunk. */
  function Following(texts: seq<string>, i: nat): string
    requires i < |texts|
  {
    if i < |texts| - 1 then texts[i + 1] else ""
  }

  /** The four system messages added before the generation call for chunk `i`. */
  function ContextLines(texts: seq<string>, i: nat, summary: string): (lines: seq<string>)
    requires i < |texts|
    ensures |lines| == 4
  {
    [ "previous_chunk: " + Previous(texts, i),
      "cur_chunk: " + texts[i],
      "next_chunk: " + Following(texts, i),
      "summary: " + summary ]
  }

  /** The generator's message list once the context of chunks `0 .. k-1` has been added
      after the messages `start` already there. */
  function History(start: seq<string>, texts: seq<string>, summary: string, k: nat): (h: seq<string>)
    requires k <= |texts|
    ensures |h| == |start| + 4 * k
  {
    if k == 0 then start
    else History(start, texts, summary, k - 1) + ContextLines(texts, k - 1, summary)
  }

  /** The responses to chunks `0 .. k-1`: the generator's answer for chunk `i` is asked
      once the context of chunks `0 .. i` is in its message list. */
  function ResponsesUpTo(generate: seq<string> -> string, start: seq<string>, texts: seq<string>, summary: string, k: nat): (rs: seq<string>)
    requires k <= |texts|
    ensures |rs| == k
  {
    if k == 0 then []
    else ResponsesUpTo(generate, start, texts, summary, k - 1) + [generate(History(start, texts, summary, k))]
  }

  /** The responses of the whole loop, one per chunk. */
  function ContextResponses(generate: seq<string> -> string, start: seq<string>, texts: seq<string>, summary: string): (rs: seq<string>)
    ensures |rs| == |texts|
  {
    ResponsesUpTo(generate, start, texts, summary, |texts|)
  }

  /** Response `i` is the generator's answer to the message list that ends with the context
      of chunk `i`. */
  lemma {:induction false} ResponseAt(generate: seq<string> -> string, start: seq<string>, texts: seq<string>, summary: string, k: nat, i: nat)
    requires i < k <= |texts|
    ensures ResponsesUpTo(generate, start, texts, summary, k)[i] == generate(History(start, texts, summary, i + 1))
  {
    if i < k - 1 {
      ResponseAt(generate, start, texts, summary, k - 1, i);
    }
  }

  /** Each response followed by one space, in order (`acc += r + " "`). */
  function SpaceTerminated(rs: seq<string>): string {
    if rs == [] then "" else SpaceTerminated(rs[..|rs| - 1]) + rs[|rs| - 1] + " "
  }

  /** The state of the loop after its last iteration. */
  datatype LoopOutcome = LoopOutcome(responses: seq<string>, history: seq<string>, text: string)

  /** The loop as written: index `i` walks the chunk texts in order; four system messages are
      appended, then the generator sees the whole message list and its response is appended
      to the output text with a trailing space. Exactly one response per chunk. */
  method ContextLoop(generate: seq<string> -> string, start: seq<string>, texts: seq<string>, summary: string)
    returns (out: LoopOutcome)
    ensures out.responses == ContextResponses(generate, start, texts, summary)
    ensures out.history == History(start, texts, summary, |texts|)
    ensures out.text == SpaceTerminated(out.responses)
  {
    var responses: seq<string> := [];
    var history := start;
    var text := "";
    var i := 0;
    while i < |texts|
      invariant 0 <= i <= |texts|
      invariant responses == ResponsesUpTo(generate, start, texts, summary, i)
      invariant history == History(start, texts, summary, i)
      invariant text == SpaceTerminated(responses)
    {
      var prev := if i > 0 then texts[i - 1] else "";
      var next := if i < |texts| - 1 then texts[i + 1] else "";
      history := history + ["previous_chunk: " + prev, "cur_chunk: " + texts[i], "next_chunk: " + next, "summary: " + summary];
      assert history == History(start, texts, summary, i + 1);
      var r := generate(history);
      SnocPrefix(responses, r);
      responses := responses + [r];
      text := text + r + " ";
      i := i + 1;
    }
    out := LoopOutcome(responses, history, text);
  }

  lemma SnocPrefix(rs: seq<string>, r: string)
    ensures (rs + [r])[..|rs|] == rs
    ensures SpaceTerminated(rs + [r]) == SpaceTerminated(rs) + r + " "
  {
    assert (rs + [r])[..|rs|] == rs;
  }

  /** The message list only grows: what was there before the loop is untouched, and the
      context of chunk `j` sits at positions `|start| + 4j .. |start| + 4j + 3`. */
  lemma {:induction false} HistoryLayout(start: seq<string>, texts: seq<string>, summary: string, k: nat, j: nat)
    requires j < k <= |texts|
    ensures var h := History(start, texts, summary, k);
            h[..|start|] == start && h[|start| + 4 * j .. |start| + 4 * j + 4] == ContextLines(texts, j, summary)
  {
    var h := History(start, texts, summary, k);
    var h' := History(start, texts, summary, k - 1);
    assert h == h' + ContextLines(texts, k - 1, summary);
    if j < k - 1 {
      HistoryLayout(start, texts, summary, k - 1, j);
      assert h[|start| + 4 * j .. |start| + 4 * j + 4] == h'[|start| + 4 * j .. |start| + 4 * j + 4];
      assert h[..|start|] == h'[..|start|];
    } else {
      assert h[|start| + 4 * j .. |start| + 4 * j + 4] == ContextLines(texts, j, summary);
      if k - 1 == 0 {
        assert h[..|start|] == start;
      } else {
        HistoryLayout(start, texts, summary, k - 1, 0);
        assert h[..|start|] == h'[..|start|];
      }
    }
  }

  /** When no chunk text is empty, `previous_chunk` is empty exactly at the first chunk and
      `next_chunk` exactly at the last one. (An empty chunk text would also show as "".) */
  lemma NeighboursAreEmptyOnlyAtTheEnds(texts: seq<string>, i: nat)
    requires i < |texts|
    requires forall j :: 0 <= j < |texts| ==> texts[j] != ""
    ensures Previous(texts, i) == "" <==> i == 0
    ensures Following(texts, i) == "" <==> i == |texts| - 1
    ensures i > 0 ==> Previous(texts, i) == texts[i - 1]
    ensures i < |texts| - 1 ==> Following(texts, i) == texts[i + 1]
  {
  }

  /** The accumulated text is the space-join of the responses followed by one more space. */
  lemma {:induction false} SpaceTerminatedIsJoin(rs: seq<string>)
    requires rs != []
    ensures SpaceTerminated(rs) == Join(" ", rs) + " "
    decreases |rs|
  {
    if |rs| == 1 {
      assert SpaceTerminated(rs[..0]) == "";
    } else {
      var init := rs[..|rs| - 1];
      SpaceTerminatedIsJoin(init);
      JoinSnoc(" ", init, rs[|rs| - 1]);
      assert init + [rs[|rs| - 1]] == rs;
    }
  }
}

=== FILE: dashboard.dfy ===
/** The dashboard's handler for messages from the teacher socket (`handleWsData`): a latch
    that asks for the class to start once, the slide batches received so far, the loader
    flag and the current speech. */
module Dashboard {

  /** The fields of one message that the handler reads. `connection`, `removeLoader` and a
      non-empty `speech` are JavaScript-truthy values; `slides` is absent or an array. */
  datatype WsData<!A> = WsData(connection: bool, slides: SlideField<A>, removeLoader: bool, speech: string)

  /** `slide_alignment`: absent (or otherwise falsy), or an array. */
  datatype SlideField<!A> = NoSlides | Slides(batch: seq<A>)

  /** The tasks the handler sends on the socket. */
  datatype Task = StartTheClass

  /** The client state the handler reads and writes: the latch, the slide batches (`null`
      before the first batch), the loader flag, the speech, and the tasks sent so far. */
  datatype Client<!A> = Client(started: bool, slides: SlideList<A>, showLoader: bool, speech: string, sent: seq<Task>)

  datatype SlideList<!A> = Unset | Batches(batches: seq<seq<A>>)

  /** The slide batches as a list, with `null` read as empty. */
  function BatchesOf<A>(l: SlideList<A>): seq<seq<A>> {
    if l.Batches? then l.batches else []
  }

  /** `handleWsData` on one message. */
  function Handle<A>(c: Client<A>, msg: WsData<A>): (c': Client<A>)
    ensures c'.sent == (if msg.connection && !c.started then c.sent + [StartTheClass] else c.sent)
    ensures c'.started == (c.started || msg.connection)
    ensures msg.slides.Slides? && msg.slides.batch != [] ==> BatchesOf(c'.slides) == BatchesOf(c.slides) + [msg.slides.batch]
    ensures !(msg.slides.Slides? && msg.slides.batch != []) ==> c'.slides == c.slides
    ensures c'.showLoader == (c.showLoader && !msg.removeLoader)
    ensures c'.speech == (if msg.speech != "" then msg.speech else c.speech)
  {
    var c1 := if msg.connection && !c.started then c.(sent := c.sent + [StartTheClass], started := true) else c;
    var c2 := if msg.slides.Slides? && |msg.slides.batch| > 0
              then c1.(slides := Batches(if c1.slides.Batches? then c1.slides.batches + [msg.slides.batch] else [msg.slides.batch]))
              else c1;
    var c3 := if msg.removeLoader then c2.(showLoader := false) else c2;
    if msg.speech != "" then c3.(speech := msg.speech) else c3
  }

  /** The handler applied to a stream of messages in arrival order: the loader is still
      shown exactly when it was and no message asked to remove it, and the latch is closed
      exactly when it was or some message carried a connection. */
  function HandleAll<A>(c: Client<A>, msgs: seq<WsData<A>>): (c': Client<A>)
    ensures c'.showLoader <==> c.showLoader && forall i :: 0 <= i < |msgs| ==> !msgs[i].removeLoader
    ensures c'.started <==> c.started || exists i :: 0 <= i < |msgs| && msgs[i].connection
    decreases |msgs|
  {
    if msgs == [] then c
    else
      var r := HandleAll(Handle(c, msgs[0]), msgs[1..]);
      assert forall i :: 1 <= i < |msgs| ==> msgs[i] == msgs[1..][i - 1];
      assert (exists i :: 0 <= i < |msgs[1..]| && msgs[1..][i].connection) ==>
               exists i :: 0 <= i < |msgs| && msgs[i].connection;
      r
  }

  /** The latch: starting from a fresh client, the start request is sent at most once over
      any stream of messages, and it has been sent exactly when some message carried a
      connection. */
  lemma {:induction false} StartIsSentAtMostOnce<A>(c: Client<A>, msgs: seq<WsData<A>>)
    requires c.started <==> |c.sent| == 1
    requires |c.sent| <= 1
    ensures |HandleAll(c, msgs).sent| <= 1
    ensures HandleAll(c, msgs).started <==> |HandleAll(c, msgs).sent| == 1
    ensures HandleAll(c, msgs).started <==> c.started || exists i :: 0 <= i < |msgs| && msgs[i].connection
    decreases |msgs|
  {
    if msgs != [] {
      var c1 := Handle(c, msgs[0]);
      StartIsSentAtMostOnce(c1, msgs[1..]);
      assert forall i :: 1 <= i < |msgs| ==> msgs[i] == msgs[1..][i - 1];
      if exists i :: 0 <= i < |msgs[1..]| && msgs[1..][i].connection {
        var i :| 0 <= i < |msgs[1..]| && msgs[1..][i].connection;
        assert msgs[i + 1].connection;
      }
    }
  }

  /** Slide batches only accumulate: what was shown stays, in order, at the front. */
  lemma {:induction false} SlidesOnlyGrow<A>(c: Client<A>, msgs: seq<WsData<A>>)
    ensures var b := BatchesOf(HandleAll(c, msgs).slides);
            |BatchesOf(c.slides)| <= |b| && b[..|BatchesOf(c.slides)|] == BatchesOf(c.slides)
    decreases |msgs|
  {
    if msgs != [] {
      var c1 := Handle(c, msgs[0]);
      SlidesOnlyGrow(c1, msgs[1..]);
      var b0 := BatchesOf(c.slides);
      var b1 := BatchesOf(c1.slides);
      var b := BatchesOf(HandleAll(c, msgs).slides);
      assert b1[..|b0|] == b0;
      assert b[..|b0|] == b[..|b1|][..|b0|];
    }
  }
}

=== FILE: english_teacher.dfy ===
/** The English teacher consumer (`TeacherConsumer` in `english_teacher.py`): its copy of the chat window and the start of a
    reply. The lesson plan and instructions text are opaque to this model. */
module EnglishTeacher {
  import opened Text
  import opened ChatWindow

  /** `_add_message_to_chat_history(message, sender)` with its default budget of 5000
      characters: one entry more, never truncated; within budget the plain rendering and no
      summary; over budget the summary of the older entries followed by the largest suffix
      that fits. */
  function AddMessageToChatHistory(h: seq<Entry>, message: string, sender: string, summarize: string -> string): (a: Added)
    ensures a.history == h + [Entry(message, sender)]
    ensures TotalChars(a.history) <= DefaultMaxChars ==> a.text == Render(a.history) && a.summaryRequests == []
    ensures TotalChars(a.history) > DefaultMaxChars ==>
              var s := RecentStart(a.history, DefaultMaxChars);
              && 1 <= s <= |a.history|
              && a.history[..s] + a.history[s..] == a.history
              && TotalChars(a.history[s..]) <= DefaultMaxChars
              && TotalChars(a.history[s - 1..]) > DefaultMaxChars
              && a.summaryRequests == [Render(a.history[..s])]
              && a.text == summarize(Render(a.history[..s])) + RecentMarker + Render(a.history[s..])
              && EndsWith(a.text, RecentMarker + Render(a.history[s..]))
  {
    var e := Entry(message, sender);
    if TotalChars(h + [e]) > DefaultMaxChars then
      AddMessageKeepsLargestFittingSuffix(h, e, DefaultMaxChars, summarize);
      AddMessage(h, e, DefaultMaxChars, summarize)
    else
      AddMessage(h, e, DefaultMaxChars, summarize)
  }

  /** `_respond_to_user`: the pending message is consumed, stripped, summarised when over
      5000 characters, recorded under the user's first name (or "user"), and the pipeline's
      SSML is recorded under "ai_bot". */
  function RespondToUser(s: Session, firstName: string, svc: Services): (r: Round)
    ensures r.session.userMessage == ""
    ensures |Strip(s.userMessage)| <= LongMessage ==> r.message == Strip(s.userMessage)
    ensures |Strip(s.userMessage)| > LongMessage ==> r.message == svc.summarizeMessage(Strip(s.userMessage))
    ensures r.session.history == s.history + [Entry(r.message, SenderName(firstName)), Entry(r.ssml, "ai_bot")]
    ensures r.ssml == svc.pipeline(r.historyText, r.message)
    ensures r.historyText
            == AddMessage(s.history, Entry(r.message, SenderName(firstName)), DefaultMaxChars, svc.summarizeHistory).text
  {
    Respond(s, firstName, svc)
  }
}

=== FILE: feed_registry.dfy ===
/** The subscriber side of the video room client (`VoiceStreaming`): which publishers it
    subscribes to, the media ids it records for them, and the list of remote feeds it
    renders, with one merged stream per feed. Feed ids are kept in their string form, as
    the client's object keys and `String(feedId)` use them. Attaching a subscriber handle
    is modelled as completing at once. */
module FeedRegistry {
  import opened Wrappers
  import opened Text

  // ---------------------------------------------------------------------------
  // extractMids
  // ---------------------------------------------------------------------------

  /** A publisher stream's `mid`: absent (`undefined`/`null`), a number, or a string. */
  datatype Mid = MidAbsent | MidNum(n: int) | MidStr(s: string)

  /** One entry of a publisher's `streams`. */
  datatype PubStream = PubStream(kind: string, mid: Mid)

  /** `s.type === "video" || s.type === "audio"`. */
  predicate IsMedia(s: PubStream) {
    s.kind == "video" || s.kind == "audio"
  }

  /** `s.mid?.toString()` kept by `.filter(Boolean)`: absent and empty mids are dropped, a
      number becomes its decimal form (so 0 survives as "0"). */
  function MidText(m: Mid): (t: Option<string>)
    ensures t.Some? ==> t.value != ""
    ensures m.MidNum? ==> t == Some(IntToString(m.n))
    ensures m.MidStr? ==> (t.Some? <==> m.s != "")
    ensures m.MidAbsent? ==> t.None?
  {
    match m
    case MidAbsent => None
    case MidNum(n) => Some(IntToString(n))
    case MidStr(s) => if s == "" then None else Some(s)
  }

  /** The mids of the media streams, in stream order. */
  function MediaMids(streams: seq<PubStream>): (mids: seq<string>)
    ensures forall i :: 0 <= i < |mids| ==> mids[i] != ""
    ensures |mids| <= |streams|
  {
    if streams == [] then []
    else
      var rest := MediaMids(streams[1..]);
      if IsMedia(streams[0]) && MidText(streams[0].mid).Some? then [MidText(streams[0].mid).value] + rest else rest
  }

  /** A mid is listed exactly when some media stream has it. */
  lemma {:induction false} MediaMidsMembers(streams: seq<PubStream>, x: string)
    ensures x in MediaMids(streams) <==>
              exists i :: 0 <= i < |streams| && IsMedia(streams[i]) && MidText(streams[i].mid) == Some(x)
    decreases |streams|
  {
    if streams != [] {
      MediaMidsMembers(streams[1..], x);
      if exists i :: 0 <= i < |streams[1..]| && IsMedia(streams[1..][i]) && MidText(streams[1..][i].mid) == Some(x) {
        var i :| 0 <= i < |streams[1..]| && IsMedia(streams[1..][i]) && MidText(streams[1..][i].mid) == Some(x);
        assert streams[i + 1] == streams[1..][i];
      }
      if exists i :: 0 <= i < |streams| && IsMedia(streams[i]) && MidText(streams[i].mid) == Some(x) {
        var i :| 0 <= i < |streams| && IsMedia(streams[i]) && MidText(streams[i].mid) == Some(x);
        if i > 0 {
          assert streams[1..][i - 1] == streams[i];
        }
      }
    }
  }

  /** Order is kept: the mids of two stream lists in a row are the mids of each in a row. */
  lemma {:induction false} MediaMidsAppend(xs: seq<PubStream>, ys: seq<PubStream>)
    ensures MediaMids(xs + ys) == MediaMids(xs) + MediaMids(ys)
    decreases |xs|
  {
    if xs == [] {
      assert xs + ys == ys;
    } else {
      assert (xs + ys)[1..] == xs[1..] + ys;
      MediaMidsAppend(xs[1..], ys);
    }
  }

  /** The mids a client falls back to. */
  const DefaultMids := ["0", "1"]

  /** `extractMids`: the media mids in order, or ["0", "1"] when there are none. */
  function ExtractMids(streams: seq<PubStream>): (mids: seq<string>)
    ensures mids != []
    ensures MediaMids(streams) == [] ==> mids == DefaultMids
    ensures MediaMids(streams) != [] ==> mids == MediaMids(streams)
  {
    var mids := MediaMids(streams);
    if |mids| > 0 then mids else DefaultMids
  }

  /** A numeric mid 0 on a video stream is kept as "0", not dropped as falsy. */
  lemma NumericZeroSurvives(streams: seq<PubStream>, i: nat)
    requires i < |streams| && streams[i] == PubStream("video", MidNum(0))
    ensures "0" in ExtractMids(streams)
  {
    assert MidText(MidNum(0)) == Some("0");
    MediaMidsMembers(streams, "0");
  }

  // ---------------------------------------------------------------------------
  // The client's registry
  // ---------------------------------------------------------------------------

  /** A remote media track. */
  datatype Track = Track(id: string, kind: string)

  /** The client's references: whether the gateway session exists, its own publisher id once
      joined, the subscriber handles, the merged stream of each feed, the recorded mids,
      and the rendered feed list (by id, in order). */
  datatype Client = Client(
    ready: bool,
    self: Option<string>,
    handles: set<string>,
    streams: map<string, seq<Track>>,
    mids: map<string, seq<string>>,
    feeds: seq<string>)

  /** No id appears twice in a list. */
  ghost predicate Unique<T>(xs: seq<T>) {
    forall i, j :: 0 <= i < j < |xs| ==> xs[i] != xs[j]
  }

  /** The ids of a stream's tracks. */
  function TrackIds(ts: seq<Track>): (ids: seq<string>)
    ensures |ids| == |ts|
    ensures forall i :: 0 <= i < |ts| ==> ids[i] == ts[i].id
  {
    if ts == [] then [] else [ts[0].id] + TrackIds(ts[1..])
  }

  /** The registry's invariant: feed ids are unique, exactly the feeds with a stream are
      listed, and no stream holds the same track twice. */
  ghost predicate Valid(c: Client) {
    && Unique(c.feeds)
    && (forall f :: f in c.feeds <==> f in c.streams)
    && (forall f :: f in c.streams ==> Unique(TrackIds(c.streams[f])))
  }

  /** `subscribeToFeed`: nothing happens before the session exists, for the client's own
      id, or when a handle for the feed already exists; otherwise a handle is attached.
      It reports whether it attached one. */
  function Subscribe(c: Client, feed: string, skipSelf: bool): (r: (Client, bool))
    ensures r.1 <==> c.ready && !(skipSelf && c.self == Some(feed)) && feed !in c.handles
    ensures r.0 == (if r.1 then c.(handles := c.handles + {feed}) else c)
  {
    if !c.ready then (c, false)
    else if skipSelf && c.self == Some(feed) then (c, false)
    else if feed in c.handles then (c, false)
    else (c.(handles := c.handles + {feed}), true)
  }

  /** Subscribing twice to a feed attaches one handle. */
  lemma SubscribeTwiceAttachesOnce(c: Client, feed: string, skipSelf: bool)
    ensures !Subscribe(Subscribe(c, feed, skipSelf).0, feed, skipSelf).1
  {
  }

  /** A publisher as announced by the room: its id and streams (absent streams read as []). */
  datatype Publisher = Publisher(id: string, streams: seq<PubStream>)

  /** One publisher of the loop: unless it is the client itself (when `skipSelf`), its
      mids are recorded and it is subscribed to. */
  function OnPublisher(c: Client, p: Publisher, skipSelf: bool): (c': Client)
    ensures c'.ready == c.ready && c'.self == c.self && c'.streams == c.streams && c'.feeds == c.feeds
    ensures c.handles <= c'.handles <= c.handles + {p.id}
    ensures c.mids.Keys <= c'.mids.Keys
    ensures skipSelf && c.self == Some(p.id) ==> c' == c
    ensures !(skipSelf && c.self == Some(p.id)) ==> p.id in c'.mids && c'.mids[p.id] == ExtractMids(p.streams)
    ensures c.ready && !(skipSelf && c.self == Some(p.id)) ==> p.id in c'.handles
  {
    if skipSelf && c.self == Some(p.id) then c
    else Subscribe(c.(mids := c.mids[p.id := ExtractMids(p.streams)]), p.id, skipSelf).0
  }

  /** The publisher loop of `onmessage` for "joined" and "event", over the publishers in
      order. Only announced publishers get handles, never the client itself when
      `skipSelf`; once the session exists every other announced publisher gets one. */
  function OnPublishers(c: Client, pubs: seq<Publisher>, skipSelf: bool): (c': Client)
    ensures c'.ready == c.ready && c'.self == c.self && c'.streams == c.streams && c'.feeds == c.feeds
    ensures c.handles <= c'.handles
    ensures forall f :: f in c'.handles - c.handles ==> exists i :: 0 <= i < |pubs| && pubs[i].id == f
    ensures skipSelf && c.self.Some? && c.self.value !in c.handles ==> c.self.value !in c'.handles
    ensures c.mids.Keys <= c'.mids.Keys
    ensures forall i :: 0 <= i < |pubs| && !(skipSelf && c.self == Some(pubs[i].id)) ==> pubs[i].id in c'.mids
    ensures c.ready ==> forall i :: 0 <= i < |pubs| && !(skipSelf && c.self == Some(pubs[i].id)) ==> pubs[i].id in c'.handles
    decreases |pubs|
  {
    if pubs == [] then c
    else
      var c1 := OnPublisher(c, pubs[0], skipSelf);
      var c' := OnPublishers(c1, pubs[1..], skipSelf);
      PublishersTail(c, c1, c', pubs, skipSelf);
      c'
  }

  /** The step from the first publisher to the rest of the loop. */
  lemma PublishersTail(c: Client, c1: Client, c': Client, pubs: seq<Publisher>, skipSelf: bool)
    requires pubs != []
    requires c1 == OnPublisher(c, pubs[0], skipSelf)
    requires c1.handles <= c'.handles && c1.mids.Keys <= c'.mids.Keys && c'.self == c1.self && c'.ready == c1.ready
    requires forall f :: f in c'.handles - c1.handles ==> exists i :: 0 <= i < |pubs[1..]| && pubs[1..][i].id == f
    requires forall i :: 0 <= i < |pubs[1..]| && !(skipSelf && c1.self == Some(pubs[1..][i].id)) ==> pubs[1..][i].id in c'.mids
    requires c1.ready ==> forall i :: 0 <= i < |pubs[1..]| && !(skipSelf && c1.self == Some(pubs[1..][i].id)) ==> pubs[1..][i].id in c'.handles
    ensures forall f :: f in c'.handles - c.handles ==> exists i :: 0 <= i < |pubs| && pubs[i].id == f
    ensures forall i :: 0 <= i < |pubs| && !(skipSelf && c.self == Some(pubs[i].id)) ==> pubs[i].id in c'.mids
    ensures c.ready ==> forall i :: 0 <= i < |pubs| && !(skipSelf && c.self == Some(pubs[i].id)) ==> pubs[i].id in c'.handles
  {
    assert forall i :: 1 <= i < |pubs| ==> pubs[i] == pubs[1..][i - 1];
    forall f | f in c'.handles - c.handles
      ensures exists i :: 0 <= i < |pubs| && pubs[i].id == f
    {
      if f in c1.handles {
        assert pubs[0].id == f;
      } else {
        assert f in c'.handles - c1.handles;
        var i :| 0 <= i < |pubs[1..]| && pubs[1..][i].id == f;
        assert pubs[i + 1].id == f;
      }
    }
  }

  /** Whether a track id is already in a stream. */
  predicate HasTrack(ts: seq<Track>, id: string) {
    exists i :: 0 <= i < |ts| && ts[i].id == id
  }

  /** `onremotetrack` with `on`: the feed's stream is created on its first track, and then
      the feed is listed unless an entry with its id exists; the track is added unless a
      track with its id is there. */
  function TrackOn(c: Client, feed: string, t: Track): (c': Client)
    ensures Valid(c) ==> Valid(c')
    ensures feed in c'.streams
    ensures feed in c.streams || feed in c.feeds ==> c'.feeds == c.feeds
    ensures feed !in c.streams && feed !in c.feeds ==> c'.feeds == c.feeds + [feed]
    ensures feed in c.streams && HasTrack(c.streams[feed], t.id) ==> c'.streams == c.streams
    ensures !(feed in c.streams && HasTrack(c.streams[feed], t.id)) ==>
              c'.streams == c.streams[feed := (if feed in c.streams then c.streams[feed] else []) + [t]]
    ensures c'.handles == c.handles && c'.mids == c.mids
  {
    var c1 := OpenStream(c, feed);
    var ts := c1.streams[feed];
    if HasTrack(ts, t.id) then c1
    else
      AppendKeepsValid(c1, feed, t);
      c1.(streams := c1.streams[feed := ts + [t]])
  }

  /** The first half of `onremotetrack` with `on`: a feed without a stream gets an empty
      one and is listed unless an entry with its id exists. */
  function OpenStream(c: Client, feed: string): (c1: Client)
    ensures Valid(c) ==> Valid(c1)
    ensures feed in c1.streams
    ensures feed in c.streams ==> c1 == c
    ensures feed !in c.streams ==> c1.streams == c.streams[feed := []]
    ensures feed !in c.streams && feed !in c.feeds ==> c1.feeds == c.feeds + [feed]
    ensures feed in c.feeds ==> c1.feeds == c.feeds
    ensures c1.handles == c.handles && c1.mids == c.mids && c1.ready == c.ready && c1.self == c.self
  {
    if feed in c.streams then c
    else c.(streams := c.streams[feed := []], feeds := if feed in c.feeds then c.feeds else c.feeds + [feed])
  }

  /** Appending a track new to a feed's stream keeps the registry invariant. */
  lemma AppendKeepsValid(c: Client, feed: string, t: Track)
    requires feed in c.streams && !HasTrack(c.streams[feed], t.id)
    ensures Valid(c) ==> Valid(c.(streams := c.streams[feed := c.streams[feed] + [t]]))
  {
    AppendKeepsUnique(c.streams[feed], t);
  }

  /** Appending a track whose id is new keeps a stream's ids unique. */
  lemma AppendKeepsUnique(ts: seq<Track>, t: Track)
    ensures Unique(TrackIds(ts)) && !HasTrack(ts, t.id) ==> Unique(TrackIds(ts + [t]))
  {
    var ts' := ts + [t];
    if Unique(TrackIds(ts)) && !HasTrack(ts, t.id) {
      forall i, j | 0 <= i < j < |ts'|
        ensures TrackIds(ts')[i] != TrackIds(ts')[j]
      {
        if j == |ts| {
          assert !(ts[i].id == t.id);
        } else {
          assert TrackIds(ts)[i] != TrackIds(ts)[j];
        }
      }
    }
  }

  /** The tracks of a stream without the ones whose id is `id` (`removeTrack`). */
  function WithoutTrack(ts: seq<Track>, id: string): (r: seq<Track>)
    ensures forall i :: 0 <= i < |r| ==> r[i].id != id && r[i] in ts
    ensures forall i :: 0 <= i < |ts| && ts[i].id != id ==> ts[i] in r
    ensures |r| <= |ts|
  {
    if ts == [] then []
    else
      assert forall i :: 1 <= i < |ts| ==> ts[i] == ts[1..][i - 1];
      if ts[0].id == id then WithoutTrack(ts[1..], id) else [ts[0]] + WithoutTrack(ts[1..], id)
  }

  /** Removing tracks keeps a stream's ids unique. */
  lemma WithoutTrackKeepsUnique(ts: seq<Track>, id: string)
    ensures Unique(TrackIds(ts)) ==> Unique(TrackIds(WithoutTrack(ts, id)))
  {
    if Unique(TrackIds(ts)) {
      WithoutTrackOfUnique(ts, id);
    }
  }

  lemma {:induction false} WithoutTrackOfUnique(ts: seq<Track>, id: string)
    requires Unique(TrackIds(ts))
    ensures Unique(TrackIds(WithoutTrack(ts, id)))
    decreases |ts|
  {
    if ts != [] {
      assert TrackIds(ts[1..]) == TrackIds(ts)[1..];
      WithoutTrackOfUnique(ts[1..], id);
      if ts[0].id != id {
        var rest := WithoutTrack(ts[1..], id);
        var r := [ts[0]] + rest;
        forall i, j | 0 <= i < j < |r|
          ensures TrackIds(r)[i] != TrackIds(r)[j]
        {
          if i == 0 {
            assert r[j] in ts[1..];
            var k :| 0 <= k < |ts[1..]| && ts[1..][k] == r[j];
            assert TrackIds(ts)[k + 1] == r[j].id;
          } else {
            assert TrackIds(r)[i] == TrackIds(rest)[i - 1] && TrackIds(r)[j] == TrackIds(rest)[j - 1];
          }
        }
      }
    }
  }

  /** The feed list without the entries with id `feed`, in order. */
  function Unlist(feeds: seq<string>, feed: string): (r: seq<string>)
    ensures forall f :: f in r <==> f in feeds && f != feed
    ensures |r| <= |feeds|
    ensures feed !in feeds ==> r == feeds
  {
    if feeds == [] then []
    else if feeds[0] == feed then Unlist(feeds[1..], feed)
    else [feeds[0]] + Unlist(feeds[1..], feed)
  }

  /** The remaining entries keep their order: removal distributes over concatenation. */
  lemma {:induction false} UnlistAppend(xs: seq<string>, ys: seq<string>, feed: string)
    ensures Unlist(xs + ys, feed) == Unlist(xs, feed) + Unlist(ys, feed)
    decreases |xs|
  {
    if xs == [] {
      assert xs + ys == ys;
    } else {
      assert (xs + ys)[1..] == xs[1..] + ys;
      UnlistAppend(xs[1..], ys, feed);
      if xs[0] != feed {
        AppendAssoc([xs[0]], Unlist(xs[1..], feed), Unlist(ys, feed));
      }
    }
  }

  lemma {:induction false} UnlistKeepsUnique(feeds: seq<string>, feed: string)
    ensures Unique(feeds) ==> Unique(Unlist(feeds, feed))
    decreases |feeds|
  {
    if feeds != [] && Unique(feeds) {
      UnlistKeepsUnique(feeds[1..], feed);
      var rest := Unlist(feeds[1..], feed);
      if feeds[0] != feed {
        var r := [feeds[0]] + rest;
        forall i, j | 0 <= i < j < |r|
          ensures r[i] != r[j]
        {
          if i == 0 {
            assert r[j] in rest && r[j] in feeds[1..];
          } else {
            assert r[i] == rest[i - 1] && r[j] == rest[j - 1];
          }
        }
      }
    }
  }

  /** `cleanupFeed`: the feed's entries, stream, handle and mids are removed; every other
      feed keeps its entry, in order, and its stream, handle and mids. */
  function Cleanup(c: Client, feed: string): (c': Client)
    ensures c'.feeds == Unlist(c.feeds, feed)
    ensures forall f :: f in c'.feeds <==> f in c.feeds && f != feed
    ensures c'.streams == c.streams - {feed} && c'.mids == c.mids - {feed}
    ensures c'.handles == c.handles - {feed}
    ensures c'.ready == c.ready && c'.self == c.self
    ensures Valid(c) ==> Valid(c')
  {
    UnlistKeepsUnique(c.feeds, feed);
    Client(c.ready, c.self, c.handles - {feed}, c.streams - {feed}, c.mids - {feed}, Unlist(c.feeds, feed))
  }

  /** `onremotetrack` without `on`: with a stream for the feed, the track is removed, and if
      that leaves the stream empty the feed is cleaned up; without a stream nothing
      happens. */
  function TrackOff(c: Client, feed: string, t: Track): (c': Client)
    ensures Valid(c) ==> Valid(c')
    ensures feed !in c.streams ==> c' == c
    ensures feed in c.streams && WithoutTrack(c.streams[feed], t.id) == [] ==> c' == Cleanup(c, feed)
    ensures feed in c.streams && WithoutTrack(c.streams[feed], t.id) != [] ==>
              c' == c.(streams := c.streams[feed := WithoutTrack(c.streams[feed], t.id)])
  {
    if feed !in c.streams then c
    else
      var ts := WithoutTrack(c.streams[feed], t.id);
      if ts == [] then Cleanup(c, feed)
      else
        WithoutTrackKeepsUnique(c.streams[feed], t.id);
        c.(streams := c.streams[feed := ts])
  }

  /** The invariant holds from an empty client and is kept by every operation, so feed ids
      stay unique and no stream holds a track twice. */
  lemma StartsValid(ready: bool, self: Option<string>)
    ensures Valid(Client(ready, self, {}, map[], map[], []))
  {
  }

  /** A track that arrives twice is held once. */
  lemma TrackOnTwice(c: Client, feed: string, t: Track)
    ensures TrackOn(TrackOn(c, feed, t), feed, t) == TrackOn(c, feed, t)
  {
    var c1 := TrackOn(c, feed, t);
    assert HasTrack(c1.streams[feed], t.id) by {
      if feed in c.streams && HasTrack(c.streams[feed], t.id) {
      } else {
        var ts := c1.streams[feed];
        assert ts[|ts| - 1] == t;
      }
    }
  }
}

=== FILE: french_teacher.dfy ===
/** The French teacher consumer (`TeacherConsumer` in `french_teacher.py`): its copy of the chat window and the start of a
    reply. The lesson plan and instructions text are opaque to this model. */
module FrenchTeacher {
  import opened Text
  import opened ChatWindow

  /** `_add_message_to_chat_history(message, sender)` with its default budget of 5000
      characters: one entry more, never truncated; within budget the plain rendering and no
      summary; over budget the summary of the older entries followed by the largest suffix
      that fits. */
  function AddMessageToChatHistory(h: seq<Entry>, message: string, sender: string, summarize: string -> string): (a: Added)
    ensures a.history == h + [Entry(message, sender)]
    ensures TotalChars(a.history) <= DefaultMaxChars ==> a.text == Render(a.history) && a.summaryRequests == []
    ensures TotalChars(a.history) > DefaultMaxChars ==>
              var s := RecentStart(a.history, DefaultMaxChars);
              && 1 <= s <= |a.history|
              && a.history[..s] + a.history[s..] == a.history
              && TotalChars(a.history[s..]) <= DefaultMaxChars
              && TotalChars(a.history[s - 1..]) > DefaultMaxChars
              && a.summaryRequests == [Render(a.history[..s])]
              && a.text == summarize(Render(a.history[..s])) + RecentMarker + Render(a.history[s..])
              && EndsWith(a.text, RecentMarker + Render(a.history[s..]))
  {
    var e := Entry(message, sender);
    if TotalChars(h + [e]) > DefaultMaxChars then
      AddMessageKeepsLargestFittingSuffix(h, e, DefaultMaxChars, summarize);
      AddMessage(h, e, DefaultMaxChars, summarize)
    else
      AddMessage(h, e, DefaultMaxChars, summarize)
  }

  /** `_respond_to_user`: the pending message is consumed, stripped, summarised when over
      5000 characters, recorded under the user's first name (or "user"), and the pipeline's
      SSML is recorded under "ai_bot". */
  function RespondToUser(s: Session, firstName: string, svc: Services): (r: Round)
    ensures r.session.userMessage == ""
    ensures |Strip(s.userMessage)| <= LongMessage ==> r.message == Strip(s.userMessage)
    ensures |Strip(s.userMessage)| > LongMessage ==> r.message == svc.summarizeMessage(Strip(s.userMessage))
    ensures r.session.history == s.history + [Entry(r.message, SenderName(firstName)), Entry(r.ssml, "ai_bot")]
    ensures r.ssml == svc.pipeline(r.historyText, r.message)
    ensures r.historyText
            == AddMessage(s.history, Entry(r.message, SenderName(firstName)), DefaultMaxChars, svc.summarizeHistory).text
  {
    Respond(s, firstName, svc)
  }
}

=== FILE: general_teacher.dfy ===
/** The general teacher consumer (`TeacherConsumer` in `general_teacher.py`): its copy of the chat window and the start of a
    reply. The lesson plan and instructions text are opaque to this model. */
module GeneralTeacher {
  import opened Text
  import opened ChatWindow

  /** `_add_message_to_chat_history(message, sender)` with its default budget of 5000
      characters: one entry more, never truncated; within budget the plain rendering and no
      summary; over budget the summary of the older entries followed by the largest suffix
      that fits. */
  function AddMessageToChatHistory(h: seq<Entry>, message: string, sender: string, summarize: string -> string): (a: Added)
    ensures a.history == h + [Entry(message, sender)]
    ensures TotalChars(a.history) <= DefaultMaxChars ==> a.text == Render(a.history) && a.summaryRequests == []
    ensures TotalChars(a.history) > DefaultMaxChars ==>
              var s := RecentStart(a.history, DefaultMaxChars);
              && 1 <= s <= |a.history|
              && a.history[..s] + a.history[s..] == a.history
              && TotalChars(a.history[s..]) <= DefaultMaxChars
              && TotalChars(a.history[s - 1..]) > DefaultMaxChars
              && a.summaryRequests == [Render(a.history[..s])]
              && a.text == summarize(Render(a.history[..s])) + RecentMarker + Render(a.history[s..])
              && EndsWith(a.text, RecentMarker + Render(a.history[s..]))
  {
    var e := Entry(message, sender);
    if TotalChars(h + [e]) > DefaultMaxChars then
      AddMessageKeepsLargestFittingSuffix(h, e, DefaultMaxChars, summarize);
      AddMessage(h, e, DefaultMaxChars, summarize)
    else
      AddMessage(h, e, DefaultMaxChars, summarize)
  }

  /** `_respond_to_user`: the pending message is consumed, stripped, summarised when over
      5000 characters, recorded under the user's first name (or "user"), and the pipeline's
      SSML is recorded under "ai_bot". */
  function RespondToUser(s: Session, firstName: string, svc: Services): (r: Round)
    ensures r.session.userMessage == ""
    ensures |Strip(s.userMessage)| <= LongMessage ==> r.message == Strip(s.userMessage)
    ensures |Strip(s.userMessage)| > LongMessage ==> r.message == svc.summarizeMessage(Strip(s.userMessage))
    ensures r.session.history == s.history + [Entry(r.message, SenderName(firstName)), Entry(r.ssml, "ai_bot")]
    ensures r.ssml == svc.pipeline(r.historyText, r.message)
    ensures r.historyText
            == AddMessage(s.history, Entry(r.message, SenderName(firstName)), DefaultMaxChars, svc.summarizeHistory).text
  {
    Respond(s, firstName, svc)
  }
}

=== FILE: google_ai_manager.dfy ===
/** `GoogleAIManager` (api/ai/utils/google_ai_manager.py): the Gemini prompt window built by
    `add_message`, and the checks `generate_response` makes before and after calling the
    model. The summariser and the model are parameters. */
module GoogleAiManager {
  import opened Wrappers
  import opened Text
  import opened AiManager

  // ---------------------------------------------------------------------------
  // add_message
  // ---------------------------------------------------------------------------

  /** The role names `add_message` accepts. */
  function ParseRole(name: string): (r: Option<Role>)
    ensures r.Some? <==> name in ["system", "user", "assistant"]
    ensures r == Some(System) <==> name == "system"
    ensures r == Some(User) <==> name == "user"
    ensures r == Some(Assistant) <==> name == "assistant"
  {
    if name == "system" then Some(System)
    else if name == "user" then Some(User)
    else if name == "assistant" then Some(Assistant)
    else None
  }

  /** One message as a prompt line. */
  function RenderLine(m: Message): string {
    match m.role
    case User => "User: " + m.content + "\n"
    case Assistant => "Assistant: " + m.content + "\n"
    case System => "System: " + m.content + "\n"
  }

  /** The messages as prompt lines, in order. */
  function RenderAll(ms: seq<Message>): string {
    if ms == [] then "" else RenderLine(ms[0]) + RenderAll(ms[1..])
  }

  /** `messages[:-k]`; Python reads `[:-0]` as `[:0]`, so nothing is older when `k == 0`. */
  function Older(ms: seq<Message>, k: nat): (older: seq<Message>)
    requires k <= |ms|
    ensures k > 0 ==> older == ms[..|ms| - k]
  {
    if k == 0 then [] else ms[..|ms| - k]
  }

  /** `messages[-k:]`; Python reads `[-0:]` as `[0:]`, so everything is recent when `k == 0`. */
  function Recent(ms: seq<Message>, k: nat): (recent: seq<Message>)
    requires k <= |ms|
    ensures k > 0 ==> recent == ms[|ms| - k..]
  {
    if k == 0 then ms else ms[|ms| - k..]
  }

  /** The lines given to the summariser: user and assistant turns, in order. */
  function SummaryLines(older: seq<Message>): seq<string> {
    if older == [] then []
    else
      var rest := SummaryLines(older[1..]);
      match older[0].role
      case User => ["User said: " + older[0].content] + rest
      case Assistant => ["Assistant said: " + older[0].content] + rest
      case System => rest
  }

  /** The system messages, copied verbatim with a "System: " prefix, in order. */
  function SystemLines(older: seq<Message>): seq<string> {
    if older == [] then []
    else
      var rest := SystemLines(older[1..]);
      if older[0].role == System then ["System: " + older[0].content] + rest else rest
  }

  /** The header in front of the recent messages. */
  function RecentHeader(k: nat): string {
    "\nNow, here are the last " + IntToString(k) + " messages in order:\n"
  }

  /** The Gemini manager's state: its message history and the prompt built from it. */
  datatype GeminiState = GeminiState(messages: seq<Message>, prompt: string)

  /** The new state and the inputs handed to the summariser (at most one). */
  datatype AddOutcome = AddOutcome(state: GeminiState, summaryRequests: seq<string>)

  const SummaryHeading := "This is the summary of past conversations:\n"
  const SystemHeading := "System messages:\n"

  /** A headed block, left out when its body is empty. */
  function Section(heading: string, body: string): (r: string)
    ensures body == "" ==> r == ""
    ensures body != "" ==> r == heading + body + "\n"
  {
    if body != "" then heading + body + "\n" else ""
  }

  /** The three blocks of a windowed prompt and the summariser requests made to fill them. */
  datatype PromptParts = PromptParts(summarySection: string, systemSection: string, recentSection: string, requests: seq<string>) {
    function Prompt(): string {
      summarySection + systemSection + recentSection
    }
  }

  /** The prompt for a history longer than the window `k`: a summary of the older user and
      assistant turns (one request, only when there are any), the older system lines copied
      verbatim, and the header followed by the recent messages. */
  function WindowedPrompt(ms: seq<Message>, k: nat, summarize: string -> string): (parts: PromptParts)
    requires k <= |ms|
    ensures parts.recentSection == RecentHeader(k) + RenderAll(Recent(ms, k))
    ensures parts.systemSection == Section(SystemHeading, Join("\n", SystemLines(Older(ms, k))))
    ensures SummaryLines(Older(ms, k)) == [] <==> parts.requests == []
    ensures SummaryLines(Older(ms, k)) == [] ==> parts.summarySection == ""
    ensures SummaryLines(Older(ms, k)) != [] ==>
              var request := Join("\n", SummaryLines(Older(ms, k)));
              parts.requests == [request] && parts.summarySection == Section(SummaryHeading, summarize(request))
  {
    var older := Older(ms, k);
    var sl := SummaryLines(older);
    var requests := if sl != [] then [Join("\n", sl)] else [];
    var summary := if sl != [] then summarize(Join("\n", sl)) else "";
    PromptParts(Section(SummaryHeading, summary),
                Section(SystemHeading, Join("\n", SystemLines(older))),
                RecentHeader(k) + RenderAll(Recent(ms, k)),
                requests)
  }

  /** `add_message`: an unknown role changes nothing; otherwise the message is appended
      (None stored as "") and the prompt is rebuilt, either from the whole history or, when
      the history is longer than `maxHistory`, as the windowed prompt. */
  function AddMessage(s: GeminiState, role: string, text: Option<string>, maxHistory: nat, summarize: string -> string): (o: AddOutcome)
    ensures ParseRole(role).None? ==> o == AddOutcome(s, [])
    ensures ParseRole(role).Some? ==> o.state.messages == s.messages + [Message(ParseRole(role).value, text.GetOr(""))]
    ensures ParseRole(role).Some? && |o.state.messages| <= maxHistory ==> o.state.prompt == RenderAll(o.state.messages) && o.summaryRequests == []
    ensures ParseRole(role).Some? && |o.state.messages| > maxHistory ==>
              var parts := WindowedPrompt(o.state.messages, maxHistory, summarize);
              o.state.prompt == parts.Prompt() && o.summaryRequests == parts.requests
    ensures |o.summaryRequests| <= 1
  {
    match ParseRole(role)
    case None => AddOutcome(s, [])
    case Some(r) =>
      var ms := s.messages + [Message(r, text.GetOr(""))];
      if |ms| > maxHistory then
        var parts := WindowedPrompt(ms, maxHistory, summarize);
        AddOutcome(GeminiState(ms, parts.Prompt()), parts.requests)
      else
        AddOutcome(GeminiState(ms, RenderAll(ms)), [])
  }

  /** The window splits the history without loss: older then recent is the whole history,
      and when `k > 0` the recent part is exactly the last `k` messages. */
  lemma WindowPartitionsHistory(ms: seq<Message>, k: nat)
    requires k <= |ms|
    ensures Older(ms, k) + Recent(ms, k) == ms
    ensures k > 0 ==> |Recent(ms, k)| == k
    ensures k == 0 ==> Recent(ms, k) == ms
  {
  }

  /** Every older message lands in exactly one of the two line lists. */
  lemma {:induction false} LinesPartitionOlder(older: seq<Message>)
    ensures |SummaryLines(older)| + |SystemLines(older)| == |older|
  {
    if older != [] {
      LinesPartitionOlder(older[1..]);
    }
  }

  /** Only system messages produce system lines, so a window of user and assistant turns
      has no "System messages" section and every older turn goes to the summariser. */
  lemma {:induction false} NoSystemLinesWithoutSystemMessages(older: seq<Message>)
    requires forall i :: 0 <= i < |older| ==> older[i].role != System
    ensures SystemLines(older) == []
    ensures |SummaryLines(older)| == |older|
  {
    if older != [] {
      NoSystemLinesWithoutSystemMessages(older[1..]);
    }
  }

  /** A windowed prompt ends with the header and exactly the last `k` messages in order,
      preceded by the older system lines, verbatim, when there are any. */
  lemma WindowedPromptShape(ms: seq<Message>, k: nat, summarize: string -> string)
    requires 0 < k <= |ms|
    ensures var parts := WindowedPrompt(ms, k, summarize);
            var rest := RecentHeader(k) + RenderAll(ms[|ms| - k..]);
            var systemText := Join("\n", SystemLines(ms[..|ms| - k]));
            && EndsWith(parts.Prompt(), rest)
            && (systemText != "" ==> EndsWith(parts.Prompt(), SystemHeading + systemText + "\n" + rest))
  {
    var parts := WindowedPrompt(ms, k, summarize);
    PromptEndsWithSections(parts);
    assert Older(ms, k) == ms[..|ms| - k] && Recent(ms, k) == ms[|ms| - k..];
  }

  lemma PromptEndsWithSections(parts: PromptParts)
    ensures EndsWith(parts.Prompt(), parts.recentSection)
    ensures EndsWith(parts.Prompt(), parts.systemSection + parts.recentSection)
  {
    EndsWithConcat(parts.summarySection + parts.systemSection, parts.recentSection);
    assert parts.Prompt() == parts.summarySection + (parts.systemSection + parts.recentSection);
    EndsWithConcat(parts.summarySection, parts.systemSection + parts.recentSection);
  }

  /** With no room at all (`maxHistory == 0`) the slicing rules keep every message in the
      "last 0 messages" part and summarise nothing. */
  lemma AddMessageZeroWindow(s: GeminiState, role: string, text: Option<string>, summarize: string -> string)
    requires ParseRole(role).Some?
    ensures var o := AddMessage(s, role, text, 0, summarize);
            o.state.prompt == RecentHeader(0) + RenderAll(o.state.messages) && o.summaryRequests == []
  {
  }

  // ---------------------------------------------------------------------------
  // generate_response
  // ---------------------------------------------------------------------------

  datatype GenerateError =
    | RuntimeError(message: string)
    | ValueError(message: string)
    | TypeError  // token counting handed `None`

  /** The outcome of `generate_response` and the prompts sent to the model, in order. */
  datatype GenerateRun = GenerateRun(result: Result<string, GenerateError>, modelCalls: seq<(string, int)>)

  const NotConfigured := "Generative Language API not configured."
  const EmptyPrompt := "Prompt is empty. Add messages before generating a response."

  /** `prompt if prompt is not None else self.prompt`. */
  function EffectivePrompt(prompt: Option<string>, statePrompt: string): string {
    prompt.GetOr(statePrompt)
  }

  /** `generate_response` as written: after the model has answered, the input tokens are
      counted on the `prompt` argument, which raises when only the stored prompt was used. */
  function GenerateResponseAsWritten(hasModel: bool, statePrompt: string, maxToken: int, prompt: Option<string>,
                                     model: (string, int) -> string): (run: GenerateRun)
    ensures !hasModel ==> run == GenerateRun(Failure(RuntimeError(NotConfigured)), [])
    ensures hasModel && EffectivePrompt(prompt, statePrompt) == "" ==> run == GenerateRun(Failure(ValueError(EmptyPrompt)), [])
    ensures run.result.Success? ==> prompt.Some?
  {
    if !hasModel then GenerateRun(Failure(RuntimeError(NotConfigured)), [])
    else
      var usePrompt := EffectivePrompt(prompt, statePrompt);
      if usePrompt == "" then GenerateRun(Failure(ValueError(EmptyPrompt)), [])
      else
        var text := model(usePrompt, maxToken);
        if prompt.None? then GenerateRun(Failure(TypeError), [(usePrompt, maxToken)])
        else GenerateRun(Success(text), [(usePrompt, maxToken)])
  }

  /** The discrepancy: with a configured model, no `prompt` argument and a non-empty stored
      prompt, the model is called and its answer is then lost to a TypeError. */
  lemma StoredPromptCallFails(statePrompt: string, maxToken: int, model: (string, int) -> string)
    requires statePrompt != ""
    ensures GenerateResponseAsWritten(true, statePrompt, maxToken, None, model)
            == GenerateRun(Failure(TypeError), [(statePrompt, maxToken)])
  {
  }

  /** `generate_response` with the token count taken on the prompt actually used: a
      configured model and a non-empty effective prompt give exactly one model call, whose
      answer is returned. */
  function GenerateResponse(hasModel: bool, statePrompt: string, maxToken: int, prompt: Option<string>,
                            model: (string, int) -> string): (run: GenerateRun)
    ensures !hasModel ==> run == GenerateRun(Failure(RuntimeError(NotConfigured)), [])
    ensures hasModel && EffectivePrompt(prompt, statePrompt) == "" ==> run == GenerateRun(Failure(ValueError(EmptyPrompt)), [])
    ensures hasModel && EffectivePrompt(prompt, statePrompt) != "" ==>
              var p := EffectivePrompt(prompt, statePrompt);
              run == GenerateRun(Success(model(p, maxToken)), [(p, maxToken)])
  {
    if !hasModel then GenerateRun(Failure(RuntimeError(NotConfigured)), [])
    else
      var usePrompt := EffectivePrompt(prompt, statePrompt);
      if usePrompt == "" then GenerateRun(Failure(ValueError(EmptyPrompt)), [])
      else GenerateRun(Success(model(usePrompt, maxToken)), [(usePrompt, maxToken)])
  }

  /** The two versions agree whenever a prompt is passed explicitly; with the stored prompt
      only the corrected one answers. */
  lemma GenerateResponseAgreesWithExplicitPrompt(hasModel: bool, statePrompt: string, maxToken: int, prompt: Option<string>,
                                                 model: (string, int) -> string)
    ensures prompt.Some? ==> GenerateResponseAsWritten(hasModel, statePrompt, maxToken, prompt, model)
                             == GenerateResponse(hasModel, statePrompt, maxToken, prompt, model)
    ensures hasModel && prompt.None? && statePrompt != "" ==>
              GenerateResponse(hasModel, statePrompt, maxToken, prompt, model).result == Success(model(statePrompt, maxToken))
  {
  }

  /** After a successful `add_message` the stored prompt is never empty, so the corrected
      `generate_response` with no argument always reaches the model. */
  lemma PromptAfterAddIsNonEmpty(s: GeminiState, role: string, text: Option<string>, maxHistory: nat, summarize: string -> string)
    requires ParseRole(role).Some?
    ensures AddMessage(s, role, text, maxHistory, summarize).state.prompt != ""
  {
    var o := AddMessage(s, role, text, maxHistory, summarize);
    var ms := o.state.messages;
    if |ms| <= maxHistory {
      assert ms == [ms[0]] + ms[1..];
      assert RenderAll(ms) == RenderLine(ms[0]) + RenderAll(ms[1..]);
    }
  }
}

=== FILE: python_call.dfy ===
/** How Python binds keyword arguments in a call: a function that declares no `**kwargs`
    rejects a keyword naming none of its parameters with a TypeError, before its body runs. */
module PythonCall {
  import opened Wrappers

  /** The TypeError message, with the function's qualified name as Python 3.10 and later
      write it. */
  function UnexpectedKeyword(name: string, keyword: string): string {
    name + "() got an unexpected keyword argument '" + keyword + "'"
  }

  /** Binding `keywords`, in call order, to a function declaring `params`: the call goes
      ahead exactly when every keyword names a parameter; otherwise the first keyword that
      names none is the one reported. */
  function BindKeywords(name: string, params: seq<string>, keywords: seq<string>): (r: Result<(), string>)
    ensures r.Success? <==> forall i :: 0 <= i < |keywords| ==> keywords[i] in params
    ensures r.Failure? ==>
              exists i :: 0 <= i < |keywords| && keywords[i] !in params
                          && (forall j :: 0 <= j < i ==> keywords[j] in params)
                          && r.error == UnexpectedKeyword(name, keywords[i])
  {
    if keywords == [] then Success(())
    else if keywords[0] !in params then Failure(UnexpectedKeyword(name, keywords[0]))
    else
      var rest := BindKeywords(name, params, keywords[1..]);
      assert forall i :: 1 <= i < |keywords| ==> keywords[i] == keywords[1..][i - 1];
      if rest.Failure? then
        var i :| 0 <= i < |keywords[1..]| && keywords[1..][i] !in params
                 && (forall j :: 0 <= j < i ==> keywords[1..][j] in params)
                 && rest.error == UnexpectedKeyword(name, keywords[1..][i]);
        assert keywords[i + 1] !in params && forall j :: 0 <= j < i + 1 ==> keywords[j] in params;
        rest
      else
        rest
  }
}

=== FILE: streaming.dfy ===
/** The signalling consumer for two-party streaming (`StreamingConsumer`): a registry from
    room name to the set of connected channel names, which tells each joiner whether it
    makes the offer, and keeps the room informed of its head count. The registry is a
    `defaultdict(set)`: reading a room that was never joined gives the empty set. */
module Streaming {

  /** room name -> channel names. */
  type Registry = map<string, set<string>>

  /** `ROOM_MEMBERS[room]` read through the default. */
  function Members(reg: Registry, room: string): set<string> {
    if room in reg then reg[room] else {}
  }

  /** The signalling messages this consumer produces; `data` is relayed untouched. */
  datatype Signal<!D> = RoleOfferer | RoleAnswerer | RoomInfo(count: nat) | PeerJoined | Relay(data: D)

  /** Where a message goes: to the connecting client only, or to every channel in the room. */
  datatype Outbound<!D> = ToSelf(signal: Signal<D>) | ToRoom(room: string, signal: Signal<D>)

  datatype Step<!D> = Step(reg: Registry, sent: seq<Outbound<D>>)

  /** `connect`: the joiner is the offerer exactly when the room had nobody before it; it is
      added, then told its role, then the room hears the new count and that a peer joined.
      No other room changes. */
  function Connect<D>(reg: Registry, room: string, channel: string): (s: Step<D>)
    ensures Members(s.reg, room) == Members(reg, room) + {channel}
    ensures forall other :: other != room ==> Members(s.reg, other) == Members(reg, other)
    ensures |s.sent| == 3
    ensures s.sent[0] == ToSelf(if Members(reg, room) == {} then RoleOfferer else RoleAnswerer)
    ensures s.sent[1] == ToRoom(room, RoomInfo(|Members(s.reg, room)|))
    ensures s.sent[2] == ToRoom(room, PeerJoined)
  {
    var firstJoiner := |Members(reg, room)| == 0;
    var reg' := reg[room := Members(reg, room) + {channel}];
    Step(reg', [ToSelf(if firstJoiner then RoleOfferer else RoleAnswerer),
                ToRoom(room, RoomInfo(|Members(reg', room)|)),
                ToRoom(room, PeerJoined)])
  }

  /** `disconnect`: only this channel leaves this room (leaving a room it was not in is
      harmless), and the room hears the new count. */
  function Disconnect<D>(reg: Registry, room: string, channel: string): (s: Step<D>)
    ensures Members(s.reg, room) == Members(reg, room) - {channel}
    ensures forall other :: other != room ==> Members(s.reg, other) == Members(reg, other)
    ensures s.sent == [ToRoom(room, RoomInfo(|Members(s.reg, room)|))]
  {
    var reg' := reg[room := Members(reg, room) - {channel}];
    Step(reg', [ToRoom(room, RoomInfo(|Members(reg', room)|))])
  }

  /** `receive`: the decoded payload is relayed as it is to the whole room; the registry is
      untouched. */
  function Receive<D>(reg: Registry, room: string, data: D): (s: Step<D>)
    ensures s.reg == reg
    ensures s.sent == [ToRoom(room, Relay(data))]
  {
    Step(reg, [ToRoom(room, Relay(data))])
  }

  /** Set semantics: a channel that joins twice is counted once, and the second time it is
      told it answers. */
  lemma RejoinDoesNotGrow<D>(reg: Registry, room: string, channel: string)
    ensures var s1 := Connect<D>(reg, room, channel);
            var s2 := Connect<D>(s1.reg, room, channel);
            && Members(s2.reg, room) == Members(s1.reg, room)
            && s2.sent[1] == s1.sent[1]
            && s2.sent[0] == ToSelf(RoleAnswerer)
  {
    var s1 := Connect<D>(reg, room, channel);
    assert channel in Members(s1.reg, room);
  }

  /** A channel new to a room that joins and then leaves restores the room's membership,
      and the count the room hears afterwards is the count it had before. */
  lemma ConnectThenDisconnect<D>(reg: Registry, room: string, channel: string)
    requires channel !in Members(reg, room)
    ensures var s := Disconnect<D>(Connect<D>(reg, room, channel).reg, room, channel);
            Members(s.reg, room) == Members(reg, room) && s.sent == [ToRoom(room, RoomInfo(|Members(reg, room)|))]
  {
    var s1 := Connect<D>(reg, room, channel);
    assert Members(s1.reg, room) - {channel} == Members(reg, room);
  }

  /** The role protocol: of two distinct channels joining an empty room one after the
      other, the first offers and the second answers, and the room then counts two. */
  lemma TwoPartyRoles<D>(reg: Registry, room: string, a: string, b: string)
    requires Members(reg, room) == {}
    requires a != b
    ensures var s1 := Connect<D>(reg, room, a);
            var s2 := Connect<D>(s1.reg, room, b);
            && s1.sent[0] == ToSelf(RoleOfferer)
            && s2.sent[0] == ToSelf(RoleAnswerer)
            && s2.sent[1] == ToRoom(room, RoomInfo(2))
  {
    var s1 := Connect<D>(reg, room, a);
    var s2 := Connect<D>(s1.reg, room, b);
    assert Members(s1.reg, room) == {a};
    assert Members(s2.reg, room) == {a, b};
  }
}

=== FILE: teacher.dfy ===
/** The book teacher consumer (`TeacherConsumer`): its chat window, the choice of the next
    concept to teach with its Q&A list, the neighbour expansion of the book chunks found by
    similarity search, and the start of a reply. */
module TeacherConsumer {
  import opened Wrappers
  import opened Text
  import opened ChatWindow

  // ---------------------------------------------------------------------------
  // Chat window
  // ---------------------------------------------------------------------------

  /** `_add_message_to_chat_history(message, sender)` with its default budget of 5000
      characters. */
  function AddMessageToChatHistory(h: seq<Entry>, message: string, sender: string, summarize: string -> string): (a: Added)
    ensures a.history == h + [Entry(message, sender)]
    ensures TotalChars(a.history) <= DefaultMaxChars ==> a.text == Render(a.history) && a.summaryRequests == []
    ensures TotalChars(a.history) > DefaultMaxChars ==>
              var s := RecentStart(a.history, DefaultMaxChars);
              && 1 <= s <= |a.history|
              && a.history[..s] + a.history[s..] == a.history
              && TotalChars(a.history[s..]) <= DefaultMaxChars
              && TotalChars(a.history[s - 1..]) > DefaultMaxChars
              && a.summaryRequests == [Render(a.history[..s])]
              && a.text == summarize(Render(a.history[..s])) + RecentMarker + Render(a.history[s..])
              && EndsWith(a.text, RecentMarker + Render(a.history[s..]))
  {
    var e := Entry(message, sender);
    if TotalChars(h + [e]) > DefaultMaxChars then
      AddMessageKeepsLargestFittingSuffix(h, e, DefaultMaxChars, summarize);
      AddMessage(h, e, DefaultMaxChars, summarize)
    else
      AddMessage(h, e, DefaultMaxChars, summarize)
  }

  // ---------------------------------------------------------------------------
  // Neighbour indices
  // ---------------------------------------------------------------------------

  /** `all_indices`: the chunk indices found by the similarity search together with each
      one's predecessor (when there is one) and successor. */
  function NeighbourIndices(found: seq<nat>): (all: set<nat>)
    ensures forall i :: i in found ==> i in all && i + 1 in all && (i > 0 ==> i - 1 in all)
    ensures forall j :: j in all ==> j in found || j + 1 in found || (j > 0 && j - 1 in found)
  {
    var below := set i | i in found && i > 0 :: (i - 1) as nat;
    var above := set i | i in found :: i + 1;
    (set i | i in found) + below + above
  }

  /** The expansion adds nothing far away: every index is within distance one of a found
      index. */
  lemma NeighbourIndicesAreClose(found: seq<nat>, j: nat)
    requires j in NeighbourIndices(found)
    ensures exists i :: i in found && -1 <= j - i <= 1
  {
    var all := NeighbourIndices(found);
    if j in found {
      assert j in found && -1 <= j - j <= 1;
    } else if j + 1 in found {
      assert j + 1 in found && -1 <= j - (j + 1) <= 1;
    } else {
      assert j - 1 in found && -1 <= j - (j - 1) <= 1;
    }
  }

  // ---------------------------------------------------------------------------
  // Q&A flattening
  // ---------------------------------------------------------------------------

  /** A stored `q_and_a` value: SQL NULL, a JSON list, or any other JSON value. */
  datatype QaValue = QaNull | QaList(items: seq<QaValue>) | QaScalar(json: string)

  /** What one stored value contributes: a list's items, or the value itself. */
  function Splice(v: QaValue): seq<QaValue> {
    if v.QaList? then v.items else [v]
  }

  /** `[item for sublist in values for item in (sublist if list else [sublist])]`. */
  function FlattenQa(vs: seq<QaValue>): (r: seq<QaValue>)
    ensures forall j, x :: 0 <= j < |vs| && x in Splice(vs[j]) ==> x in r
    ensures forall x :: x in r ==> exists j :: 0 <= j < |vs| && x in Splice(vs[j])
  {
    if vs == [] then [] else
      var rest := FlattenQa(vs[1..]);
      assert forall j :: 1 <= j < |vs| ==> vs[j] == vs[1..][j - 1];
      Splice(vs[0]) + rest
  }

  /** Flattening is order-preserving: it distributes over concatenation. */
  lemma {:induction false} FlattenQaAppend(xs: seq<QaValue>, ys: seq<QaValue>)
    ensures FlattenQa(xs + ys) == FlattenQa(xs) + FlattenQa(ys)
    decreases |xs|
  {
    if xs == [] {
      assert xs + ys == ys;
    } else {
      assert (xs + ys)[1..] == xs[1..] + ys;
      FlattenQaAppend(xs[1..], ys);
    }
  }

  /** A list is spliced in place and anything else stays a single item. */
  lemma FlattenQaSingle(v: QaValue)
    ensures FlattenQa([v]) == (if v.QaList? then v.items else [v])
  {
    assert [v][1..] == [];
  }

  // ---------------------------------------------------------------------------
  // Next concept
  // ---------------------------------------------------------------------------

  /** Content shorter than this many characters is never taught. */
  const MinContentLength := 50

  /** One teaching-content row of the user's book. */
  datatype ContentRow = ContentRow(id: nat, chunkIndex: nat, content: Option<string>, qa: QaValue, learned: bool)

  /** The filters of the next-concept query: not yet learned, content present, non-empty
      and at least 50 characters long, Q&A present and not the empty list. */
  predicate Teachable(r: ContentRow) {
    && !r.learned
    && r.content.Some? && r.content.value != "" && |r.content.value| >= MinContentLength
    && r.qa != QaNull && r.qa != QaList([])
  }

  /** Row `j` is the query's first result: teachable, with the lowest chunk index among the
      teachable rows, and the first such row in row order. */
  predicate IsNextConcept(rows: seq<ContentRow>, j: nat) {
    && j < |rows|
    && Teachable(rows[j])
    && (forall k :: 0 <= k < |rows| && Teachable(rows[k]) ==> rows[j].chunkIndex <= rows[k].chunkIndex)
    && (forall k :: 0 <= k < j && Teachable(rows[k]) ==> rows[k].chunkIndex > rows[j].chunkIndex)
  }

  /** At most one row is the next concept. */
  lemma NextConceptIsUnique(rows: seq<ContentRow>, j: nat, k: nat)
    requires IsNextConcept(rows, j) && IsNextConcept(rows, k)
    ensures j == k
  {
  }

  /** The query as a scan: keep the first teachable row with the smallest chunk index. */
  method SelectNext(rows: seq<ContentRow>) returns (pick: Option<nat>)
    ensures pick.Some? ==> IsNextConcept(rows, pick.value)
    ensures pick.None? <==> forall k :: 0 <= k < |rows| ==> !Teachable(rows[k])
  {
    pick := None;
    var i := 0;
    while i < |rows|
      invariant 0 <= i <= |rows|
      invariant pick.None? ==> forall k :: 0 <= k < i ==> !Teachable(rows[k])
      invariant pick.Some? ==> pick.value < i && Teachable(rows[pick.value])
      invariant pick.Some? ==> forall k :: 0 <= k < i && Teachable(rows[k]) ==> rows[pick.value].chunkIndex <= rows[k].chunkIndex
      invariant pick.Some? ==> forall k :: 0 <= k < pick.value && Teachable(rows[k]) ==> rows[k].chunkIndex > rows[pick.value].chunkIndex
    {
      if Teachable(rows[i]) && (pick.None? || rows[i].chunkIndex < rows[pick.value].chunkIndex) {
        pick := Some(i);
      }
      i := i + 1;
    }
  }

  /** The update `filter(id=...).update(user_has_learned=True)`. */
  function MarkLearned(rows: seq<ContentRow>, id: nat): (rows': seq<ContentRow>)
    ensures |rows'| == |rows|
    ensures forall k :: 0 <= k < |rows| ==>
              rows'[k] == (if rows[k].id == id then rows[k].(learned := true) else rows[k])
  {
    if rows == [] then []
    else [if rows[0].id == id then rows[0].(learned := true) else rows[0]] + MarkLearned(rows[1..], id)
  }

  /** The stored Q&A values of every row at one chunk index, learned or not, in row order:
      every such row contributes its value, and no other row contributes anything. */
  function QaValuesAt(rows: seq<ContentRow>, chunkIndex: nat): (vs: seq<QaValue>)
    ensures |vs| <= |rows|
    ensures forall k :: 0 <= k < |rows| && rows[k].chunkIndex == chunkIndex ==> rows[k].qa in vs
    ensures forall x :: x in vs ==> exists k :: 0 <= k < |rows| && rows[k].chunkIndex == chunkIndex && rows[k].qa == x
  {
    if rows == [] then []
    else
      assert forall k :: 1 <= k < |rows| ==> rows[k] == rows[1..][k - 1];
      (if rows[0].chunkIndex == chunkIndex then [rows[0].qa] else []) + QaValuesAt(rows[1..], chunkIndex)
  }

  /** The selection keeps row order: it distributes over concatenation. */
  lemma {:induction false} QaValuesAtAppend(xs: seq<ContentRow>, ys: seq<ContentRow>, chunkIndex: nat)
    ensures QaValuesAt(xs + ys, chunkIndex) == QaValuesAt(xs, chunkIndex) + QaValuesAt(ys, chunkIndex)
    decreases |xs|
  {
    if xs == [] {
      assert xs + ys == ys;
    } else {
      assert (xs + ys)[1..] == xs[1..] + ys;
      QaValuesAtAppend(xs[1..], ys, chunkIndex);
      AppendAssoc(if xs[0].chunkIndex == chunkIndex then [xs[0].qa] else [],
                  QaValuesAt(xs[1..], chunkIndex), QaValuesAt(ys, chunkIndex));
    }
  }

  /** One row contributes its value exactly when it is at the chunk index. */
  lemma QaValuesAtSingle(r: ContentRow, chunkIndex: nat)
    ensures QaValuesAt([r], chunkIndex) == (if r.chunkIndex == chunkIndex then [r.qa] else [])
  {
    assert [r][1..] == [];
  }

  /** The teaching state `_get_next_content_to_teach` writes. */
  datatype Teaching = Teaching(rows: seq<ContentRow>, content: Option<string>, qaList: seq<QaValue>)

  /** `_get_next_content_to_teach`: with no teachable row, the content is None, the Q&A list
      is empty and nothing is marked; otherwise the next concept is marked learned, its
      content becomes the content to teach, and the Q&A list gathers every row at its chunk
      index. */
  method NextContent(rows: seq<ContentRow>) returns (t: Teaching, pick: Option<nat>)
    ensures pick.None? <==> forall k :: 0 <= k < |rows| ==> !Teachable(rows[k])
    ensures pick.None? ==> t == Teaching(rows, None, [])
    ensures pick.Some? ==>
              var j := pick.value;
              && IsNextConcept(rows, j)
              && t.rows == MarkLearned(rows, rows[j].id)
              && t.content == rows[j].content
              && t.qaList == FlattenQa(QaValuesAt(rows, rows[j].chunkIndex))
  {
    pick := SelectNext(rows);
    if pick.None? {
      t := Teaching(rows, None, []);
    } else {
      var next := rows[pick.value];
      t := Teaching(MarkLearned(rows, next.id), next.content, FlattenQa(QaValuesAt(rows, next.chunkIndex)));
    }
  }

  /** Progress: the concept chosen is no longer teachable afterwards, so with distinct row
      ids it is never chosen again, and every row with another id is left as it was. */
  lemma NextContentIsConsumed(rows: seq<ContentRow>, j: nat)
    requires IsNextConcept(rows, j)
    ensures var rows' := MarkLearned(rows, rows[j].id);
            && !Teachable(rows'[j])
            && (forall k :: 0 <= k < |rows| && rows[k].id != rows[j].id ==> rows'[k] == rows[k])
            && (forall k :: 0 <= k < |rows| && !Teachable(rows[k]) ==> !Teachable(rows'[k]))
  {
  }

  // ---------------------------------------------------------------------------
  // Responding
  // ---------------------------------------------------------------------------

  /** The consumer's state across a reply. */
  datatype TeacherState = TeacherState(session: Session, teaching: Teaching)

  /** The book teacher's collaborators besides the shared ones, none of whose code is part
      of this model: the similarity search from the message to the chunk indices of the
      closest book chunks, and the assembly of the instructions from the concept to teach,
      the history text, the book chunks at a set of indices and the Q&A list. The shared
      pipeline answers (instructions, message). */
  datatype BookServices = BookServices(
    chat: Services,
    search: string -> seq<nat>,
    instructions: (Option<string>, string, set<nat>, seq<QaValue>) -> string)

  /** What a reply leaves behind, with the chunk indices whose book text goes into the
      instructions, and the instructions themselves. */
  datatype TeacherReply = TeacherReply(state: TeacherState, round: Round, bookIndices: set<nat>, instructions: string)

  /** `_respond_to_user`: choose the next concept first, then consume the pending message,
      record it, expand the similarity hits of the message by their neighbours, build the
      instructions from the concept, the history text, those book chunks and the Q&A list,
      and record the pipeline's answer to (instructions, message). */
  method RespondToUser(st: TeacherState, firstName: string, svc: BookServices)
    returns (reply: TeacherReply, pick: Option<nat>)
    ensures pick.None? <==> forall k :: 0 <= k < |st.teaching.rows| ==> !Teachable(st.teaching.rows[k])
    ensures pick.None? ==> reply.state.teaching == Teaching(st.teaching.rows, None, [])
    ensures pick.Some? ==>
              var rows := st.teaching.rows;
              var j := pick.value;
              && IsNextConcept(rows, j)
              && reply.state.teaching
                 == Teaching(MarkLearned(rows, rows[j].id), rows[j].content, FlattenQa(QaValuesAt(rows, rows[j].chunkIndex)))
    ensures reply.state.session.userMessage == ""
    ensures |Strip(st.session.userMessage)| <= LongMessage ==> reply.round.message == Strip(st.session.userMessage)
    ensures |Strip(st.session.userMessage)| > LongMessage ==>
              reply.round.message == svc.chat.summarizeMessage(Strip(st.session.userMessage))
    ensures reply.round.historyText
            == AddMessage(st.session.history, Entry(reply.round.message, SenderName(firstName)), DefaultMaxChars,
                          svc.chat.summarizeHistory).text
    ensures reply.bookIndices == NeighbourIndices(svc.search(reply.round.message))
    ensures reply.instructions
            == svc.instructions(reply.state.teaching.content, reply.round.historyText, reply.bookIndices,
                                reply.state.teaching.qaList)
    ensures reply.round.ssml == svc.chat.pipeline(reply.instructions, reply.round.message)
    ensures reply.state.session.history ==
              st.session.history + [Entry(reply.round.message, SenderName(firstName)), Entry(reply.round.ssml, "ai_bot")]
  {
    var teaching;
    teaching, pick := NextContent(st.teaching.rows);
    var cur := CurrentMessage(st.session.userMessage, svc.chat.summarizeMessage);
    var user := Entry(cur, SenderName(firstName));
    var first := AddMessage(st.session.history, user, DefaultMaxChars, svc.chat.summarizeHistory);
    var book := NeighbourIndices(svc.search(cur));
    var instructions := svc.instructions(teaching.content, first.text, book, teaching.qaList);
    var ssml := svc.chat.pipeline(instructions, cur);
    var second := AddMessage(first.history, Entry(ssml, "ai_bot"), DefaultMaxChars, svc.chat.summarizeHistory);
    SnocTwice(st.session.history, user, Entry(ssml, "ai_bot"));
    var round := Round(Session("", second.history), cur, first.text, ssml);
    reply := TeacherReply(TeacherState(round.session, teaching), round, book, instructions);
  }
}

=== FILE: test_socket.dfy ===
/** The plain room consumer (`RoomConsumer`): a registry from room name to connected channel
    names, kept in an ordinary dictionary. A room's entry is created by its first join and
    never by a disconnect; `peer_joined` notices are dropped by the channel that caused them. */
module RoomSocket {

  /** room name -> channel names. */
  type Registry = map<string, set<string>>

  /** The messages this consumer sends to its own client. */
  datatype Notice<!D> = RoomInfo(count: nat) | PeerJoined | Chat(data: D)

  /** A group event: a join announcement carrying its sender, or a chat payload. */
  datatype Event<!D> = PeerJoinedEvent(sender: string) | ChatEvent(data: D)

  /** What a connect does: the new registry, the notice to the joining client, and the event
      sent to the room's group. */
  datatype Joined<!D> = Joined(reg: Registry, toSelf: Notice<D>, toGroup: Event<D>)

  /** `connect`: the room's set is created if the room is new, the channel is added, the
      joiner is told a count that includes itself, and the group hears who joined. */
  function Connect<D>(reg: Registry, room: string, channel: string): (j: Joined<D>)
    ensures room in j.reg && j.reg[room] == (if room in reg then reg[room] else {}) + {channel}
    ensures room in reg ==> j.reg.Keys == reg.Keys
    ensures room !in reg ==> j.reg.Keys == reg.Keys + {room}
    ensures forall other :: other in reg && other != room ==> j.reg[other] == reg[other]
    ensures j.toSelf == RoomInfo(|j.reg[room]|) && j.toSelf.count >= 1
    ensures j.toGroup == PeerJoinedEvent(channel)
  {
    var reg1 := if room !in reg then reg[room := {}] else reg;
    var reg2 := reg1[room := reg1[room] + {channel}];
    Joined(reg2, RoomInfo(|reg2[room]|), PeerJoinedEvent(channel))
  }

  /** `disconnect`: the channel leaves the room when the room is known; an unknown room is
      left unknown. */
  function Disconnect(reg: Registry, room: string, channel: string): (reg': Registry)
    ensures reg'.Keys == reg.Keys
    ensures room in reg ==> reg'[room] == reg[room] - {channel}
    ensures forall other :: other in reg && other != room ==> reg'[other] == reg[other]
  {
    if room in reg then reg[room := reg[room] - {channel}] else reg
  }

  /** `peer_joined`: what a channel sends its client on a group event. */
  function Deliver<D>(self: string, e: Event<D>): (out: seq<Notice<D>>)
    ensures e.PeerJoinedEvent? ==> (out == [] <==> e.sender == self)
    ensures e.PeerJoinedEvent? && e.sender != self ==> out == [PeerJoined]
    ensures e.ChatEvent? ==> out == [Chat(e.data)]
  {
    match e
    case PeerJoinedEvent(sender) => if sender != self then [PeerJoined] else []
    case ChatEvent(data) => [Chat(data)]
  }

  /** The channels of a group whose clients hear a group event. */
  function Recipients<D>(group: set<string>, e: Event<D>): set<string> {
    set c | c in group && Deliver(c, e) != []
  }

  /** A join announcement reaches every other channel of the group and never its sender. */
  lemma JoinNoticeSkipsSender<D>(group: set<string>, sender: string)
    ensures Recipients<D>(group, PeerJoinedEvent(sender)) == group - {sender}
  {
    var rs := Recipients<D>(group, PeerJoinedEvent(sender));
    forall c | c in group
      ensures c in rs <==> c != sender
    {
      assert Deliver<D>(c, PeerJoinedEvent(sender)) == (if sender != c then [PeerJoined] else []);
    }
  }

  /** Joining and then leaving an existing room takes the channel out of it and leaves
      every other room alone, so the registry is restored exactly when the channel was
      not in the room before. */
  lemma ConnectThenDisconnect<D>(reg: Registry, room: string, channel: string)
    requires room in reg
    ensures Disconnect(Connect<D>(reg, room, channel).reg, room, channel) == reg[room := reg[room] - {channel}]
    ensures Disconnect(Connect<D>(reg, room, channel).reg, room, channel) == reg <==> channel !in reg[room]
  {
    var r := Disconnect(Connect<D>(reg, room, channel).reg, room, channel);
    assert reg[room] + {channel} - {channel} == reg[room] - {channel};
    assert r.Keys == reg.Keys;
    assert r == reg[room := reg[room] - {channel}];
    if channel in reg[room] {
      assert channel !in r[room];
    } else {
      assert reg[room] - {channel} == reg[room];
    }
  }
}

=== FILE: text.dfy ===
/** String helpers with the semantics of the Python and JavaScript built-ins the
    source uses: `str.strip()`, `sep.join(xs)`, `str(n)` / `n.toString()`. */
module Text {

  /** Python's `str.isspace` on one character (the characters `str.strip()` removes). */
  predicate IsSpace(c: char) {
    c == ' ' || c == '\t' || c == '\n' || c == '\r' || c == '\U{000B}' || c == '\U{000C}'
    || ('\U{001C}' <= c <= '\U{001F}') || c == '\U{0085}' || c == '\U{00A0}' || c == '\U{1680}'
    || ('\U{2000}' <= c <= '\U{200A}') || c == '\U{2028}' || c == '\U{2029}'
    || c == '\U{202F}' || c == '\U{205F}' || c == '\U{3000}'
  }

  predicate AllSpace(s: string) {
    forall i :: 0 <= i < |s| ==> IsSpace(s[i])
  }

  /** True when `s` neither starts nor ends with whitespace (vacuous for ""). */
  predicate Trimmed(s: string) {
    s == "" || (!IsSpace(s[0]) && !IsSpace(s[|s| - 1]))
  }

  predicate StartsWith(s: string, p: string) {
    |p| <= |s| && s[..|p|] == p
  }

  predicate EndsWith(s: string, p: string) {
    |p| <= |s| && s[|s| - |p|..] == p
  }

  /** Concatenation is associative (stated once, so that proofs need not rediscover it
      element by element). */
  lemma AppendAssoc<T>(x: seq<T>, y: seq<T>, z: seq<T>)
    ensures x + (y + z) == (x + y) + z
  {
  }

  /** A string ends with whatever was appended to it last. */
  lemma EndsWithConcat(a: string, b: string)
    ensures EndsWith(a + b, b)
  {
    assert (a + b)[|a + b| - |b|..] == b;
  }

  /** Removes leading whitespace. */
  function TrimStart(s: string): (r: string)
    ensures |r| <= |s| && r == s[|s| - |r|..]
    ensures AllSpace(s[..|s| - |r|])
    ensures r == "" || !IsSpace(r[0])
  {
    if s == [] || !IsSpace(s[0]) then s
    else
      var r := TrimStart(s[1..]);
      assert s[1..][|s[1..]| - |r|..] == s[|s| - |r|..];
      r
  }

  /** Removes trailing whitespace. */
  function TrimEnd(s: string): (r: string)
    ensures |r| <= |s| && r == s[..|r|]
    ensures AllSpace(s[|r|..])
    ensures r == "" || !IsSpace(r[|r| - 1])
  {
    if s == [] || !IsSpace(s[|s| - 1]) then s
    else
      var r := TrimEnd(s[..|s| - 1]);
      r
  }

  /** Python's `s.strip()`. */
  function Strip(s: string): (r: string)
    ensures Trimmed(r)
    ensures |r| <= |s|
  {
    TrimEnd(TrimStart(s))
  }

  /** `Strip` cuts only whitespace, and only from the two ends. */
  lemma StripIsSlice(s: string)
    ensures var r := Strip(s);
            exists i, j :: 0 <= i <= j <= |s| && r == s[i..j] && AllSpace(s[..i]) && AllSpace(s[j..])
  {
    var a := TrimStart(s);
    var r := TrimEnd(a);
    var i := |s| - |a|;
    var j := i + |r|;
    assert r == s[i..j];
    assert s[j..] == a[|r|..];
  }

  /** A string with no whitespace at either end is its own strip. */
  lemma StripOfTrimmed(s: string)
    requires Trimmed(s)
    ensures Strip(s) == s
  {
    if s != "" {
      assert TrimStart(s) == s;
      assert TrimEnd(s) == s;
    }
  }

  /** Leading whitespace is cut the same way whatever whitespace follows the text. */
  lemma {:induction false} TrimStartSnocSpace(s: string, c: char)
    requires IsSpace(c)
    ensures TrimStart(s + [c]) == if TrimStart(s) == "" then "" else TrimStart(s) + [c]
    decreases |s|
  {
    if s == [] {
    } else if !IsSpace(s[0]) {
      assert (s + [c])[0] == s[0];
    } else {
      assert (s + [c])[1..] == s[1..] + [c];
      TrimStartSnocSpace(s[1..], c);
    }
  }

  /** A trailing whitespace character makes no difference to `strip()`. */
  lemma StripSnocSpace(s: string, c: char)
    requires IsSpace(c)
    ensures Strip(s + [c]) == Strip(s)
  {
    TrimStartSnocSpace(s, c);
    var t := TrimStart(s);
    if t != "" {
      assert (t + [c])[..|t|] == t;
    }
  }

  /** Python's `sep.join(xs)`. */
  function Join(sep: string, xs: seq<string>): (r: string)
    ensures |xs| == 1 ==> r == xs[0]
    ensures xs == [] ==> r == ""
  {
    if xs == [] then ""
    else if |xs| == 1 then xs[0]
    else xs[0] + sep + Join(sep, xs[1..])
  }

  /** `Join` extended by one element on the right. */
  lemma {:induction false} JoinSnoc(sep: string, xs: seq<string>, x: string)
    requires xs != []
    ensures Join(sep, xs + [x]) == Join(sep, xs) + sep + x
    decreases |xs|
  {
    if |xs| == 1 {
      assert (xs + [x])[1..] == [x];
    } else {
      assert (xs + [x])[1..] == xs[1..] + [x];
      JoinSnoc(sep, xs[1..], x);
    }
  }

  /** Concatenation of all strings, in order (`"".join(xs)`). */
  function Concat(xs: seq<string>): string {
    if xs == [] then "" else xs[0] + Concat(xs[1..])
  }

  lemma {:induction false} ConcatAppend(xs: seq<string>, ys: seq<string>)
    ensures Concat(xs + ys) == Concat(xs) + Concat(ys)
  {
    if xs == [] {
      assert xs + ys == ys;
    } else {
      assert (xs + ys)[1..] == xs[1..] + ys;
      ConcatAppend(xs[1..], ys);
    }
  }

  predicate IsDigit(c: char) {
    '0' <= c <= '9'
  }

  function DigitChar(d: nat): (c: char)
    requires d < 10
    ensures IsDigit(c)
  {
    "0123456789"[d]
  }

  /** Decimal representation of a natural number, without leading zeros. */
  function NatToString(n: nat): (r: string)
    ensures |r| >= 1
    ensures forall i :: 0 <= i < |r| ==> IsDigit(r[i])
    ensures n > 0 ==> r[0] != '0'
  {
    if n < 10 then [DigitChar(n)]
    else NatToString(n / 10) + [DigitChar(n % 10)]
  }

  /** Python's `str(n)` and JavaScript's `n.toString()` on integers. */
  function IntToString(n: int): (r: string)
    ensures r != ""
  {
    if n < 0 then "-" + NatToString(-n) else NatToString(n)
  }
}

=== FILE: worked.dfy ===
/** The earlier video room client (`Worked.js`): the same feed registry as `VoiceStreaming`,
    except that it does not recognise its own publisher id, and that it renders only the
    feeds whose stream has a video track. */
module WorkedClient {
  import opened Wrappers
  import opened FeedRegistry
  import Text

  /** `subscribeToFeed` without the self check: a handle is attached once the session
      exists, unless the feed already has one. */
  function Subscribe(c: Client, feed: string): (r: (Client, bool))
    ensures r.1 <==> c.ready && feed !in c.handles
    ensures r.0.handles == (if c.ready then c.handles + {feed} else c.handles)
    ensures r.0.streams == c.streams && r.0.feeds == c.feeds && r.0.mids == c.mids
  {
    FeedRegistry.Subscribe(c, feed, false)
  }

  /** The publisher loop: every publisher announced, the client's own included, has its
      mids recorded and, once the session exists, a handle. */
  function OnPublishers(c: Client, pubs: seq<Publisher>): (c': Client)
    ensures forall i :: 0 <= i < |pubs| ==> pubs[i].id in c'.mids
    ensures c.ready ==> forall i :: 0 <= i < |pubs| ==> pubs[i].id in c'.handles
    ensures c'.streams == c.streams && c'.feeds == c.feeds
  {
    FeedRegistry.OnPublishers(c, pubs, false)
  }

  /** A feed is listed on its first track only if no entry with its id exists, so the
      registry invariant (feed ids listed once) is kept. */
  function TrackOn(c: Client, feed: string, t: Track): (c': Client)
    ensures Valid(c) ==> Valid(c') && feed in c'.feeds
    ensures feed in c.streams || feed in c.feeds ==> c'.feeds == c.feeds
    ensures feed !in c.streams && feed !in c.feeds ==> c'.feeds == c.feeds + [feed]
  {
    FeedRegistry.TrackOn(c, feed, t)
  }

  /** Cleanup removes exactly the feed's entry, stream, handle and mids, and the other
      entries keep their order. */
  function CleanupFeed(c: Client, feed: string): (c': Client)
    ensures c'.feeds == Unlist(c.feeds, feed)
    ensures forall f :: f in c'.feeds <==> f in c.feeds && f != feed
    ensures c'.streams == c.streams - {feed} && c'.handles == c.handles - {feed} && c'.mids == c.mids - {feed}
  {
    FeedRegistry.Cleanup(c, feed)
  }

  /** `stream?.getVideoTracks?.().length > 0`. */
  predicate HasVideo(c: Client, feed: string) {
    feed in c.streams && exists i :: 0 <= i < |c.streams[feed]| && c.streams[feed][i].kind == "video"
  }

  /** The feeds rendered, in list order: those whose stream has a video track. */
  function VisibleFeeds(c: Client, feeds: seq<string>): (shown: seq<string>)
    ensures forall f :: f in shown <==> f in feeds && HasVideo(c, f)
    ensures |shown| <= |feeds|
    ensures (forall i :: 0 <= i < |feeds| ==> HasVideo(c, feeds[i])) ==> shown == feeds
  {
    if feeds == [] then []
    else if HasVideo(c, feeds[0]) then [feeds[0]] + VisibleFeeds(c, feeds[1..])
    else VisibleFeeds(c, feeds[1..])
  }

  /** The rendered list keeps list order: the filter distributes over concatenation. */
  lemma {:induction false} VisibleFeedsAppend(c: Client, xs: seq<string>, ys: seq<string>)
    ensures VisibleFeeds(c, xs + ys) == VisibleFeeds(c, xs) + VisibleFeeds(c, ys)
    decreases |xs|
  {
    if xs == [] {
      assert xs + ys == ys;
    } else {
      assert (xs + ys)[1..] == xs[1..] + ys;
      VisibleFeedsAppend(c, xs[1..], ys);
      if HasVideo(c, xs[0]) {
        Text.AppendAssoc([xs[0]], VisibleFeeds(c, xs[1..]), VisibleFeeds(c, ys));
      }
    }
  }

  /** A feed is listed from its first track on, but shown only once a video track has
      arrived: a new video track always makes its feed visible. */
  lemma NewVideoTrackShowsFeed(c: Client, feed: string, t: Track)
    requires Valid(c) && t.kind == "video"
    requires !(feed in c.streams && HasTrack(c.streams[feed], t.id))
    ensures feed in VisibleFeeds(TrackOn(c, feed, t), TrackOn(c, feed, t).feeds)
  {
    var ts := TrackOn(c, feed, t).streams[feed];
    assert ts[|ts| - 1] == t;
  }
}

=== FILE: wrappers.dfy ===
/** Failure-carrying datatypes shared by every module of the model.
    A Python exception or a JavaScript early return becomes a Failure or None value. */
module Wrappers {

  datatype Option<+T> = None | Some(value: T) {

    /** The value held, or `default` when there is none. */
    function GetOr(default: T): T {
      match this
      case Some(v) => v
      case None => default
    }
  }

  datatype Result<+R, +E> = Success(value: R) | Failure(error: E) {

    predicate IsFailure() {
      Failure?
    }

    function PropagateFailure<U>(): Result<U, E>
      requires Failure?
    {
      Failure(error)
    }

    function Extract(): R
      requires Success?
    {
      value
    }
  }
}
